=== FILE: README.md ===
# Hermes collections, conversations and sign-in: a Dafny model

Hermes is a retrieval-augmented chat backend. Users upload files into their own
folder of a blob store. They group files into *collections* (indexes) that they
may share publicly. They then hold *conversations* whose scope is a list of
collection ids and whose history is a list of messages.

This project models the consistency rules that keep these pieces together:

- **Collection filter** (`IndexFilter`): optional query parameters become a
  predicate tree of field-equality and range leaves joined by AND. One predicate
  feeds the count query and the paged content query.
- **Collection lifecycle** (`IndexService`): `createIndex`, `addFiles`,
  `removeFile`, `updateState`, `deleteIndex` and `getIndexFiles`. These are
  validators followed by map updates on the store of collections.
- **Cascade** (`Cascade`): a deleted collection, or one made private, is removed
  from the conversations that use it. Each such conversation also receives one
  system message.
- **File listing pipeline** (`FileFilter`): filter, count, optional sort, page,
  then details, over the blobs of a user's folder. Also the helpers it relies on:
  `compareDateFilter`, `getFileStatus`, `extractOriginalName`, `validateFileIds`,
  `getFileChecksum` and `deleteFile`.
- **Conversation operations** (`ConversationService`): adding and removing
  collections, clearing history or collections, recording an answer, and
  setting the title.
- **User and approval records** (`Users`): validation order, email uniqueness,
  which fields an update overwrites, and which notification is sent.
- **OAuth2 sign-in** (`Security`): the find-or-create rule with the admin
  e-mail, and the `redirect_param` carried through the OAuth2 `state`
  parameter from the authorization request to the success handler.

The stores are pure values: Firestore collections become `map`s keyed by
document id or `seq`s in listing order, and the blob store becomes a
`map<string, BlobMeta>` keyed by full blob name. Every operation is a pure
function that returns the new store or a `Result` failure; a failure leaves
the store as it was, except in `createNewConversation`, which saves the new
empty conversation before adding collections, so a failed add leaves that
empty conversation saved. The user and approval saves can also fail after
writing: their notification step may throw once the record is stored, which
the model keeps as a successful save marked `raisedAfterSave`. Java `null` becomes `Option`, thrown exceptions
become `Failure` values, and `String` methods are modelled on `seq<char>` in
module `Text`. Helper modules: `Wrappers` (Option/Result), `Seqs`
(`indexOf`, `remove(Object)`), `Dates` (calendar days over epoch seconds),
`Ordering` (comparators, stable sort, paging, Java `int`) and `Domain`
(shared records).

## Model

| member | source | states |
|---|---|---|
| IndexFilter.TermsMeaning | src/main/java/com/hermes/service/impl/IndexServiceImpl.java:107-224 | All the terms hold of a collection iff it satisfies the owner scope, shared scope, lower-cased name equality and date relation that the parameters ask for |
| IndexFilter.Build | src/main/java/com/hermes/service/impl/IndexServiceImpl.java:107-238 | No where-clause iff there are no terms; otherwise the clause holds of a collection iff the collection is one the parameters ask for |
| IndexFilter.Combine | src/main/java/com/hermes/service/impl/IndexServiceImpl.java:226-238 | No term means no where-clause, one term is used unwrapped, two or more become one AND; the result holds iff every term holds |
| IndexFilter.DateTermMeaning | src/main/java/com/hermes/service/impl/IndexServiceImpl.java:154-224 | Each comparator's timestamp range (EQ, DIFF, GT, GTE, LT, LTE) holds iff the creation day stands in that relation to the chosen day |
| Dates.DayBounds | src/main/java/com/hermes/service/impl/IndexServiceImpl.java:156-157 | The start of a day is at most its end, which is before the start of the next day |
| Dates.DayOfWithin | src/main/java/com/hermes/service/impl/IndexServiceImpl.java:156-157 | A timestamp falls on a day iff it lies between that day's bounds; before the start iff its day is earlier; after the end iff its day is later |
| IndexFilter.Select | src/main/java/com/hermes/service/impl/IndexServiceImpl.java:240-250 | The counted collections are exactly the stored ones the where-clause accepts |
| IndexFilter.SelectCounts | src/main/java/com/hermes/service/impl/IndexServiceImpl.java:240-250 | Each accepted collection occurs as often as in the store, and no other collection occurs |
| IndexFilter.SelectAppend | src/main/java/com/hermes/service/impl/IndexServiceImpl.java:240-250 | The matches of two consecutive runs of the listing are the matches of the first followed by those of the second, so listing order is kept |
| IndexFilter.Filter | src/main/java/com/hermes/service/impl/IndexServiceImpl.java:240-277 | Total is the number of matching collections; content is the slice at offset page*size of length at most size of the matches sorted by creation time in the requested direction; a negative offset or size is rejected |
| IndexFilter.OrderedPage | src/main/java/com/hermes/service/impl/IndexServiceImpl.java:258-265 | The page is the slice at the offset, at most limit long, of some permutation of the matches sorted by creation time in the requested direction |
| IndexFilter.ContentOffsetAsWritten | src/main/java/com/hermes/service/impl/IndexServiceImpl.java:264 | The offset computed in 32-bit arithmetic equals page*size whenever that product fits |
| IndexFilter.ContentOffsetWraps | src/main/java/com/hermes/service/impl/IndexServiceImpl.java:264 | Page 65536 with size 65536 gives offset 0, although the true product is positive |
| IndexFilter.Find | src/main/java/com/hermes/service/impl/IndexServiceImpl.java:85-101 | Total counts the user's own collections; the page is the slice at page*size, at most size long, of the user's collections sorted by creation time in the requested direction; a negative page or a size below one is rejected |
| IndexFilter.NoFilterCountsLikeFind | src/main/java/com/hermes/service/impl/IndexServiceImpl.java:85-125 | A private-path filter with no other parameter counts the same collections as the owner listing |
| IndexService.GetIndex | src/main/java/com/hermes/service/impl/IndexServiceImpl.java:286-291 | A collection is found iff it exists and the caller created it; otherwise not-found |
| IndexService.FirstClash | src/main/java/com/hermes/service/impl/IndexServiceImpl.java:308-313 | No clash iff the ids are pairwise distinct and none is already present; a reported clash is an id repeated earlier or already present |
| IndexService.Checksums | src/main/java/com/hermes/service/impl/IndexServiceImpl.java:326-330 | The new file map has exactly the requested ids as keys, each mapped to the checksum of the user's blob |
| IndexService.CreateIndex | src/main/java/com/hermes/service/impl/IndexServiceImpl.java:302-342 | Fails with invalid files first, then with a repeated id, then with a taken lower-case name; succeeds iff none applies, adding one private collection with the lower-cased name, the creator, the time and each requested file recorded with its blob checksum, and leaving everything else unchanged |
| IndexService.NewIndex | src/main/java/com/hermes/service/impl/IndexServiceImpl.java:326-338 | The stored collection has the given id, name, lower-cased name, creator and time, is private, and records exactly the requested files, each with its blob checksum |
| IndexService.CreateKeepsNamesUnique | src/main/java/com/hermes/service/impl/IndexServiceImpl.java:315-323 | Creation keeps lower-case names unique across collections |
| IndexService.AddFiles | src/main/java/com/hermes/service/impl/IndexServiceImpl.java:398-434 | Not-found unless the caller owns the collection; a repeated or already present id is a duplicate; then a missing file is invalid-files; on success the old entries are kept, each new file is recorded with its blob checksum and the update time stamped |
| IndexService.RemoveFile | src/main/java/com/hermes/service/impl/IndexServiceImpl.java:384-395 | Fails only when the collection is not the caller's; deletes just the given key, whether or not present, and stamps the update time |
| IndexService.RemoveFileIdempotent | src/main/java/com/hermes/service/impl/IndexServiceImpl.java:384-395 | Removing the same file twice gives the same store as removing it once |
| IndexService.AddThenRemoveFile | src/main/java/com/hermes/service/impl/IndexServiceImpl.java:384-434 | Adding one new file and then removing it restores the collection's file map |
| IndexService.UpdateState | src/main/java/com/hermes/service/impl/IndexServiceImpl.java:345-368 | Sets the shared flag and update time of the caller's collection; only a shared-to-private change starts the cascade, for conversations of other users |
| IndexService.UnshareDetachesOthers | src/main/java/com/hermes/service/impl/IndexServiceImpl.java:351-363 | The owner's conversations are never touched; without a shared-to-private change nothing is touched; on that change another user's conversation that listed the collection once no longer lists it |
| IndexService.DeleteIndex | src/main/java/com/hermes/service/impl/IndexServiceImpl.java:371-381 | Fails iff the collection is not the caller's; removes exactly that collection, and every conversation goes through the deletion cascade |
| IndexService.DeleteLeavesNoReference | src/main/java/com/hermes/service/impl/IndexServiceImpl.java:371-381 | When no conversation lists a collection twice, after deletion no conversation refers to it |
| IndexService.DeleteKeepsNamesUnique | src/main/java/com/hermes/service/impl/IndexServiceImpl.java:371-381 | Deleting a collection keeps the remaining lower-case names unique |
| IndexService.GetIndexFiles | src/main/java/com/hermes/service/impl/IndexServiceImpl.java:437-450 | Not-found if absent; unauthorized if neither the creator asks nor the collection is shared; otherwise its file map |
| IndexService.OwnerMayListFiles | src/main/java/com/hermes/service/impl/IndexServiceImpl.java:437-450 | Whoever finds a collection as its owner may also list its files |
| IndexService.SharingGovernsFileListing | src/main/java/com/hermes/service/impl/IndexServiceImpl.java:345-450 | After sharing anyone may list the collection's files; after unsharing only the owner may; after deletion the collection is not found |
| Cascade.Detach | src/main/java/com/hermes/service/impl/IndexServiceImpl.java:469-477 | The first occurrence of the id is removed and the other ids keep their order; one system message is appended and the update time stamped; identity and title are kept |
| Cascade.RemoveFromConversations | src/main/java/com/hermes/service/impl/IndexServiceImpl.java:452-488 | Selected conversations (those using the id, and on unsharing only those of other users) are detached with the matching notice; all others are returned unchanged, in order |
| Cascade.DeletionDetachesAll | src/main/java/com/hermes/service/impl/IndexServiceImpl.java:455-478 | After a deletion a conversation no longer refers to the collection iff it listed it at most once |
| Cascade.UnshareSparesOwner | src/main/java/com/hermes/service/impl/IndexServiceImpl.java:455-467 | Unsharing never touches the owner's conversations and tells every other user that the collection left the public space |
| Cascade.DeletionSettles | src/main/java/com/hermes/service/impl/IndexServiceImpl.java:455-478 | Without repeated ids a second deletion cascade changes nothing |
| Cascade.DeletionNotice | src/main/java/com/hermes/service/impl/IndexServiceImpl.java:463-467 | The owner is told the collection was deleted by themselves, anyone else that its owner deleted it |
| FileFilter.ValidateFileIds | src/main/java/com/hermes/service/impl/FileServiceImpl.java:82-98 | Fails with invalid files iff some id has no blob in the user's folder; otherwise returns the ids unchanged, repeats included |
| FileFilter.GetFileChecksum | src/main/java/com/hermes/service/impl/FileServiceImpl.java:273-290 | Not-found iff the user's blob is missing; otherwise its MD5 checksum |
| FileFilter.DeleteFile | src/main/java/com/hermes/service/impl/FileServiceImpl.java:238-270 | Refused as in use when any collection still holds the file; otherwise not-found exactly when the blob is missing; otherwise exactly that blob is removed |
| FileFilter.DeleteThenChecksum | src/main/java/com/hermes/service/impl/FileServiceImpl.java:238-290 | After a deletion the file's checksum is not found, while every other file of the user keeps its checksum |
| FileFilter.UploadNameRoundTrip | src/main/java/com/hermes/service/impl/FileServiceImpl.java:108 | A blob stored as a standard UUID, a hyphen and the original name gives back the original name, hyphens included |
| FileFilter.ExtractOriginalName | src/main/java/com/hermes/service/impl/FileServiceImpl.java:391-393 | When there is a fifth hyphen-separated piece after the first hyphen, the original name it yields is a suffix of the stored name |
| FileFilter.OriginalNameRoundTrip | src/main/java/com/hermes/service/impl/FileServiceImpl.java:391-393 | Five hyphen-free groups followed by any name give back that name |
| FileFilter.SearchAsWritten | src/main/java/com/hermes/service/impl/FileServiceImpl.java:172-178 | Text search as written; undefined (the lambda throws) for a blob without metadata |
| FileFilter.SearchAgreesWhereDefined | src/main/java/com/hermes/service/impl/FileServiceImpl.java:172-178 | The written search fails exactly for an active query on a blob without metadata, and agrees with the corrected search everywhere else |
| FileFilter.SearchFailsWithoutMetadata | src/main/java/com/hermes/service/impl/FileServiceImpl.java:175 | A blob named like the query but without metadata makes the written search fail while the corrected one keeps it |
| FileFilter.Search | src/main/java/com/hermes/service/impl/FileServiceImpl.java:172-178 | A blank query keeps every blob; otherwise a blob is kept iff its lower-cased name, or its lower-cased keywords metadata when there is one, contains the lower-cased query |
| FileFilter.GetFileStatus | src/main/java/com/hermes/service/impl/FileServiceImpl.java:400-408 | The status is PENDING or one of the declared names; a status other than PENDING is the upper-cased status metadata, and a declared upper-cased status metadata is always taken |
| FileFilter.StatusMeaning | src/main/java/com/hermes/service/impl/FileServiceImpl.java:180-183 | For a status other than ALL, a blob passes iff its upper-cased metadata status names that status, where a missing or unknown status counts as PENDING |
| FileFilter.CompareDateFilter | src/main/java/com/hermes/service/impl/FileServiceImpl.java:418-435 | DIFF, GT, GTE, LT, LTE and EQ are the corresponding relations between days; NONE is false |
| FileFilter.DateFiltersAgree | src/main/java/com/hermes/service/impl/FileServiceImpl.java:418-435 | The collection filter's timestamp range and the file filter's day comparison agree for every comparator |
| FileFilter.DateOkMeaning | src/main/java/com/hermes/service/impl/FileServiceImpl.java:185-189 | No date or comparator NONE keeps every blob; a missing comparator means EQ; otherwise the creation day must stand in the relation |
| FileFilter.Keep | src/main/java/com/hermes/service/impl/FileServiceImpl.java:165-193 | A blob is kept iff it lies in the user's folder, passes the search, has the requested status unless ALL is asked for, and, when a date is given with a comparator other than NONE, its creation day stands in that relation (EQ when none is given) |
| FileFilter.Select | src/main/java/com/hermes/service/impl/FileServiceImpl.java:165-193 | The kept blobs are blobs of the listing that pass the filter, no more of them than the listing has |
| FileFilter.SelectCounts | src/main/java/com/hermes/service/impl/FileServiceImpl.java:165-193 | Each blob passing the filter occurs as often as in the listing, and no other blob occurs |
| FileFilter.SelectAppend | src/main/java/com/hermes/service/impl/FileServiceImpl.java:165-193 | The kept blobs of two consecutive runs of the listing are those of the first followed by those of the second, so listing order is kept |
| FileFilter.NoFiltersKeepFolder | src/main/java/com/hermes/service/impl/FileServiceImpl.java:168-192 | With no query, status ALL and no date, every blob of the folder listing is kept |
| FileFilter.SortFieldOf | src/main/java/com/hermes/service/impl/FileServiceImpl.java:199-207 | A sort field is chosen iff sortBy is one of name, size, updateTime or createTime |
| FileFilter.Arrange | src/main/java/com/hermes/service/impl/FileServiceImpl.java:199-213 | The result is a permutation of the kept blobs, unchanged without a sort field and sorted by the field (reversed for DESC) otherwise; sorting by name fails on a malformed name when there is anything to compare |
| FileFilter.DetailsOf | src/main/java/com/hermes/service/impl/FileServiceImpl.java:369-383 | Details exist iff the name is well formed; they carry the relative name, the extracted original name, size, checksum, upload time and metadata |
| FileFilter.DetailsAll | src/main/java/com/hermes/service/impl/FileServiceImpl.java:220-221 | Details for a whole page fail iff some blob is malformed, and are otherwise the per-blob details in order |
| FileFilter.Filter | src/main/java/com/hermes/service/impl/FileServiceImpl.java:154-235 | Succeeds iff the sort succeeds, offset and size are not negative and no blob of the page is malformed, failing with malformed-name or invalid-paging otherwise; total is the number of kept blobs and content is the details of the slice at offset page*size of length size of the arranged list |
| FileFilter.TotalIndependentOfPage | src/main/java/com/hermes/service/impl/FileServiceImpl.java:196 | The total does not depend on which page is asked for |
| Ordering.CompareKeysAntisymmetric | src/main/java/com/hermes/service/impl/FileServiceImpl.java:199-207 | Swapping the arguments of a sort comparator negates its answer |
| Ordering.CompareKeysTransitive | src/main/java/com/hermes/service/impl/FileServiceImpl.java:199-207 | The sort comparators are transitive |
| Ordering.Sort | src/main/java/com/hermes/service/impl/FileServiceImpl.java:209-211 | The result is sorted by the key in the requested direction, is a permutation of the input, and is stable: the elements of each tie class keep their input order |
| Ordering.StableSortedUnique | src/main/java/com/hermes/service/impl/FileServiceImpl.java:209-211 | Two lists sorted by the same comparator with the same tie classes are equal |
| Ordering.SortUnique | src/main/java/com/hermes/service/impl/FileServiceImpl.java:209-211 | Any stable sorted arrangement of the input is the one `Sort` returns, so ties never change which files land on a page |
| Ordering.DescendingIsReversedAscending | src/main/java/com/hermes/service/impl/FileServiceImpl.java:210 | A list sorted by the reversed comparator, read backwards, is sorted by the comparator |
| Ordering.NullTimesPlacement | src/main/java/com/hermes/service/impl/FileServiceImpl.java:204-205 | Missing times come after present ones in ascending order and before them in descending order |
| Ordering.Slice | src/main/java/com/hermes/service/impl/FileServiceImpl.java:216-218 | Skip then limit yields the elements from the offset on, at most limit of them |
| Ordering.PagesCoverList | src/main/java/com/hermes/service/impl/FileServiceImpl.java:216-218 | Enough consecutive pages put together give back the whole list |
| Ordering.PagesPrefix | src/main/java/com/hermes/service/impl/FileServiceImpl.java:216-218 | The first n pages put together are the list's first n*size elements, or the whole list when shorter |
| Text.LexCompareTransitive | src/main/java/com/hermes/service/impl/FileServiceImpl.java:200-203 | The name order is transitive |
| ConversationService.GetConversation | src/main/java/com/hermes/service/impl/ConversationServiceImpl.java:53-66 | Found iff stored and, when a user is given, owned by that user |
| ConversationService.CheckRequestAsWritten | src/main/java/com/hermes/service/impl/ConversationServiceImpl.java:231-243 | Accepts iff every requested id is a known collection not already in the conversation, without looking at repeats in the request |
| ConversationService.Attach | src/main/java/com/hermes/service/impl/ConversationServiceImpl.java:245-259 | The ids are appended after the existing ones in request order; one system message naming them is added only for a non-empty request |
| ConversationService.DoAddCollectionAsWritten | src/main/java/com/hermes/service/impl/ConversationServiceImpl.java:217-267 | Rejects a null list and any unknown or already-present id; otherwise the conversation as attached: the ids appended as given and one message naming them when there are any |
| ConversationService.RepeatedRequestLeavesDanglingReference | src/main/java/com/hermes/service/impl/ConversationServiceImpl.java:238 | Asking for the same collection twice in one request lists it twice, and its later deletion still leaves it listed |
| ConversationService.CheckRequest | src/main/java/com/hermes/service/impl/ConversationServiceImpl.java:231-243 | Accepts iff the requested ids are distinct, known and not already present |
| ConversationService.DoAddCollection | src/main/java/com/hermes/service/impl/ConversationServiceImpl.java:217-267 | Fails iff the list is null, repeats an id or names an unknown or present collection; success is the attached conversation, keeps the list free of repeats, and agrees with the written version |
| ConversationService.AddedThenDeletedLeavesNoReference | src/main/java/com/hermes/service/impl/ConversationServiceImpl.java:217-267 | After a successful add, deleting any collection leaves no reference to it |
| ConversationService.AddCollections | src/main/java/com/hermes/service/impl/ConversationServiceImpl.java:131-135 | Not-found unless the caller owns the conversation; otherwise the add above |
| ConversationService.CreateNewConversation | src/main/java/com/hermes/service/impl/ConversationServiceImpl.java:69-78 | The new conversation is stored empty and untitled first; a null or empty list succeeds with it; a non-empty list fails iff it repeats an id or names an unknown collection, and on success the history is the one start message naming the collections; a failed add still leaves the empty one stored |
| ConversationService.RemoveCollection | src/main/java/com/hermes/service/impl/ConversationServiceImpl.java:137-173 | Not-found for a conversation not owned, then for an unknown collection, then not-added; otherwise the first occurrence is removed with the other ids in order, one message naming the collection appended and the update time stamped |
| ConversationService.AddThenRemoveRestores | src/main/java/com/hermes/service/impl/ConversationServiceImpl.java:131-173 | Adding one collection then removing it restores the collection list and leaves two more messages |
| ConversationService.DeleteAllCollections | src/main/java/com/hermes/service/impl/ConversationServiceImpl.java:201-215 | The collection list becomes empty and exactly one system message is appended |
| ConversationService.DeleteAllSettles | src/main/java/com/hermes/service/impl/ConversationServiceImpl.java:137-215 | After every collection is removed the list has no repeats, removing any collection is refused as not added, and no cascade touches the conversation |
| ConversationService.ClearHistory | src/main/java/com/hermes/service/impl/ConversationServiceImpl.java:187-198 | History becomes empty; collections and title are kept |
| ConversationService.ClearHistoryIdempotent | src/main/java/com/hermes/service/impl/ConversationServiceImpl.java:187-198 | Clearing twice is the same as clearing once |
| ConversationService.UpdateConversationWithAnswer | src/main/java/com/hermes/service/impl/ConversationServiceImpl.java:99-120 | Appends the user's question and then the assistant's answer; the title becomes the question only if it was null or empty |
| ConversationService.AnswersKeepTitle | src/main/java/com/hermes/service/impl/ConversationServiceImpl.java:106-115 | The first answered question fixes the title; later answers keep it and add a user and an assistant message each |
| ConversationService.UpdateConversationTitle | src/main/java/com/hermes/service/impl/ConversationServiceImpl.java:81-96 | Not-found unless owned; a null or blank title is rejected; otherwise only the title changes |
| ConversationService.TitleSurvivesAnswers | src/main/java/com/hermes/service/impl/ConversationServiceImpl.java:81-115 | A title set by the user is not replaced by later answers |
| Users.NameFromEmail | src/main/java/com/hermes/service/impl/UserServiceImpl.java:187-191 | Defined iff the address has '@' after a non-empty local part; then it is the local part with its first letter upper-cased |
| Users.NameOfAddress | src/main/java/com/hermes/service/impl/UserServiceImpl.java:187-191 | For local@domain the derived name is the capitalised local part |
| Users.Username | src/main/java/com/hermes/service/impl/UserServiceImpl.java:171-172 | The full name when non-empty, else the name derived from the address |
| Users.StatusNotification | src/main/java/com/hermes/service/impl/UserServiceImpl.java:169-179 | PENDING sends the creation notice, any other status the status notice |
| Users.ValidateUser | src/main/java/com/hermes/service/impl/UserServiceImpl.java:136-166 | Errors in order: missing email, invalid email, missing status, missing role, email used by another record; valid iff none applies |
| Users.ValidatedSaveKeepsEmailsUnique | src/main/java/com/hermes/service/impl/UserServiceImpl.java:160-165 | Saving a validated user under its own id keeps emails unique |
| Users.CreateUser | src/main/java/com/hermes/service/impl/UserServiceImpl.java:58-67 | Fails iff validation fails; otherwise stores the user with creation time under its id, sends the status notification and keeps emails unique; the notification step throws after the save exactly when no name can be had |
| Users.UpdateUser | src/main/java/com/hermes/service/impl/UserServiceImpl.java:69-84 | Only email, comment, status and role are overwritten and the update time stamped; validation runs on the merged record; nothing is sent and nothing throws after the save; emails stay unique |
| Users.UpdateUserStatus | src/main/java/com/hermes/service/impl/UserServiceImpl.java:86-97 | Not-found iff absent; only status and update time change; the status notification goes to the user; without an address or a name nothing is sent and the notification step throws after the save; emails stay unique |
| Users.StatusLastWriteWins | src/main/java/com/hermes/service/impl/UserServiceImpl.java:86-97 | Writing a status twice leaves the store the second write alone would leave |
| Users.UpdateUserRole | src/main/java/com/hermes/service/impl/UserServiceImpl.java:99-122 | Not-found for an unknown user; the role already held is rejected with nothing saved; otherwise only role and update time change, a role notice with the user name and the stored address (possibly none) is sent exactly when a name can be had, the notification step throws after the save exactly when it cannot, and emails stay unique |
| Users.RoleChangeNotRepeatable | src/main/java/com/hermes/service/impl/UserServiceImpl.java:105-107 | Assigning the same role right after a successful change is rejected |
| Users.DeleteUser | src/main/java/com/hermes/service/impl/UserServiceImpl.java:124-130 | Not-found iff absent; otherwise only that user is removed and emails stay unique |
| Users.DeletedUserNotFound | src/main/java/com/hermes/service/impl/UserServiceImpl.java:86-130 | After a deletion, status and role updates and a second deletion of that user report not-found |
| Users.ValidateApproval | src/main/java/com/hermes/service/impl/UserApprovalServiceImpl.java:101-125 | Errors in order: missing email, invalid email, missing status, email used by another record; valid iff none applies |
| Users.ApprovalNotification | src/main/java/com/hermes/service/impl/UserApprovalServiceImpl.java:127-138 | Sent iff a name derives from the address; PENDING sends the creation notice, else the status notice, both to that name and address |
| Users.ValidatedApprovalKeepsEmailsUnique | src/main/java/com/hermes/service/impl/UserApprovalServiceImpl.java:119-124 | Saving a validated approval under its own id keeps emails unique |
| Users.CreateApproval | src/main/java/com/hermes/service/impl/UserApprovalServiceImpl.java:55-63 | Validates before saving, stamps the creation time, notifies, keeps emails unique; the notification step throws after the save exactly when the address yields no name |
| Users.UpdateApproval | src/main/java/com/hermes/service/impl/UserApprovalServiceImpl.java:66-79 | Not-found for an unknown id; otherwise fails iff the merged record fails validation, with its error; only email, comment and status are overwritten and the update time stamped; nothing is sent and nothing throws after the save; emails stay unique |
| Users.UpdateApprovalStatus | src/main/java/com/hermes/service/impl/UserApprovalServiceImpl.java:82-92 | Not-found iff absent; only status and update time change; the approval notification is sent; without an address, or when it yields no name, nothing is sent and the notification step throws after the save; emails stay unique |
| Users.ApprovalStatusLastWriteWins | src/main/java/com/hermes/service/impl/UserApprovalServiceImpl.java:82-92 | Writing an approval status twice leaves the store the second write alone would leave |
| Security.SaveOauth2User | src/main/java/com/hermes/security/SecurityHelper.java:35-63 | An existing user is returned unchanged with no save and no notice; a new admin gets ADMIN, APPROVED and no comment, anyone else USER, PENDING and the login comment; a notice goes only to a new non-admin; emails stay unique |
| Security.SecondSignInFindsFirst | src/main/java/com/hermes/security/SecurityHelper.java:39-41 | Signing in again with the same address finds the stored user and changes nothing |
| Security.CustomizeAuthorizationRequest | src/main/java/com/hermes/security/CustomAuthorizationRequestResolver.java:59-70 | A null or empty requester leaves the request unchanged; otherwise the state gets "&redirect_param=" and the requester appended |
| Security.FirstWithPrefix | src/main/java/com/hermes/security/CustomAuthenticationSuccessHandler.java:47-51 | Returns the text after the prefix in the first segment that starts with it, and nothing iff no segment does |
| Security.ExtractRedirectUriFromState | src/main/java/com/hermes/security/CustomAuthenticationSuccessHandler.java:45-53 | Null iff no '&'-segment starts with "redirect_param="; otherwise the text after it in the first such segment, which never contains '&' and implies the state mentions redirect_param |
| Security.OnAuthenticationSuccess | src/main/java/com/hermes/security/CustomAuthenticationSuccessHandler.java:30-43 | Redirects iff a state is present and yields a value, to that value; otherwise default handling |
| Security.RedirectRoundTrip | src/main/java/com/hermes/security/CustomAuthenticationSuccessHandler.java:45-53 | A non-empty requester without '&' put into the state by the resolver is extracted and redirected to unchanged |
| Security.AmpersandTruncatesRedirect | src/main/java/com/hermes/security/CustomAuthorizationRequestResolver.java:65 | A requester "u&t" is redirected to just "u" |
| Security.EscapeRoundTrip | src/main/java/com/hermes/security/CustomAuthorizationRequestResolver.java:65 | Unescaping an escaped value gives it back |
| Security.CustomizeAuthorizationRequestEscaped | src/main/java/com/hermes/security/CustomAuthorizationRequestResolver.java:59-70 | As the resolver, but the requester is escaped so that it holds no '&' |
| Security.OnAuthenticationSuccessEscaped | src/main/java/com/hermes/security/CustomAuthenticationSuccessHandler.java:30-43 | As the handler, but the extracted value is unescaped |
| Security.EscapedRedirectRoundTrip | src/main/java/com/hermes/security/CustomAuthenticationSuccessHandler.java:45-53 | Every non-empty requester comes back whole through the escaped resolver and handler |
| Security.Resolve | src/main/java/com/hermes/security/CustomAuthorizationRequestResolver.java:40-57 | Null exactly when the default resolver gives null; otherwise its request customised with the escaped requester, attributes kept and the state only extended |
| Security.ResolveRoundTrip | src/main/java/com/hermes/security/CustomAuthorizationRequestResolver.java:40-70 | A request resolved with a non-empty requester leads the escaped success handler back to exactly that requester; without one the request is unchanged |
| Security.GetFullUrl | src/main/java/com/hermes/security/CustomAuthorizationRequestResolver.java:72-81 | The URL alone without a query string, else URL, '?' and the query |
| Security.FullUrlQuery | src/main/java/com/hermes/security/CustomAuthorizationRequestResolver.java:72-81 | For a URL without '?', the first '?' of the full URL separates the URL from the query exactly |

## Left out

- Reactor `Mono`/`Flux` chaining and the fire-and-forget cascade subscription: operations are sequential functions, and the cascade runs synchronously in the same step. Races between cascades are not modelled.
- Firestore, its repositories and Cloud Storage clients: stores are maps and sequences. Firestore's order among equal `createdAt` values is taken as listing order.
- `humanReadableByteCount` and the readable size in file details (floating-point logarithms). File details carry the raw size only.
- Time zones and `LocalDate`: days are whole multiples of 86400 seconds from the epoch in UTC. `createdAt` is assumed to be in epoch seconds; `Utils.getTimestamp` is not part of this model.
- `Utils.isValidEmail` is a parameter `validEmail`. `String.toLowerCase`/`toUpperCase` map only ASCII letters. `FileStatus.valueOf` is a parameter `declared`, the set of status names.
- `ApprovalStatus` and `UserRole` values other than PENDING, APPROVED, ADMIN and USER are carried by name only.
- Users.UpdateUserStatus and Users.UpdateApprovalStatus: a null status argument is not modelled.
- Security.SaveOauth2User: the OAuth name is never null here, and the repository's `findByEmail` answer is a parameter, required to be a stored user with that email.
- Users.ValidateUser and Users.ValidateApproval: email uniqueness looks at every stored record. The source checks the single record `findByEmail` returns. The two agree whenever emails are unique, which every modelled writer of users and approvals preserves (the update writers given that each record carries its own key as id).
- Users.StatusNotification and Users.ApprovalNotification: when no name can be derived from the address, the source throws after the record is saved. These functions return no notice; the operations that call them keep the save and set `raisedAfterSave`, which stands for the error the caller then receives.
- Users.UpdateUserRole: with a full name but no email, the role notice is handed an absent address. The mail service's `sendUserRoleNotification` is not part of this model, so whether it then throws is not modelled.
- E-mail dispatch and message wording: notifications and system messages are datatype values that carry the collection names, not rendered text.
- `getAllFiles`/`getFileData` enrichment of query results, `uploadFile`, `listFiles`, `getCollections`, `deleteConversation` and the plain list/get operations are blob plumbing or direct repository calls.
- `Conversation.java` is not part of this model. A new conversation starts with empty collection and history lists.
- IndexFilter.Filter: the 32-bit wrap-around of the content offset is modelled separately (ContentOffsetAsWritten) and reported below; Filter uses the true product.
- Controllers, security configuration, OIDC wrappers and the query processor are framework glue.
- ConversationService.AddCollections: built on the corrected `DoAddCollection`, so a request naming the same collection twice, which the source accepts and appends twice, is refused with `RepeatedInRequest` (third finding below).
- ConversationService.CreateNewConversation: built on the corrected `DoAddCollection` as well, with the same refusal of a repeated id.
- FileFilter.Keep: built on the corrected `Search`, so with an active search a blob without custom metadata is matched on its name, where the source throws a `NullPointerException` (second finding below).
- FileFilter.Select: keeps blobs by `Keep`, with the same divergence.
- FileFilter.Filter: lists through `Select`, so such a blob is listed where the source's whole listing fails.
- Security.Resolve: built on `CustomizeAuthorizationRequestEscaped`, so a requester containing '%' or '&' is carried percent-encoded, where the source appends it raw (fourth finding below).
- Text.LexCompare: compares Unicode scalar values, while `String.CASE_INSENSITIVE_ORDER` compares UTF-16 code units. The two orders differ between supplementary characters and U+E000..U+FFFF: U+1D11E sorts before U+E000 in Java and after it here.

## Findings

| source | as written | input that shows it | evidently intended | confidence | as-written member | corrected member |
|---|---|---|---|---|---|---|
| src/main/java/com/hermes/service/impl/IndexServiceImpl.java:264 | `setOffset(page * size)` multiplies two `int`s, so the offset wraps modulo 2^32 | page = 65536, size = 65536: the offset becomes 0 and the first page is returned again | the offset is the true product page*size, as `FileServiceImpl` does with a `long` cast at line 216 | not executed | IndexFilter.ContentOffsetAsWritten, IndexFilter.ContentOffsetWraps | IndexFilter.Filter |
| src/main/java/com/hermes/service/impl/FileServiceImpl.java:175 | `blob.getMetadata().get("keywords")` is called on blobs whose metadata map is null | q = "report" and a blob "users/u/x-report" uploaded without metadata: the listing throws instead of returning the blob | a blob without metadata has no keywords, and is matched on its name alone | not executed | FileFilter.SearchAsWritten, FileFilter.SearchFailsWithoutMetadata | FileFilter.Search, FileFilter.SearchAgreesWhereDefined |
| src/main/java/com/hermes/service/impl/ConversationServiceImpl.java:238 | each requested id is checked only against the conversation's existing list, and at line 258 every requested id is appended | a request [c, c] for a known collection c: the conversation lists c twice, and the deletion cascade removes only one occurrence, leaving a reference to a deleted collection | repeated ids in one request are rejected like ids already present, so a conversation lists each collection once | not executed | ConversationService.DoAddCollectionAsWritten, ConversationService.RepeatedRequestLeavesDanglingReference | ConversationService.DoAddCollection, ConversationService.AddedThenDeletedLeavesNoReference |
| src/main/java/com/hermes/security/CustomAuthorizationRequestResolver.java:65 | the requester value is appended to the state unencoded, and the success handler splits the state on '&' | requester "https://app/x?a=1&b=2": after sign-in the user is redirected to "https://app/x?a=1" | the requester comes back whole after sign-in | not executed | Security.CustomizeAuthorizationRequest, Security.AmpersandTruncatesRedirect | Security.CustomizeAuthorizationRequestEscaped, Security.OnAuthenticationSuccessEscaped, Security.EscapedRedirectRoundTrip |

=== FILE: cascade.dfy ===
/** Propagating a collection's removal to the conversations that use it
    (`IndexServiceImpl.removeCollectionFromConversations`). The source runs it in
    the background; here it is one synchronous step over the listing of all
    conversations. */
module Cascade {
  import opened Domain
  import Seqs

  /** A conversation is touched when it uses the collection and either the
      collection is being deleted or the conversation belongs to someone other
      than the collection's owner. */
  predicate Selected(c: Conversation, collectionId: string, ownerId: string, deletion: bool) {
    collectionId in c.collections && (deletion || c.userId != ownerId)
  }

  /** The system message a touched conversation receives. */
  function Notice(c: Conversation, name: string, ownerId: string, deletion: bool): Event {
    if deletion then CollectionDeleted(name, ownerId == c.userId) else CollectionUnshared(name)
  }

  /** One touched conversation: one occurrence of the id is dropped, one system
      message is appended, and the update time is stamped. */
  function Detach(c: Conversation, collectionId: string, notice: Event, now: int): (r: Conversation)
    requires collectionId in c.collections
    ensures r.id == c.id && r.userId == c.userId && r.title == c.title
    ensures multiset(r.collections) == multiset(c.collections) - multiset{collectionId}
    ensures exists k :: && 0 <= k < |c.collections| && c.collections[k] == collectionId
                        && collectionId !in c.collections[..k]
                        && r.collections == c.collections[..k] + c.collections[k + 1..]
    ensures |r.collections| == |c.collections| - 1
    ensures |r.history| == |c.history| + 1
    ensures r.history[..|c.history|] == c.history && r.history[|c.history|] == SystemMessage(notice)
    ensures r.updatedAt == now
  {
    var kept := Seqs.RemoveFirst(c.collections, collectionId);
    assert |kept| == |multiset(kept)|;
    c.(collections := kept, history := c.history + [SystemMessage(notice)], updatedAt := now)
  }

  /** Every conversation of the listing, the selected ones detached from the
      collection, in the same order. */
  function RemoveFromConversations(convs: seq<Conversation>, collectionId: string, name: string,
                                   ownerId: string, deletion: bool, now: int): (r: seq<Conversation>)
    ensures |r| == |convs|
    ensures forall i :: 0 <= i < |convs| && !Selected(convs[i], collectionId, ownerId, deletion) ==> r[i] == convs[i]
    ensures forall i :: 0 <= i < |convs| && Selected(convs[i], collectionId, ownerId, deletion) ==>
              r[i] == Detach(convs[i], collectionId, Notice(convs[i], name, ownerId, deletion), now)
  {
    seq(|convs|, i requires 0 <= i < |convs| =>
      if Selected(convs[i], collectionId, ownerId, deletion)
      then Detach(convs[i], collectionId, Notice(convs[i], name, ownerId, deletion), now)
      else convs[i])
  }

  /** No collection id is listed twice in the conversation. */
  predicate NoRepeats(c: Conversation) {
    Seqs.Distinct(c.collections)
  }

  /** After a deletion no conversation that listed the collection at most once
      refers to it any more; a conversation that listed it twice still does. */
  lemma DeletionDetachesAll(convs: seq<Conversation>, collectionId: string, name: string, ownerId: string, now: int, i: int)
    requires 0 <= i < |convs|
    ensures var r := RemoveFromConversations(convs, collectionId, name, ownerId, true, now);
            collectionId !in r[i].collections <==> Seqs.Occurrences(convs[i].collections, collectionId) <= 1
  {
    var r := RemoveFromConversations(convs, collectionId, name, ownerId, true, now);
    if collectionId in convs[i].collections {
      assert multiset(r[i].collections)[collectionId] == multiset(convs[i].collections)[collectionId] - 1;
    } else {
      assert multiset(convs[i].collections)[collectionId] == 0;
    }
  }

  /** Making a collection private leaves its owner's own conversations alone and
      detaches it from everyone else's. */
  lemma UnshareSparesOwner(convs: seq<Conversation>, collectionId: string, name: string, ownerId: string, now: int, i: int)
    requires 0 <= i < |convs|
    ensures var r := RemoveFromConversations(convs, collectionId, name, ownerId, false, now);
            && (convs[i].userId == ownerId ==> r[i] == convs[i])
            && (convs[i].userId != ownerId && collectionId in convs[i].collections ==>
                  r[i].history == convs[i].history + [SystemMessage(CollectionUnshared(name))])
  {
    var r := RemoveFromConversations(convs, collectionId, name, ownerId, false, now);
    if convs[i].userId != ownerId && collectionId in convs[i].collections {
      assert r[i].history == r[i].history[..|convs[i].history|] + [r[i].history[|convs[i].history|]];
    }
  }

  /** When no conversation lists the collection twice, running the deletion a
      second time changes nothing: the first run left nothing to select. */
  lemma DeletionSettles(convs: seq<Conversation>, collectionId: string, name: string, ownerId: string, now: int)
    requires forall i :: 0 <= i < |convs| ==> NoRepeats(convs[i])
    ensures var once := RemoveFromConversations(convs, collectionId, name, ownerId, true, now);
            RemoveFromConversations(once, collectionId, name, ownerId, true, now) == once
  {
    var once := RemoveFromConversations(convs, collectionId, name, ownerId, true, now);
    var twice := RemoveFromConversations(once, collectionId, name, ownerId, true, now);
    forall i | 0 <= i < |once| ensures twice[i] == once[i] {
      Seqs.DistinctOccurrences(convs[i].collections, collectionId);
      DeletionDetachesAll(convs, collectionId, name, ownerId, now, i);
    }
  }

  /** The owner of a deleted collection is told the collection was deleted and
      removed; anyone else is told its owner deleted it. */
  lemma DeletionNotice(convs: seq<Conversation>, collectionId: string, name: string, ownerId: string, now: int, i: int)
    requires 0 <= i < |convs| && collectionId in convs[i].collections
    ensures var r := RemoveFromConversations(convs, collectionId, name, ownerId, true, now);
            r[i].history[|convs[i].history|] == SystemMessage(CollectionDeleted(name, convs[i].userId == ownerId))
  {
  }
}

=== FILE: conversation_service.dfy ===
/** Conversation references and history (`ConversationServiceImpl`): adding and
    removing collections, clearing, recording answers and titles. The stored
    conversations are a map by id; each operation returns the conversation it
    saves, and an error saves nothing. */
module ConversationService {
  import opened Wrappers
  import opened Domain
  import Seqs
  import Text
  import Cascade

  datatype ConversationError =
    | ConversationNotFound
    | NullCollections
    | CollectionNotFound(id: string)
    | AlreadyAdded(id: string)
    | RepeatedInRequest(id: string)
    | NotAdded(id: string)
    | InvalidTitle

  /** `getConversationById`, with or without the owner: a conversation of
      someone else is not found. */
  function GetConversation(convs: map<string, Conversation>, conversationId: string, userId: Option<string>)
    : (r: Result<Conversation, ConversationError>)
    ensures r.Success? <==> conversationId in convs && (userId.None? || convs[conversationId].userId == userId.value)
    ensures r.Success? ==> r.value == convs[conversationId]
    ensures r.Failure? ==> r.error == ConversationNotFound
  {
    if conversationId in convs && (userId.None? || convs[conversationId].userId == userId.value)
    then Success(convs[conversationId])
    else Failure(ConversationNotFound)
  }

  /** The conversation exists and belongs to the user. */
  predicate Owns(convs: map<string, Conversation>, conversationId: string, userId: string) {
    conversationId in convs && convs[conversationId].userId == userId
  }

  /* ---------- doAddCollection ---------- */

  /** Some requested id names no collection or is already listed. */
  predicate Unusable(ids: seq<string>, indexes: map<string, Index>, existing: seq<string>) {
    exists i :: 0 <= i < |ids| && (ids[i] !in indexes || ids[i] in existing)
  }

  /** The first requested id that is unknown or already in the conversation, in
      request order, as the error the source raises for it. */
  function CheckRequestAsWritten(ids: seq<string>, indexes: map<string, Index>, existing: seq<string>)
    : (r: Option<ConversationError>)
    ensures r.None? <==> forall i :: 0 <= i < |ids| ==> ids[i] in indexes && ids[i] !in existing
    ensures r.Some? ==> r.value.CollectionNotFound? || r.value.AlreadyAdded?
  {
    if |ids| == 0 then None
    else if ids[0] !in indexes then Some(CollectionNotFound(ids[0]))
    else if ids[0] in existing then Some(AlreadyAdded(ids[0]))
    else
      var rest := CheckRequestAsWritten(ids[1..], indexes, existing);
      assert forall i :: 1 <= i < |ids| ==> ids[i] == ids[1..][i - 1];
      rest
  }

  /** The names of the requested collections, in request order. */
  function Names(ids: seq<string>, indexes: map<string, Index>): (r: seq<string>)
    requires forall i :: 0 <= i < |ids| ==> ids[i] in indexes
    ensures |r| == |ids| && forall i :: 0 <= i < |ids| ==> r[i] == indexes[ids[i]].name
  {
    seq(|ids|, i requires 0 <= i < |ids| => indexes[ids[i]].name)
  }

  /** Appends the checked ids, and one system message naming them when there are
      any; an empty request changes only the update time. */
  function Attach(c: Conversation, ids: seq<string>, indexes: map<string, Index>, newConversation: bool, now: int)
    : (r: Conversation)
    requires forall i :: 0 <= i < |ids| ==> ids[i] in indexes
    ensures r.id == c.id && r.userId == c.userId && r.title == c.title && r.updatedAt == now
    ensures r.collections == c.collections + ids
    ensures |ids| == 0 ==> r.history == c.history
    ensures |ids| > 0 ==> r.history == c.history + [SystemMessage(CollectionsAdded(Names(ids, indexes), newConversation))]
  {
    if |ids| > 0 then
      c.(collections := c.collections + ids,
         history := c.history + [SystemMessage(CollectionsAdded(Names(ids, indexes), newConversation))],
         updatedAt := now)
    else c.(updatedAt := now)
  }

  /** `doAddCollection` as written: each requested id is checked against the
      store and against the conversation's list as it was before the request, so
      an id repeated within one request passes and is appended twice. */
  function DoAddCollectionAsWritten(c: Conversation, collections: Option<seq<string>>, indexes: map<string, Index>,
                                    newConversation: bool, now: int): (r: Result<Conversation, ConversationError>)
    ensures r.Failure? <==> collections.None? || Unusable(collections.value, indexes, c.collections)
    ensures collections.None? ==> r == Failure(NullCollections)
    ensures r.Success? ==> r.value.collections == c.collections + collections.value
    ensures r.Success? ==> r.value == Attach(c, collections.value, indexes, newConversation, now)
  {
    if collections.None? then Failure(NullCollections)
    else
      var ids := collections.value;
      var problem := CheckRequestAsWritten(ids, indexes, c.collections);
      if problem.Some? then Failure(problem.value)
      else Success(Attach(c, ids, indexes, newConversation, now))
  }

  /** One request naming the same collection twice is accepted and lists it
      twice; deleting the collection afterwards detaches only one of the two
      entries, and the conversation keeps referring to a deleted collection. */
  lemma RepeatedRequestLeavesDanglingReference(idx: Index)
    ensures var c := Conversation("c", "u", None, [], [], 0);
            var r := DoAddCollectionAsWritten(c, Some([idx.id, idx.id]), map[idx.id := idx], false, 1);
            && r.Success?
            && r.value.collections == [idx.id, idx.id]
            && var after := Cascade.RemoveFromConversations([r.value], idx.id, idx.name, idx.createdBy, true, 2);
               idx.id in after[0].collections
  {
    var c := Conversation("c", "u", None, [], [], 0);
    var ids := [idx.id, idx.id];
    var indexes := map[idx.id := idx];
    assert forall i :: 0 <= i < |ids| ==> ids[i] in indexes && ids[i] !in c.collections;
    var r := DoAddCollectionAsWritten(c, Some(ids), indexes, false, 1);
    assert r.Success?;
    assert r.value.collections == ids;
    assert Seqs.Occurrences(ids, idx.id) == 2 by {
      assert multiset(ids) == multiset{idx.id, idx.id};
    }
    Cascade.DeletionDetachesAll([r.value], idx.id, idx.name, idx.createdBy, 2, 0);
  }

  /** The request check with in-request repeats refused as well. */
  function CheckRequest(ids: seq<string>, indexes: map<string, Index>, existing: seq<string>)
    : (r: Option<ConversationError>)
    ensures r.None? <==> Seqs.Distinct(ids) && forall i :: 0 <= i < |ids| ==> ids[i] in indexes && ids[i] !in existing
    decreases |ids|
  {
    if |ids| == 0 then None
    else
      var last := ids[|ids| - 1];
      var init := ids[..|ids| - 1];
      match CheckRequest(init, indexes, existing)
      case Some(e) =>
        Some(e)
      case None =>
        if last !in indexes then Some(CollectionNotFound(last))
        else if last in existing then Some(AlreadyAdded(last))
        else if last in init then Some(RepeatedInRequest(last))
        else
          assert forall i :: 0 <= i < |init| ==> init[i] != last;
          None
  }

  /** Appending new, distinct ids to a list without repeats keeps it without
      repeats. */
  lemma AppendDistinct(existing: seq<string>, ids: seq<string>)
    requires Seqs.Distinct(ids) && forall i :: 0 <= i < |ids| ==> ids[i] !in existing
    ensures Seqs.Distinct(existing) ==> Seqs.Distinct(existing + ids)
  {
    if Seqs.Distinct(existing) {
      var s := existing + ids;
      var n := |existing|;
      forall i, j | 0 <= i < j < |s| ensures s[i] != s[j] {
        if j < n {
          assert s[i] == existing[i] && s[j] == existing[j];
        } else if i >= n {
          assert s[i] == ids[i - n] && s[j] == ids[j - n];
        } else {
          assert s[i] == existing[i] && s[j] == ids[j - n];
        }
      }
    }
  }

  /** `doAddCollection` with repeats inside one request refused like ids that are
      already listed. */
  function DoAddCollection(c: Conversation, collections: Option<seq<string>>, indexes: map<string, Index>,
                           newConversation: bool, now: int): (r: Result<Conversation, ConversationError>)
    ensures r.Failure? <==> (|| collections.None?
                             || !Seqs.Distinct(collections.value)
                             || Unusable(collections.value, indexes, c.collections))
    ensures collections.None? ==> r == Failure(NullCollections)
    ensures r.Success? ==> r.value.collections == c.collections + collections.value
    ensures r.Success? && Cascade.NoRepeats(c) ==> Cascade.NoRepeats(r.value)
    ensures r.Success? ==> r == DoAddCollectionAsWritten(c, collections, indexes, newConversation, now)
    ensures r.Success? ==> r.value == Attach(c, collections.value, indexes, newConversation, now)
  {
    if collections.None? then Failure(NullCollections)
    else
      var ids := collections.value;
      var problem := CheckRequest(ids, indexes, c.collections);
      if problem.Some? then Failure(problem.value)
      else
        AppendDistinct(c.collections, ids);
        Success(Attach(c, ids, indexes, newConversation, now))
  }

  /** With the repeat check, a deletion detaches a collection from every
      conversation that only ever gained collections through it. */
  lemma AddedThenDeletedLeavesNoReference(c: Conversation, ids: seq<string>, indexes: map<string, Index>,
                                          newConversation: bool, now: int, deleted: string, ownerId: string, later: int)
    requires Cascade.NoRepeats(c)
    requires DoAddCollection(c, Some(ids), indexes, newConversation, now).Success?
    ensures var added := DoAddCollection(c, Some(ids), indexes, newConversation, now).value;
            var after := Cascade.RemoveFromConversations([added], deleted, "", ownerId, true, later);
            deleted !in after[0].collections
  {
    var added := DoAddCollection(c, Some(ids), indexes, newConversation, now).value;
    Seqs.DistinctOccurrences(added.collections, deleted);
    Cascade.DeletionDetachesAll([added], deleted, "", ownerId, later, 0);
  }

  /** `addCollections`: the owner's conversation gains collections. */
  function AddCollections(convs: map<string, Conversation>, conversationId: string, collections: Option<seq<string>>,
                          userId: string, indexes: map<string, Index>, now: int): (r: Result<Conversation, ConversationError>)
    ensures GetConversation(convs, conversationId, Some(userId)).Failure? ==> r == Failure(ConversationNotFound)
    ensures GetConversation(convs, conversationId, Some(userId)).Success? ==>
              r == DoAddCollection(convs[conversationId], collections, indexes, false, now)
  {
    var c :- GetConversation(convs, conversationId, Some(userId));
    DoAddCollection(c, collections, indexes, false, now)
  }

  /** What `createNewConversation` leaves behind: the stored conversation and
      the reply. */
  datatype Created = Created(stored: Conversation, reply: Result<Conversation, ConversationError>)

  /** `createNewConversation`: an empty conversation is saved first; when
      collections are given they are then added to it. A failed addition is
      reported, but the empty conversation stays saved. */
  function CreateNewConversation(newId: string, userId: string, collections: Option<seq<string>>,
                                 indexes: map<string, Index>, now: int): (r: Created)
    ensures r.stored.id == newId && r.stored.userId == userId && r.stored.title.None?
    ensures collections.None? || |collections.value| == 0 ==> r.reply == Success(r.stored) && r.stored.collections == []
    ensures r.reply.Success? ==> r.reply.value == r.stored && r.stored.collections == collections.GetOr([])
    ensures r.reply.Failure? ==> r.stored == Conversation(newId, userId, None, [], [], now)
    ensures collections.Some? && |collections.value| > 0 ==>
              (r.reply.Failure? <==> !Seqs.Distinct(collections.value) || Unusable(collections.value, indexes, []))
    ensures collections.Some? && |collections.value| > 0 && r.reply.Success? ==>
              r.stored.history == [SystemMessage(CollectionsAdded(Names(collections.value, indexes), true))]
  {
    var empty := Conversation(newId, userId, None, [], [], now);
    if collections.None? || |collections.value| == 0 then Created(empty, Success(empty))
    else
      match DoAddCollection(empty, collections, indexes, true, now)
      case Success(c) => Created(c, Success(c))
      case Failure(e) => Created(empty, Failure(e))
  }

  /* ---------- removeCollection, deleteAllCollections, clearHistory ---------- */

  /** `removeCollection`: the collection must exist and be listed; one
      occurrence is dropped and one system message names it. */
  function RemoveCollection(convs: map<string, Conversation>, conversationId: string, collectionId: string,
                            userId: string, indexes: map<string, Index>, now: int): (r: Result<Conversation, ConversationError>)
    ensures r.Failure? <==> (|| !Owns(convs, conversationId, userId)
                             || collectionId !in indexes
                             || collectionId !in convs[conversationId].collections)
    ensures Owns(convs, conversationId, userId) && collectionId !in indexes ==> r == Failure(CollectionNotFound(collectionId))
    ensures (&& Owns(convs, conversationId, userId)
             && collectionId in indexes
             && collectionId !in convs[conversationId].collections) ==> r == Failure(NotAdded(collectionId))
    ensures r.Success? ==>
              var c := convs[conversationId];
              && r.value.id == c.id && r.value.userId == c.userId && r.value.title == c.title
              && multiset(r.value.collections) == multiset(c.collections) - multiset{collectionId}
              && r.value.history == c.history + [SystemMessage(CollectionRemoved(indexes[collectionId].name))]
              && r.value.updatedAt == now
    ensures r.Success? ==>
              var s := convs[conversationId].collections;
              exists k :: && 0 <= k < |s| && s[k] == collectionId && collectionId !in s[..k]
                          && r.value.collections == s[..k] + s[k + 1..]
  {
    var c :- GetConversation(convs, conversationId, Some(userId));
    if collectionId !in indexes then Failure(CollectionNotFound(collectionId))
    else if collectionId !in c.collections then Failure(NotAdded(collectionId))
    else
      Success(c.(collections := Seqs.RemoveFirst(c.collections, collectionId),
                 history := c.history + [SystemMessage(CollectionRemoved(indexes[collectionId].name))],
                 updatedAt := now))
  }

  /** Removing a collection just added gives back the original list; the
      history keeps both messages. */
  lemma AddThenRemoveRestores(convs: map<string, Conversation>, conversationId: string, collectionId: string,
                              userId: string, indexes: map<string, Index>, now: int, later: int)
    requires AddCollections(convs, conversationId, Some([collectionId]), userId, indexes, now).Success?
    ensures var added := AddCollections(convs, conversationId, Some([collectionId]), userId, indexes, now).value;
            var removed := RemoveCollection(convs[conversationId := added], conversationId, collectionId, userId, indexes, later);
            && removed.Success?
            && removed.value.collections == convs[conversationId].collections
            && |removed.value.history| == |convs[conversationId].history| + 2
  {
    var c := convs[conversationId];
    var added := AddCollections(convs, conversationId, Some([collectionId]), userId, indexes, now).value;
    assert [collectionId][0] == collectionId;
    assert collectionId !in c.collections;
    var s := added.collections;
    assert s == c.collections + [collectionId];
    Seqs.FirstIndexIs(s, collectionId, |c.collections|);
    assert s[..|c.collections|] == c.collections;
  }

  /** `deleteAllCollections`: the list is emptied and one system message says so. */
  function DeleteAllCollections(convs: map<string, Conversation>, conversationId: string, userId: string, now: int)
    : (r: Result<Conversation, ConversationError>)
    ensures r.Failure? <==> GetConversation(convs, conversationId, Some(userId)).Failure?
    ensures r.Success? ==>
              && r.value.collections == []
              && |r.value.history| == |convs[conversationId].history| + 1
              && r.value.history[..|convs[conversationId].history|] == convs[conversationId].history
              && r.value.history[|convs[conversationId].history|] == SystemMessage(AllCollectionsRemoved)
  {
    var c :- GetConversation(convs, conversationId, Some(userId));
    Success(c.(collections := [], history := c.history + [SystemMessage(AllCollectionsRemoved)], updatedAt := now))
  }

  /** After every collection is removed, removing any one of them is refused as
      not added, and neither a deletion nor an unsharing touches the conversation. */
  lemma DeleteAllSettles(convs: map<string, Conversation>, conversationId: string, userId: string, now: int,
                         collectionId: string, indexes: map<string, Index>, later: int,
                         name: string, ownerId: string, deletion: bool)
    requires DeleteAllCollections(convs, conversationId, userId, now).Success?
    requires collectionId in indexes
    ensures var c := DeleteAllCollections(convs, conversationId, userId, now).value;
            && Cascade.NoRepeats(c)
            && RemoveCollection(convs[conversationId := c], conversationId, collectionId, userId, indexes, later)
               == Failure(NotAdded(collectionId))
            && Cascade.RemoveFromConversations([c], collectionId, name, ownerId, deletion, later) == [c]
  {
  }

  /** `clearHistory`: the history is emptied and the collections stay. */
  function ClearHistory(convs: map<string, Conversation>, conversationId: string, userId: string, now: int)
    : (r: Result<Conversation, ConversationError>)
    ensures r.Failure? <==> GetConversation(convs, conversationId, Some(userId)).Failure?
    ensures r.Success? ==> r.value.history == [] && r.value.collections == convs[conversationId].collections
                           && r.value.title == convs[conversationId].title
  {
    var c :- GetConversation(convs, conversationId, Some(userId));
    Success(c.(history := [], updatedAt := now))
  }

  /** Clearing the history twice is the same as clearing it once. */
  lemma ClearHistoryIdempotent(convs: map<string, Conversation>, conversationId: string, userId: string, now: int)
    requires ClearHistory(convs, conversationId, userId, now).Success?
    ensures var once := ClearHistory(convs, conversationId, userId, now).value;
            ClearHistory(convs[conversationId := once], conversationId, userId, now) == Success(once)
  {
  }

  /* ---------- answers and titles ---------- */

  /** `updateConversationWithAnswer` (any conversation, by id): the question and
      the answer are appended, and the question becomes the title when there is
      no title yet. */
  function UpdateConversationWithAnswer(convs: map<string, Conversation>, conversationId: string, question: string,
                                        rephrased: Option<string>, answer: string, now: int)
    : (r: Result<Conversation, ConversationError>)
    ensures r.Failure? <==> conversationId !in convs
    ensures r.Success? ==>
              var c := convs[conversationId];
              && r.value.history == c.history + [Message(UserRole, Said(question), rephrased), Message(AssistantRole, Said(answer), None)]
              && r.value.collections == c.collections
              && (c.title.Some? && c.title.value != "" ==> r.value.title == c.title)
              && (c.title.None? || c.title.value == "" ==> r.value.title == Some(question))
  {
    var c :- GetConversation(convs, conversationId, None);
    var title := if c.title.Some? && c.title.value != "" then c.title else Some(question);
    Success(c.(history := c.history + [Message(UserRole, Said(question), rephrased), Message(AssistantRole, Said(answer), None)],
               title := title,
               updatedAt := now))
  }

  /** Once a conversation has a non-empty title, answers never change it, and
      each answer adds exactly two messages, the user's first. */
  lemma AnswersKeepTitle(convs: map<string, Conversation>, conversationId: string, q1: string, a1: string,
                         q2: string, a2: string, now: int)
    requires q1 != ""
    requires UpdateConversationWithAnswer(convs, conversationId, q1, None, a1, now).Success?
    ensures var first := UpdateConversationWithAnswer(convs, conversationId, q1, None, a1, now).value;
            var second := UpdateConversationWithAnswer(convs[conversationId := first], conversationId, q2, None, a2, now);
            && second.Success? && second.value.title == first.title && first.title.Some?
            && |second.value.history| == |convs[conversationId].history| + 4
            && second.value.history[|convs[conversationId].history| + 2].role == UserRole
            && second.value.history[|convs[conversationId].history| + 3].role == AssistantRole
  {
  }

  /** `updateConversationTitle`: the owner's conversation gets a title that is
      neither missing nor blank. */
  function UpdateConversationTitle(convs: map<string, Conversation>, userId: string, conversationId: string,
                                   title: Option<string>, now: int): (r: Result<Conversation, ConversationError>)
    ensures GetConversation(convs, conversationId, Some(userId)).Failure? ==> r == Failure(ConversationNotFound)
    ensures Owns(convs, conversationId, userId) && (title.None? || Text.IsBlank(title.value)) ==> r == Failure(InvalidTitle)
    ensures r.Success? <==> GetConversation(convs, conversationId, Some(userId)).Success? && title.Some? && !Text.IsBlank(title.value)
    ensures r.Success? ==> r.value.title == title && r.value.history == convs[conversationId].history
                           && r.value.collections == convs[conversationId].collections
  {
    var c :- GetConversation(convs, conversationId, Some(userId));
    if title.None? || Text.IsBlank(title.value) then Failure(InvalidTitle)
    else Success(c.(title := title, updatedAt := now))
  }

  /** A title set by the owner survives every later answer. */
  lemma TitleSurvivesAnswers(convs: map<string, Conversation>, userId: string, conversationId: string,
                             title: string, question: string, answer: string, now: int)
    requires UpdateConversationTitle(convs, userId, conversationId, Some(title), now).Success?
    ensures var titled := UpdateConversationTitle(convs, userId, conversationId, Some(title), now).value;
            var answered := UpdateConversationWithAnswer(convs[conversationId := titled], conversationId, question, None, answer, now);
            answered.Success? && answered.value.title == Some(title)
  {
    assert title != "" by {
      if title == "" {
        assert Text.IsBlank(title);
      }
    }
  }
}

=== FILE: dates.dfy ===
/** Calendar days as integers. A day `d` covers the timestamps from
    `StartOfDay(d)` to `EndOfDay(d)` inclusive, and the next day starts right
    after. The zone is fixed (days of 86400 seconds from the epoch); every
    property below uses only the ordering of the bounds. */
module Dates {

  /** How a candidate date is compared with the chosen one. */
  datatype DateComparator = EQ | DIFF | GT | GTE | LT | LTE | NONE

  const SecondsPerDay: int := 86400

  /** `date.atStartOfDay(zone).toEpochSecond()`. */
  function StartOfDay(day: int): int {
    day * SecondsPerDay
  }

  /** `date.plusDays(1).atStartOfDay(zone).minusNanos(1).toEpochSecond()`:
      one nanosecond before the next day, truncated to its second. */
  function EndOfDay(day: int): int {
    StartOfDay(day + 1) - 1
  }

  /** The calendar day a timestamp falls on (`toLocalDate()`). */
  function DayOf(t: int): int {
    t / SecondsPerDay
  }

  lemma DayBounds(day: int)
    ensures StartOfDay(day) <= EndOfDay(day) < StartOfDay(day + 1)
  {
  }

  /** A timestamp lies within the bounds of exactly its own day. */
  lemma DayOfWithin(t: int, day: int)
    ensures DayOf(t) == day <==> StartOfDay(day) <= t <= EndOfDay(day)
    ensures DayOf(t) < day <==> t < StartOfDay(day)
    ensures DayOf(t) > day <==> t > EndOfDay(day)
  {
    var d := DayOf(t);
    assert StartOfDay(d) <= t <= EndOfDay(d);
    if d < day {
      assert StartOfDay(d + 1) <= StartOfDay(day);
    } else if d > day {
      assert StartOfDay(day + 1) <= StartOfDay(d);
    }
  }

  /** How a candidate day stands to the chosen day under each comparator. */
  predicate DayRelation(cmp: DateComparator, candidate: int, chosen: int) {
    match cmp
    case EQ => candidate == chosen
    case DIFF => candidate != chosen
    case GT => candidate > chosen
    case GTE => candidate >= chosen
    case LT => candidate < chosen
    case LTE => candidate <= chosen
    case NONE => true
  }
}

=== FILE: domain.dfy ===
/** The stored documents: collections (`Index`) and conversations, and the
    history messages a conversation keeps. */
module Domain {
  import opened Wrappers

  /** A collection of uploaded files. `files` maps a file id to the checksum it
      had when it was added; `lowercaseName` is the key for case-insensitive
      name uniqueness; `createdAt` and `updatedAt` are timestamps. */
  datatype Index = Index(
    id: string,
    name: string,
    lowercaseName: string,
    files: map<string, string>,
    createdBy: string,
    createdAt: int,
    updatedAt: Option<int>,
    shared: bool)

  datatype Role = UserRole | AssistantRole | SystemRole

  /** What a system message records. Its wording is not modelled, only the event
      and the collection names it mentions. */
  datatype Event =
    | CollectionsAdded(names: seq<string>, newConversation: bool)
    | CollectionRemoved(name: string)
    | AllCollectionsRemoved
      /** `byConversationOwner`: the collection's owner also owns the conversation. */
    | CollectionDeleted(name: string, byConversationOwner: bool)
    | CollectionUnshared(name: string)

  datatype Content = Said(text: string) | Logged(event: Event)

  datatype Message = Message(role: Role, content: Content, rephrased: Option<string>)

  function SystemMessage(e: Event): Message {
    Message(SystemRole, Logged(e), None)
  }

  /** A chat session. `collections` is the ordered list of collection ids in
      scope; a missing list is modelled as the empty one. */
  datatype Conversation = Conversation(
    id: string,
    userId: string,
    title: Option<string>,
    collections: seq<string>,
    history: seq<Message>,
    updatedAt: int)
}

=== FILE: file_filter.dfy ===
/** The file listing (`FileServiceImpl`): the object store offers prefix listing
    only, so the caller's files are filtered, counted, sorted and paged in memory.
    Stored objects are named `users/<userId>/<uuid>-<original file name>`. */
module FileFilter {
  import opened Wrappers
  import Text
  import Seqs
  import opened Dates
  import opened Domain
  import opened Ordering
  import IndexFilter

  /** What the listing reads from a stored object. Every stored object has a
      creation time (seconds); its update time and its custom metadata may be
      missing. */
  datatype BlobMeta = BlobMeta(
    name: string,
    size: int,
    createTime: int,
    updateTime: Option<int>,
    md5: string,
    metadata: Option<map<string, string>>)

  /** A processing status, by its enum constant name. */
  datatype FileStatus = FileStatus(name: string)

  const All: FileStatus := FileStatus("ALL")
  const Pending: FileStatus := FileStatus("PENDING")

  datatype FileError = InvalidFiles | FileNotFound | FileInUse | MalformedName | InvalidPaging

  /** The folder every user's objects live under. */
  const UsersRoot: string := "users/"

  function FolderOf(userId: string): string {
    UsersRoot + userId + ['/']
  }

  /* ---------- validateFileIds and the single-object lookups ---------- */

  /** The ids among `fileIds` that have no object in `folder`, in order. */
  function Missing(fileIds: seq<string>, folder: string, blobs: map<string, BlobMeta>): (r: seq<string>)
    ensures forall id :: id in r <==> id in fileIds && folder + id !in blobs
  {
    if |fileIds| == 0 then []
    else
      var rest := Missing(fileIds[1..], folder, blobs);
      assert fileIds == [fileIds[0]] + fileIds[1..];
      if folder + fileIds[0] in blobs then rest else [fileIds[0]] + rest
  }

  /** Every id names an object in the user's folder. */
  predicate AllStored(fileIds: seq<string>, userId: string, blobs: map<string, BlobMeta>) {
    forall i :: 0 <= i < |fileIds| ==> FolderOf(userId) + fileIds[i] in blobs
  }

  /** `validateFileIds`: fails when any id has no object in the user's folder;
      otherwise hands back the list it was given, repeats included. */
  function ValidateFileIds(fileIds: seq<string>, userId: string, blobs: map<string, BlobMeta>)
    : (r: Result<seq<string>, FileError>)
    ensures r.Failure? <==> !AllStored(fileIds, userId, blobs)
    ensures r.Failure? ==> r.error == InvalidFiles
    ensures r.Success? ==> r.value == fileIds
  {
    var missing := Missing(fileIds, FolderOf(userId), blobs);
    if |missing| > 0 then
      assert missing[0] in missing;
      Failure(InvalidFiles)
    else
      assert forall i :: 0 <= i < |fileIds| ==> fileIds[i] !in missing;
      Success(fileIds)
  }

  /** `getFileChecksum`: the stored checksum of one of the user's files. */
  function GetFileChecksum(fileId: string, userId: string, blobs: map<string, BlobMeta>)
    : (r: Result<string, FileError>)
    ensures r.Failure? <==> FolderOf(userId) + fileId !in blobs
    ensures r.Failure? ==> r.error == FileNotFound
    ensures r.Success? ==> r.value == blobs[FolderOf(userId) + fileId].md5
  {
    var path := FolderOf(userId) + fileId;
    if path !in blobs then Failure(FileNotFound) else Success(blobs[path].md5)
  }

  /** `deleteFile`: refused while any collection, of any owner, holds the file id;
      otherwise the user's object is removed, or reported missing. */
  function DeleteFile(fileId: string, userId: string, collections: seq<Index>, blobs: map<string, BlobMeta>)
    : (r: Result<map<string, BlobMeta>, FileError>)
    ensures r.Failure? <==> (exists c :: c in collections && fileId in c.files) || FolderOf(userId) + fileId !in blobs
    ensures r.Failure? && (exists c :: c in collections && fileId in c.files) ==> r.error == FileInUse
    ensures r.Failure? && !(exists c :: c in collections && fileId in c.files) ==> r.error == FileNotFound
    ensures r.Success? ==> r.value.Keys == blobs.Keys - {FolderOf(userId) + fileId}
    ensures r.Success? ==> forall p :: p in r.value ==> r.value[p] == blobs[p]
  {
    var path := FolderOf(userId) + fileId;
    if exists c :: c in collections && fileId in c.files then Failure(FileInUse)
    else if path !in blobs then Failure(FileNotFound)
    else Success(map p | p in blobs && p != path :: blobs[p])
  }

  /* ---------- extractOriginalName ---------- */

  /** `extractOriginalName`: skips the text up to the first hyphen, splits the
      rest at most four times at hyphens and takes the fifth piece. There is no
      fifth piece when the name has fewer than five hyphens (the source then
      fails with an index error). */
  function ExtractOriginalName(fileName: string): (r: Option<string>)
    ensures r.Some? ==> Seqs.IsSuffix(r.value, fileName)
  {
    var k := Seqs.FirstIndex(fileName, '-');
    var parts := Text.SplitLimit(fileName[k + 1..], '-', 5);
    if |parts| == 5 then
      ExtractedIsSuffix(fileName, k, parts);
      Some(parts[4])
    else None
  }

  /** The fifth piece taken by `ExtractOriginalName` ends the name. */
  lemma ExtractedIsSuffix(fileName: string, k: int, parts: seq<string>)
    requires -1 <= k < |fileName| && parts == Text.SplitLimit(fileName[k + 1..], '-', 5) && |parts| == 5
    ensures Seqs.IsSuffix(parts[4], fileName)
  {
    SplitLimitLastSuffix(fileName[k + 1..], '-', 5);
    Seqs.SuffixOfDrop(parts[4], fileName, k + 1);
  }

  /** The last piece of a split ends the split string. */
  lemma {:induction false} SplitLimitLastSuffix(s: string, c: char, limit: nat)
    requires limit >= 1
    ensures var p := Text.SplitLimit(s, c, limit); Seqs.IsSuffix(p[|p| - 1], s)
    decreases limit, 1
  {
    var k := Seqs.FirstIndex(s, c);
    if limit == 1 || k == -1 {
      Text.SplitLimitWhole(s, c, limit, k);
    } else {
      SplitLimitLastSuffixCut(s, c, limit, k);
    }
  }

  /** The case of `SplitLimitLastSuffix` where the split cuts at `k`. */
  lemma {:induction false} SplitLimitLastSuffixCut(s: string, c: char, limit: nat, k: int)
    requires limit > 1 && k == Seqs.FirstIndex(s, c) && k != -1
    ensures var p := Text.SplitLimit(s, c, limit); Seqs.IsSuffix(p[|p| - 1], s)
    decreases limit, 0
  {
    Text.SplitLimitStep(s, c, limit, k);
    var rest := Text.SplitLimit(s[k + 1..], c, limit - 1);
    SplitLimitLastSuffix(s[k + 1..], c, limit - 1);
    Seqs.SuffixOfDrop(rest[|rest| - 1], s, k + 1);
    LastOfCons(s[..k], rest);
  }

  lemma LastOfCons(x: string, rest: seq<string>)
    requires |rest| > 0
    ensures ([x] + rest)[|[x] + rest| - 1] == rest[|rest| - 1]
  {
  }

  /** Splitting at an occurrence of `c` with no `c` before it peels off one piece. */
  lemma SplitLimitPeel(x: string, c: char, y: string, limit: nat)
    requires c !in x && limit >= 2
    ensures Text.SplitLimit(x + [c] + y, c, limit) == [x] + Text.SplitLimit(y, c, limit - 1)
  {
    var s := x + [c] + y;
    assert s[..|x|] == x;
    assert s[|x| + 1..] == y;
    Seqs.FirstIndexIs(s, c, |x|);
  }

  /** The first hyphen of the name ends a hyphen-free prefix. */
  lemma ExtractAfterPrefix(a: string, rest: string)
    requires '-' !in a
    ensures ExtractOriginalName(a + "-" + rest) ==
      var parts := Text.SplitLimit(rest, '-', 5);
      if |parts| == 5 then Some(parts[4]) else None
  {
    var s := a + "-" + rest;
    assert s[..|a|] == a;
    Seqs.FirstIndexIs(s, '-', |a|);
    assert s[|a| + 1..] == rest;
  }

  predicate NoHyphen(s: string) {
    '-' !in s
  }

  /** `groups[0] + "-" + groups[1] + "-" + ... + "-" + tail`. */
  function JoinGroups(groups: seq<string>, tail: string): string {
    if |groups| == 0 then tail else groups[0] + "-" + JoinGroups(groups[1..], tail)
  }

  /** Splitting hyphen-free groups joined in front of a tail, with one piece more
      than there are groups, gives the groups and the whole tail. */
  lemma {:induction false} SplitJoinedGroups(groups: seq<string>, tail: string)
    requires forall i :: 0 <= i < |groups| ==> NoHyphen(groups[i])
    ensures Text.SplitLimit(JoinGroups(groups, tail), '-', |groups| + 1) == groups + [tail]
  {
    if |groups| == 0 {
      Text.SplitLimitWhole(tail, '-', 1, Seqs.FirstIndex(tail, '-'));
    } else {
      var g, rest := groups[0], groups[1..];
      var joined := JoinGroups(rest, tail);
      forall i | 0 <= i < |rest| ensures NoHyphen(rest[i]) {
        assert rest[i] == groups[i + 1];
      }
      assert NoHyphen(g);
      var n := |groups| + 1;
      assert n - 1 == |rest| + 1;
      var whole := JoinGroups(groups, tail);
      assert groups == [g] + rest;
      JoinGroupsCons(g, rest, tail);
      assert whole == g + ['-'] + joined;
      SplitLimitPeel(g, '-', joined, n);
      SplitJoinedGroups(rest, tail);
      var after := Text.SplitLimit(joined, '-', n - 1);
      assert after == rest + [tail];
      assert Text.SplitLimit(whole, '-', n) == [g] + after;
      Seqs.HeadThenAppend(groups, tail);
    }
  }

  /** A stored name is five hyphen-free groups, each followed by a hyphen, and
      then the original name; extraction gives the original name back, hyphens
      and all. */
  lemma OriginalNameRoundTrip(groups: seq<string>, orig: string)
    requires |groups| == 5
    requires forall i :: 0 <= i < |groups| ==> NoHyphen(groups[i])
    ensures ExtractOriginalName(JoinGroups(groups, orig)) == Some(orig)
  {
    var rest := groups[1..];
    forall i | 0 <= i < |rest| ensures NoHyphen(rest[i]) {
      assert rest[i] == groups[i + 1];
    }
    assert NoHyphen(groups[0]);
    var joined := JoinGroups(rest, orig);
    assert JoinGroups(groups, orig) == groups[0] + "-" + joined;
    SplitJoinedGroups(rest, orig);
    assert Text.SplitLimit(joined, '-', 5) == rest + [orig];
    ExtractAfterPrefix(groups[0], joined);
  }

  lemma JoinGroupsCons(g: string, gs: seq<string>, tail: string)
    ensures JoinGroups([g] + gs, tail) == g + "-" + JoinGroups(gs, tail)
  {
    assert ([g] + gs)[1..] == gs;
  }

  /** Prepending a hyphen-free group keeps every group hyphen-free. */
  lemma ConsNoHyphen(g: string, gs: seq<string>)
    requires NoHyphen(g) && forall i :: 0 <= i < |gs| ==> NoHyphen(gs[i])
    ensures forall i :: 0 <= i < |[g] + gs| ==> NoHyphen(([g] + gs)[i])
  {
    forall i | 0 <= i < |[g] + gs| ensures NoHyphen(([g] + gs)[i]) {
      if i > 0 {
        assert ([g] + gs)[i] == gs[i - 1];
      }
    }
  }

  /** Cutting a string at a hyphen. */
  lemma CutAtHyphen(s: string, i: nat, j: nat)
    requires i <= j < |s| && s[j] == '-'
    ensures s[i..] == s[i..j] + "-" + s[j + 1..]
  {
  }

  predicate IsHexDigit(ch: char) {
    '0' <= ch <= '9' || 'a' <= ch <= 'f' || 'A' <= ch <= 'F'
  }

  /** The text form of a random UUID: 8-4-4-4-12 hexadecimal digits. */
  predicate IsUuid(u: string) {
    && |u| == 36
    && forall i :: 0 <= i < |u| ==>
         if i == 8 || i == 13 || i == 18 || i == 23 then u[i] == '-' else IsHexDigit(u[i])
  }

  /** A segment of hexadecimal digits has no hyphen. */
  lemma HexSegment(u: string, i: nat, j: nat)
    requires i <= j <= |u|
    requires forall k :: i <= k < j ==> IsHexDigit(u[k])
    ensures NoHyphen(u[i..j])
  {
    forall k | 0 <= k < j - i ensures u[i..j][k] != '-' {
      assert u[i..j][k] == u[i + k] && IsHexDigit(u[i + k]);
    }
  }

  /** The five hyphen-separated groups of a UUID. */
  function UuidGroups(u: string): seq<string>
    requires |u| == 36
  {
    [u[..8], u[9..13], u[14..18], u[19..23], u[24..36]]
  }

  /** The groups of a UUID are hexadecimal, so hyphen-free. */
  lemma UuidGroupsHyphenFree(u: string)
    requires IsUuid(u)
    ensures forall i :: 0 <= i < |UuidGroups(u)| ==> NoHyphen(UuidGroups(u)[i])
  {
    HexSegment(u, 0, 8);
    HexSegment(u, 9, 13);
    HexSegment(u, 14, 18);
    HexSegment(u, 19, 23);
    HexSegment(u, 24, 36);
  }

  /** One more group, cut off at a hyphen, in front of an already joined suffix. */
  lemma JoinAtHyphen(s: string, i: nat, j: nat, gs: seq<string>, tail: string)
    requires i <= j < |s| && s[j] == '-' && JoinGroups(gs, tail) == s[j + 1..]
    ensures JoinGroups([s[i..j]] + gs, tail) == s[i..]
  {
    JoinGroupsCons(s[i..j], gs, tail);
    CutAtHyphen(s, i, j);
  }

  /** A text with hyphens at the UUID positions 8, 13, 18, 23 and 36 is its five
      groups joined in front of what follows position 36. */
  lemma JoinAtUuidHyphens(s: string, tail: string)
    requires |s| >= 37 && s[37..] == tail
    requires s[8] == '-' && s[13] == '-' && s[18] == '-' && s[23] == '-' && s[36] == '-'
    ensures JoinGroups([s[0..8]] + ([s[9..13]] + ([s[14..18]] + ([s[19..23]] + [s[24..36]]))), tail) == s
  {
    JoinAtHyphen(s, 24, 36, [], tail);
    var g4 := [s[24..36]];
    assert g4 + [] == g4;
    JoinAtHyphen(s, 19, 23, g4, tail);
    var g3 := [s[19..23]] + g4;
    JoinAtHyphen(s, 14, 18, g3, tail);
    var g2 := [s[14..18]] + g3;
    JoinAtHyphen(s, 9, 13, g2, tail);
    var g1 := [s[9..13]] + g2;
    JoinAtHyphen(s, 0, 8, g1, tail);
  }

  /** Joining the groups of a UUID in front of a name rebuilds `<uuid>-<name>`. */
  lemma UuidGroupsJoin(u: string, orig: string)
    requires IsUuid(u)
    ensures JoinGroups(UuidGroups(u), orig) == u + "-" + orig
  {
    var s := u + "-" + orig;
    assert s[37..] == orig;
    assert s[8] == '-' && s[13] == '-' && s[18] == '-' && s[23] == '-' && s[36] == '-';
    JoinAtUuidHyphens(s, orig);
    assert s[..36] == u;
    assert s[0..8] == u[..8] && s[9..13] == u[9..13] && s[14..18] == u[14..18];
    assert s[19..23] == u[19..23] && s[24..36] == u[24..36];
    assert [s[0..8]] + ([s[9..13]] + ([s[14..18]] + ([s[19..23]] + [s[24..36]]))) == UuidGroups(u);
  }

  /** Uploads name an object `<uuid>-<original name>`; the listing recovers the
      original name from it. */
  lemma UploadNameRoundTrip(u: string, orig: string)
    requires IsUuid(u)
    ensures ExtractOriginalName(u + "-" + orig) == Some(orig)
  {
    UuidGroupsHyphenFree(u);
    UuidGroupsJoin(u, orig);
    OriginalNameRoundTrip(UuidGroups(u), orig);
  }

  /* ---------- the per-object predicates ---------- */

  /** A search runs only for text that is not empty after trimming. */
  predicate SearchActive(q: Option<string>) {
    q.Some? && !Text.TrimIsEmpty(q.value)
  }

  function Keywords(b: BlobMeta): Option<string> {
    if b.metadata.Some? && "keywords" in b.metadata.value then Some(b.metadata.value["keywords"]) else None
  }

  /** The search test as written: the keywords are read from the metadata map
      without a null check, so an object with no custom metadata fails the
      whole request (`None`) as soon as a search runs. */
  function SearchAsWritten(b: BlobMeta, q: Option<string>): Option<bool> {
    if !SearchActive(q) then Some(true)
    else if b.metadata.None? then None
    else
      var needle := Text.ToLower(q.value);
      Some(Text.Contains(Text.ToLower(b.name), needle)
           || (Keywords(b).Some? && Text.Contains(Text.ToLower(Keywords(b).value), needle)))
  }

  /** The search test with missing metadata read as "no keywords". */
  function Search(b: BlobMeta, q: Option<string>): (r: bool)
    ensures !SearchActive(q) ==> r
    ensures SearchActive(q) ==>
      (r <==> || Text.Contains(Text.ToLower(b.name), Text.ToLower(q.value))
              || (&& b.metadata.Some? && "keywords" in b.metadata.value
                  && Text.Contains(Text.ToLower(b.metadata.value["keywords"]), Text.ToLower(q.value))))
    ensures SearchActive(q) && b.metadata.None? ==> (r <==> Text.Contains(Text.ToLower(b.name), Text.ToLower(q.value)))
  {
    !SearchActive(q)
    || Text.Contains(Text.ToLower(b.name), Text.ToLower(q.value))
    || (Keywords(b).Some? && Text.Contains(Text.ToLower(Keywords(b).value), Text.ToLower(q.value)))
  }

  /** The search as written fails exactly for a running search over an object
      without metadata; wherever it answers, it agrees with `Search`. */
  lemma SearchAgreesWhereDefined(b: BlobMeta, q: Option<string>)
    ensures SearchAsWritten(b, q).None? <==> SearchActive(q) && b.metadata.None?
    ensures SearchAsWritten(b, q).Some? ==> SearchAsWritten(b, q).value == Search(b, q)
  {
  }

  /** An uploaded file that has not been given metadata yet, searched for by a
      word of its name, makes the listing fail. */
  lemma SearchFailsWithoutMetadata()
    ensures SearchAsWritten(BlobMeta("users/u/x-report", 1, 0, None, "", None), Some("report")).None?
    ensures Search(BlobMeta("users/u/x-report", 1, 0, None, "", None), Some("report"))
  {
    var name := "users/u/x-report";
    assert "report"[0] > ' ';
    assert Text.ToLower("report") == "report";
    assert Text.ToLower(name)[10..] == "report";
    assert Text.StartsWith(Text.ToLower(name)[10..], "report");
  }

  /** `getFileStatus`: the `status` metadata upper-cased, when it names one of the
      `declared` enum constants; `PENDING` otherwise, metadata missing included. */
  function GetFileStatus(b: BlobMeta, declared: set<string>): (r: FileStatus)
    ensures r == Pending || r.name in declared
    ensures r != Pending ==> b.metadata.Some? && "status" in b.metadata.value && r.name == Text.ToUpper(b.metadata.value["status"])
    ensures b.metadata.Some? && "status" in b.metadata.value && Text.ToUpper(b.metadata.value["status"]) in declared
            ==> r.name == Text.ToUpper(b.metadata.value["status"])
  {
    if b.metadata.None? || "status" !in b.metadata.value then Pending
    else
      var name := Text.ToUpper(b.metadata.value["status"]);
      if name in declared then FileStatus(name) else Pending
  }

  /** `status != ALL` compares the object's status with the requested one. */
  predicate StatusOk(b: BlobMeta, status: FileStatus, declared: set<string>) {
    status == All || GetFileStatus(b, declared) == status
  }

  /** Filtering by a status other than `ALL` keeps an object exactly when its
      metadata names that status, or when it names none and `PENDING` is asked for. */
  lemma StatusMeaning(b: BlobMeta, status: FileStatus, declared: set<string>)
    requires status != All
    ensures StatusOk(b, status, declared) <==>
      if b.metadata.Some? && "status" in b.metadata.value && Text.ToUpper(b.metadata.value["status"]) in declared
      then Text.ToUpper(b.metadata.value["status"]) == status.name
      else status == Pending
  {
  }

  /** `compareDateFilter`, over calendar days. */
  function CompareDateFilter(date: int, chosen: int, cmp: DateComparator): (r: bool)
    ensures cmp != NONE ==> (r <==> DayRelation(cmp, date, chosen))
    ensures cmp == NONE ==> !r
  {
    match cmp
    case DIFF => date < chosen || date > chosen
    case GT => date > chosen
    case GTE => date == chosen || date > chosen
    case LT => date < chosen
    case LTE => date == chosen || date < chosen
    case EQ => date == chosen
    case NONE => false
  }

  /** The collection filter's timestamp range and the file filter's day
      comparison select the same timestamps for every comparator. */
  lemma DateFiltersAgree(day: int, cmp: DateComparator, idx: Index)
    requires cmp != NONE
    ensures IndexFilter.Eval(IndexFilter.DateTerm(day, cmp), idx) <==> CompareDateFilter(DayOf(idx.createdAt), day, cmp)
  {
    IndexFilter.DateTermMeaning(day, cmp, idx);
  }

  /** A missing comparator means `EQ`; no date, or `NONE`, means no date test. */
  predicate DateOk(b: BlobMeta, date: Option<int>, dateCmp: Option<DateComparator>) {
    var cmp := dateCmp.GetOr(EQ);
    date.None? || cmp == NONE || CompareDateFilter(DayOf(b.createTime), date.value, cmp)
  }

  /** The date test in terms of days: none without a date or with `NONE`,
      otherwise the day relation, `EQ` when no comparator is given. */
  lemma DateOkMeaning(b: BlobMeta, date: Option<int>, dateCmp: Option<DateComparator>)
    ensures date.None? || dateCmp == Some(NONE) ==> DateOk(b, date, dateCmp)
    ensures date.Some? && dateCmp.None? ==> (DateOk(b, date, dateCmp) <==> DayOf(b.createTime) == date.value)
    ensures date.Some? && dateCmp.Some? ==> (DateOk(b, date, dateCmp) <==> DayRelation(dateCmp.value, DayOf(b.createTime), date.value))
  {
  }

  /* ---------- the pipeline ---------- */

  datatype FileQuery = FileQuery(
    userId: string,
    q: Option<string>,
    date: Option<int>,
    dateCmp: Option<DateComparator>,
    status: FileStatus,
    sortBy: Option<string>,
    direction: Direction,
    page: Int32,
    size: Int32)

  /** The listing's filter: in the user's folder, and passing the search, status
      and date tests. */
  predicate Keep(b: BlobMeta, query: FileQuery, declared: set<string>)
    ensures Keep(b, query, declared) <==>
      && Text.StartsWith(b.name, FolderOf(query.userId))
      && Search(b, query.q)
      && (query.status == All || GetFileStatus(b, declared) == query.status)
      && (|| query.date.None? || query.dateCmp == Some(NONE)
          || DayRelation(query.dateCmp.GetOr(EQ), DayOf(b.createTime), query.date.value))
  {
    && Text.StartsWith(b.name, FolderOf(query.userId))
    && Search(b, query.q)
    && StatusOk(b, query.status, declared)
    && DateOk(b, query.date, query.dateCmp)
  }

  /** The kept objects, in listing order. */
  function Select(blobs: seq<BlobMeta>, query: FileQuery, declared: set<string>): (r: seq<BlobMeta>)
    ensures |r| <= |blobs|
    ensures forall b :: b in r ==> b in blobs && Keep(b, query, declared)
  {
    if |blobs| == 0 then []
    else
      var rest := Select(blobs[1..], query, declared);
      assert blobs == [blobs[0]] + blobs[1..];
      if Keep(blobs[0], query, declared) then [blobs[0]] + rest else rest
  }

  /** Selection keeps the listing order: the kept objects of two consecutive
      runs are the kept objects of the first, then those of the second. */
  lemma {:induction false} SelectAppend(s1: seq<BlobMeta>, s2: seq<BlobMeta>, query: FileQuery, declared: set<string>)
    ensures Select(s1 + s2, query, declared) == Select(s1, query, declared) + Select(s2, query, declared)
  {
    if |s1| == 0 {
      assert s1 + s2 == s2;
    } else {
      var t := s1 + s2;
      assert t[0] == s1[0] && t[1..] == s1[1..] + s2;
      SelectAppend(s1[1..], s2, query, declared);
      SelectCons(t, query, declared);
      SelectCons(s1, query, declared);
      Seqs.AppendAssoc(if Keep(s1[0], query, declared) then [s1[0]] else [],
                       Select(s1[1..], query, declared), Select(s2, query, declared));
    }
  }

  /** Every kept object keeps its number of occurrences; nothing else occurs. */
  lemma {:induction false} SelectCounts(blobs: seq<BlobMeta>, query: FileQuery, declared: set<string>, b: BlobMeta)
    ensures multiset(Select(blobs, query, declared))[b] == if Keep(b, query, declared) then multiset(blobs)[b] else 0
  {
    if |blobs| > 0 {
      SelectCons(blobs, query, declared);
      SelectCounts(blobs[1..], query, declared, b);
      assert blobs == [blobs[0]] + blobs[1..];
      Seqs.ConsCount([blobs[0]], blobs[1..], b);
      if Keep(blobs[0], query, declared) {
        Seqs.ConsCount([blobs[0]], Select(blobs[1..], query, declared), b);
      } else {
        assert Select(blobs, query, declared) == [] + Select(blobs[1..], query, declared);
      }
    }
  }

  lemma SelectCons(s: seq<BlobMeta>, query: FileQuery, declared: set<string>)
    requires |s| > 0
    ensures Select(s, query, declared) == (if Keep(s[0], query, declared) then [s[0]] else []) + Select(s[1..], query, declared)
  {
  }

  /** With no search, no status and no date, the listing keeps every object in
      the user's folder. */
  lemma {:induction false} NoFiltersKeepFolder(blobs: seq<BlobMeta>, query: FileQuery, declared: set<string>)
    requires query.q.None? && query.status == All && query.date.None?
    requires forall i :: 0 <= i < |blobs| ==> Text.StartsWith(blobs[i].name, FolderOf(query.userId))
    ensures Select(blobs, query, declared) == blobs
  {
    if |blobs| > 0 {
      assert Keep(blobs[0], query, declared);
      NoFiltersKeepFolder(blobs[1..], query, declared);
    }
  }

  datatype SortField = ByName | BySize | ByUpdateTime | ByCreateTime

  /** The four sort fields; any other text, like no text, leaves the order alone. */
  function SortFieldOf(sortBy: Option<string>): (r: Option<SortField>)
    ensures r.Some? <==> sortBy.Some? && sortBy.value in {"name", "size", "updateTime", "createTime"}
  {
    if sortBy == Some("name") then Some(ByName)
    else if sortBy == Some("size") then Some(BySize)
    else if sortBy == Some("updateTime") then Some(ByUpdateTime)
    else if sortBy == Some("createTime") then Some(ByCreateTime)
    else None
  }

  /** The object's name inside `folder`. */
  function RelativeName(b: BlobMeta, folder: string): string {
    if Text.StartsWith(b.name, folder) then b.name[|folder|..] else b.name
  }

  predicate Malformed(b: BlobMeta, folder: string) {
    ExtractOriginalName(RelativeName(b, folder)).None?
  }

  /** The sort keys: the original name compared ignoring case, the size, and the
      two timestamps with a missing one last. */
  function SortKey(field: SortField, folder: string, b: BlobMeta): Key {
    match field
    case ByName => Name(Text.ToLower(ExtractOriginalName(RelativeName(b, folder)).GetOr("")))
    case BySize => Number(b.size)
    case ByUpdateTime => Time(b.updateTime)
    case ByCreateTime => Time(Some(b.createTime))
  }

  function KeyOf(field: SortField, folder: string): BlobMeta -> Key {
    b => SortKey(field, folder, b)
  }

  /** The sort step. Sorting two or more objects by name reads every object's
      original name, so a malformed one fails the request; a single object is
      never compared. */
  function Arrange(kept: seq<BlobMeta>, field: Option<SortField>, direction: Direction, folder: string)
    : (r: Result<seq<BlobMeta>, FileError>)
    ensures r.Failure? <==> field == Some(ByName) && |kept| >= 2 && exists b :: b in kept && Malformed(b, folder)
    ensures r.Failure? ==> r.error == MalformedName
    ensures r.Success? ==> multiset(r.value) == multiset(kept) && |r.value| == |kept|
    ensures r.Success? && field.None? ==> r.value == kept
    ensures r.Success? && field.Some? ==> SortedBy(r.value, KeyOf(field.value, folder), direction == DESC)
  {
    if field.None? then Success(kept)
    else if field == Some(ByName) && |kept| >= 2 && exists b :: b in kept && Malformed(b, folder) then
      Failure(MalformedName)
    else Success(Sort(kept, KeyOf(field.value, folder), direction == DESC))
  }

  /** One entry of the listing. The readable size text is not modelled. */
  datatype FileDetails = FileDetails(
    name: string,
    originalName: string,
    dateUploaded: int,
    sizeInBytes: int,
    checksum: string,
    metadata: Option<map<string, string>>)

  /** `getFileDetails`: fails on a name the original name cannot be read from. */
  function DetailsOf(b: BlobMeta, folder: string): (r: Option<FileDetails>)
    ensures r.None? <==> Malformed(b, folder)
    ensures r.Some? ==> r.value.name == RelativeName(b, folder) && r.value.sizeInBytes == b.size
                        && r.value.checksum == b.md5 && r.value.dateUploaded == b.createTime
    ensures r.Some? ==> r.value.originalName == ExtractOriginalName(RelativeName(b, folder)).value
                        && r.value.metadata == b.metadata
  {
    var original :- ExtractOriginalName(RelativeName(b, folder));
    Some(FileDetails(RelativeName(b, folder), original, b.createTime, b.size, b.md5, b.metadata))
  }

  /** `map(f)` over a list where `f` may fail: the first failure fails the whole. */
  function MapAll<A, B>(s: seq<A>, f: A -> Option<B>): (r: Option<seq<B>>)
    ensures r.None? <==> exists k :: 0 <= k < |s| && f(s[k]).None?
    ensures r.Some? ==> |r.value| == |s| && forall k :: 0 <= k < |s| ==> Some(r.value[k]) == f(s[k])
  {
    if |s| == 0 then Some([])
    else
      match f(s[0])
      case None => None
      case Some(y) =>
        var rest := MapAll(s[1..], f);
        assert forall k :: 1 <= k < |s| ==> s[k] == s[1..][k - 1];
        if rest.None? then None else Some([y] + rest.value)
  }

  /** `getFileDetails` over a page: a malformed name fails the page. */
  function DetailsAll(page: seq<BlobMeta>, folder: string): (r: Result<seq<FileDetails>, FileError>)
    ensures r.Failure? <==> exists k :: 0 <= k < |page| && Malformed(page[k], folder)
    ensures r.Failure? ==> r.error == MalformedName
    ensures r.Success? ==> |r.value| == |page|
    ensures r.Success? ==> forall k :: 0 <= k < |page| ==> Some(r.value[k]) == DetailsOf(page[k], folder)
  {
    match MapAll(page, b => DetailsOf(b, folder))
    case None => Failure(MalformedName)
    case Some(details) => Success(details)
  }

  /** `filter`: filter, count, sort, then the page `[page * size, page * size + size)`
      of the arranged list. The offset is a 64-bit product of two 32-bit values
      and cannot wrap; a negative offset or size is refused. */
  function Filter(blobs: seq<BlobMeta>, query: FileQuery, declared: set<string>)
    : (r: Result<PagedResult<FileDetails>, FileError>)
    ensures r.Success? ==> r.value.totalElements == |Select(blobs, query, declared)|
    ensures r.Success? ==> r.value.size == query.size && r.value.page == query.page
    ensures r.Success? ==> query.page * query.size >= 0 && query.size >= 0
    ensures r.Success? ==>
      var arranged := Arrange(Select(blobs, query, declared), SortFieldOf(query.sortBy), query.direction, FolderOf(query.userId));
      && arranged.Success?
      && var page := Slice(arranged.value, query.page * query.size, query.size);
      && |r.value.content| == |page|
      && forall k :: 0 <= k < |page| ==> Some(r.value.content[k]) == DetailsOf(page[k], FolderOf(query.userId))
    ensures (&& r.Failure?
             && Arrange(Select(blobs, query, declared), SortFieldOf(query.sortBy), query.direction, FolderOf(query.userId)).Success?
             && (query.page * query.size < 0 || query.size < 0))
            ==> r.error == InvalidPaging
    ensures r.Success? <==>
      var arranged := Arrange(Select(blobs, query, declared), SortFieldOf(query.sortBy), query.direction, FolderOf(query.userId));
      && arranged.Success?
      && query.page * query.size >= 0 && query.size >= 0
      && forall b :: b in Slice(arranged.value, query.page * query.size, query.size) ==> !Malformed(b, FolderOf(query.userId))
    ensures Arrange(Select(blobs, query, declared), SortFieldOf(query.sortBy), query.direction, FolderOf(query.userId)).Failure?
            ==> r == Failure(MalformedName)
    ensures r.Failure? ==> r.error == MalformedName || r.error == InvalidPaging
  {
    var folder := FolderOf(query.userId);
    var kept := Select(blobs, query, declared);
    var arranged :- Arrange(kept, SortFieldOf(query.sortBy), query.direction, folder);
    var offset := query.page * query.size;
    if offset < 0 || query.size < 0 then Failure(InvalidPaging)
    else
      var page := Slice(arranged, offset, query.size);
      var details :- DetailsAll(page, folder);
      Success(PagedResult(details, |kept|, query.size, query.page))
  }

  /** The count does not depend on the page asked for. */
  lemma TotalIndependentOfPage(blobs: seq<BlobMeta>, query: FileQuery, other: Int32, declared: set<string>)
    requires Filter(blobs, query, declared).Success?
    requires Filter(blobs, query.(page := other), declared).Success?
    ensures Filter(blobs, query, declared).value.totalElements == Filter(blobs, query.(page := other), declared).value.totalElements
  {
    SelectSameTest(blobs, query, query.(page := other), declared);
  }

  /** Two queries that keep the same objects select the same list. */
  lemma {:induction false} SelectSameTest(blobs: seq<BlobMeta>, query: FileQuery, other: FileQuery, declared: set<string>)
    requires forall b :: Keep(b, query, declared) == Keep(b, other, declared)
    ensures Select(blobs, query, declared) == Select(blobs, other, declared)
  {
    if |blobs| > 0 {
      SelectSameTest(blobs[1..], query, other, declared);
    }
  }

  /* ---------- deleteFile and getFileChecksum together ---------- */

  /** After a deletion the file's checksum is no longer found, while every other
      file of the user keeps its checksum. */
  lemma DeleteThenChecksum(fileId: string, userId: string, collections: seq<Index>, blobs: map<string, BlobMeta>, otherId: string)
    requires DeleteFile(fileId, userId, collections, blobs).Success?
    ensures GetFileChecksum(fileId, userId, DeleteFile(fileId, userId, collections, blobs).value) == Failure(FileNotFound)
    ensures otherId != fileId ==>
      GetFileChecksum(otherId, userId, DeleteFile(fileId, userId, collections, blobs).value) == GetFileChecksum(otherId, userId, blobs)
  {
    var folder := FolderOf(userId);
    if otherId != fileId {
      assert (folder + otherId)[|folder|..] == otherId;
      assert (folder + fileId)[|folder|..] == fileId;
    }
  }
}

=== FILE: index_filter.dfy ===
/** The collection listing filter (`IndexServiceImpl.filter` and `find`): optional
    inputs become a predicate tree of field comparisons joined by AND/OR; the same
    predicate drives a count query and a paged content query ordered by `createdAt`. */
module IndexFilter {
  import opened Wrappers
  import Text
  import Seqs
  import opened Dates
  import opened Domain
  import opened Ordering

  /* ---------- the predicate tree ---------- */

  /** The collection fields the filter refers to. */
  datatype Field = CreatedBy | Shared | LowercaseName | CreatedAt

  datatype Value = Str(s: string) | Flag(b: bool) | Int(n: int)

  /** The store's range operators. */
  datatype RangeOp = Less | AtMost | Greater | AtLeast

  datatype Pred =
    | Eq(field: Field, value: Value)
    | Cmp(field: Field, op: RangeOp, bound: int)
    | And(terms: seq<Pred>)
    | Or(terms: seq<Pred>)

  function FieldValue(idx: Index, f: Field): Value {
    match f
    case CreatedBy => Str(idx.createdBy)
    case Shared => Flag(idx.shared)
    case LowercaseName => Str(idx.lowercaseName)
    case CreatedAt => Int(idx.createdAt)
  }

  predicate InRange(op: RangeOp, x: int, bound: int) {
    match op
    case Less => x < bound
    case AtMost => x <= bound
    case Greater => x > bound
    case AtLeast => x >= bound
  }

  /** In-memory evaluation of a predicate on one collection document. A range
      comparison holds only for an integer-valued field. */
  predicate Eval(p: Pred, idx: Index) {
    match p
    case Eq(f, v) => FieldValue(idx, f) == v
    case Cmp(f, op, b) => FieldValue(idx, f).Int? && InRange(op, FieldValue(idx, f).n, b)
    case And(ts) => forall i :: 0 <= i < |ts| ==> Eval(ts[i], idx)
    case Or(ts) => exists i :: 0 <= i < |ts| && Eval(ts[i], idx)
  }

  /** A where-clause; `None` means the query has none and matches every document. */
  predicate Holds(where: Option<Pred>, idx: Index) {
    where.None? || Eval(where.value, idx)
  }

  /* ---------- building the predicate ---------- */

  datatype CollectionState = ALL | PUBLIC | PRIVATE

  /** The optional inputs of the filter. `date` is a calendar day. */
  datatype FilterParams = FilterParams(
    userId: string,
    targetId: Option<string>,
    q: Option<string>,
    isPublicPath: bool,
    date: Option<int>,
    dateCmp: Option<DateComparator>,
    state: CollectionState)

  predicate NonEmpty(s: Option<string>) {
    s.Some? && s.value != ""
  }

  /** The owner the listing is scoped to, if any. */
  function OwnerFilter(p: FilterParams): Option<string> {
    if p.isPublicPath then (if NonEmpty(p.targetId) then p.targetId else None)
    else Some(p.userId)
  }

  /** The value `shared` must have, if any. */
  function SharedFilter(p: FilterParams): Option<bool> {
    if p.isPublicPath then Some(true)
    else if p.state == ALL then None
    else Some(p.state == PUBLIC)
  }

  predicate DateActive(p: FilterParams) {
    p.date.Some? && p.dateCmp.Some? && p.dateCmp.value != NONE
  }

  /** The `createdAt` range term for a comparator; LTE is the switch's default branch. */
  function DateTerm(day: int, cmp: DateComparator): Pred {
    match cmp
    case EQ => And([Cmp(CreatedAt, AtLeast, StartOfDay(day)), Cmp(CreatedAt, AtMost, EndOfDay(day))])
    case DIFF => Or([Cmp(CreatedAt, Less, StartOfDay(day)), Cmp(CreatedAt, Greater, EndOfDay(day))])
    case GT => Cmp(CreatedAt, Greater, EndOfDay(day))
    case GTE => Cmp(CreatedAt, AtLeast, StartOfDay(day))
    case LT => Cmp(CreatedAt, Less, StartOfDay(day))
    case _ => Cmp(CreatedAt, AtMost, EndOfDay(day))
  }

  /** The active terms, in the order the source adds them. */
  function Terms(p: FilterParams): seq<Pred> {
    OwnerTerms(p) + SharedTerms(p) + NameTerms(p) + DateTerms(p)
  }

  function OwnerTerms(p: FilterParams): seq<Pred> {
    var owner := OwnerFilter(p);
    if owner.Some? then [Eq(CreatedBy, Str(owner.value))] else []
  }

  function SharedTerms(p: FilterParams): seq<Pred> {
    var shared := SharedFilter(p);
    if shared.Some? then [Eq(Shared, Flag(shared.value))] else []
  }

  /** Exact match only: the store offers no substring query. */
  function NameTerms(p: FilterParams): seq<Pred> {
    if NonEmpty(p.q) then [Eq(LowercaseName, Str(Text.ToLower(p.q.value)))] else []
  }

  function DateTerms(p: FilterParams): seq<Pred> {
    if DateActive(p) then [DateTerm(p.date.value, p.dateCmp.value)] else []
  }

  predicate AllHold(ts: seq<Pred>, idx: Index) {
    forall i :: 0 <= i < |ts| ==> Eval(ts[i], idx)
  }

  lemma AllHoldSingle(t: Pred, idx: Index)
    ensures AllHold([t], idx) <==> Eval(t, idx)
  {
    assert [t][0] == t;
  }

  lemma AllHoldAppend(a: seq<Pred>, b: seq<Pred>, idx: Index)
    ensures AllHold(a + b, idx) <==> AllHold(a, idx) && AllHold(b, idx)
  {
    assert forall i :: 0 <= i < |a| ==> (a + b)[i] == a[i];
    assert forall i :: 0 <= i < |b| ==> (a + b)[|a| + i] == b[i];
  }

  /** No term gives no where-clause, one term is used as it is, more are joined
      by one AND. */
  function Combine(terms: seq<Pred>): (r: Option<Pred>)
    ensures |terms| == 0 <==> r.None?
    ensures |terms| == 1 ==> r == Some(terms[0])
    ensures |terms| >= 2 ==> r == Some(And(terms))
    ensures forall idx :: Holds(r, idx) <==> AllHold(terms, idx)
  {
    if |terms| == 0 then None
    else if |terms| == 1 then Some(terms[0])
    else Some(And(terms))
  }

  /** The where-clause: no clause without terms, and otherwise one that holds of
      a collection exactly when the collection is meant to be returned. */
  function Build(p: FilterParams): (r: Option<Pred>)
    ensures r.None? <==> |Terms(p)| == 0
    ensures forall idx :: Holds(r, idx) <==> Matches(p, idx)
  {
    var r := Combine(Terms(p));
    assert forall idx :: Holds(r, idx) <==> Matches(p, idx) by {
      forall idx ensures Holds(r, idx) <==> Matches(p, idx) {
        TermsMeaning(p, idx);
      }
    }
    r
  }

  /* ---------- the reference meaning ---------- */

  /** Which collections the filter is meant to return, stated directly. */
  predicate Matches(p: FilterParams, idx: Index) {
    && (if p.isPublicPath then (NonEmpty(p.targetId) ==> idx.createdBy == p.targetId.value)
        else idx.createdBy == p.userId)
    && (if p.isPublicPath then idx.shared
        else (p.state == PUBLIC ==> idx.shared) && (p.state == PRIVATE ==> !idx.shared))
    && (NonEmpty(p.q) ==> idx.lowercaseName == Text.ToLower(p.q.value))
    && (DateActive(p) ==> DayRelation(p.dateCmp.value, DayOf(idx.createdAt), p.date.value))
  }

  /** Each comparator's timestamp range is exactly the set of timestamps whose day
      stands in that comparator's relation to the chosen day. */
  lemma DateTermMeaning(day: int, cmp: DateComparator, idx: Index)
    requires cmp != NONE
    ensures Eval(DateTerm(day, cmp), idx) <==> DayRelation(cmp, DayOf(idx.createdAt), day)
  {
    DayOfWithin(idx.createdAt, day);
    var t := DateTerm(day, cmp);
    if cmp == EQ {
      assert Eval(t, idx) <==> Eval(t.terms[0], idx) && Eval(t.terms[1], idx);
    } else if cmp == DIFF {
      assert Eval(t, idx) <==> Eval(t.terms[0], idx) || Eval(t.terms[1], idx);
    }
  }

  /** The terms all hold of a collection exactly when the direct meaning does. */
  lemma TermsMeaning(p: FilterParams, idx: Index)
    ensures AllHold(Terms(p), idx) <==> Matches(p, idx)
  {
    if DateActive(p) {
      DateTermMeaning(p.date.value, p.dateCmp.value, idx);
    }
    forall t: Pred { AllHoldSingle(t, idx); }
    AllHoldAppend(OwnerTerms(p), SharedTerms(p), idx);
    AllHoldAppend(OwnerTerms(p) + SharedTerms(p), NameTerms(p), idx);
    AllHoldAppend(OwnerTerms(p) + SharedTerms(p) + NameTerms(p), DateTerms(p), idx);
    assert AllHold(OwnerTerms(p), idx) <==>
      if p.isPublicPath then (NonEmpty(p.targetId) ==> idx.createdBy == p.targetId.value)
      else idx.createdBy == p.userId;
    assert AllHold(SharedTerms(p), idx) <==>
      if p.isPublicPath then idx.shared
      else (p.state == PUBLIC ==> idx.shared) && (p.state == PRIVATE ==> !idx.shared);
    assert AllHold(NameTerms(p), idx) <==> (NonEmpty(p.q) ==> idx.lowercaseName == Text.ToLower(p.q.value));
    assert AllHold(DateTerms(p), idx) <==>
      (DateActive(p) ==> DayRelation(p.dateCmp.value, DayOf(idx.createdAt), p.date.value));
  }

  /* ---------- the queries ---------- */

  /** The documents of `store` (in listing order) that satisfy `where`. */
  function Select(store: seq<Index>, where: Option<Pred>): (r: seq<Index>)
    ensures |r| <= |store|
    ensures forall x :: x in r <==> x in store && Holds(where, x)
  {
    if |store| == 0 then []
    else
      var rest := Select(store[1..], where);
      assert store == [store[0]] + store[1..];
      if Holds(where, store[0]) then [store[0]] + rest else rest
  }

  /** Selection keeps the listing order: the matches of two consecutive runs
      are the matches of the first, then those of the second. */
  lemma {:induction false} SelectAppend(s1: seq<Index>, s2: seq<Index>, where: Option<Pred>)
    ensures Select(s1 + s2, where) == Select(s1, where) + Select(s2, where)
  {
    if |s1| == 0 {
      assert s1 + s2 == s2;
    } else {
      var t := s1 + s2;
      assert t[0] == s1[0] && t[1..] == s1[1..] + s2;
      SelectAppend(s1[1..], s2, where);
      SelectCons(t, where);
      SelectCons(s1, where);
      Seqs.AppendAssoc(if Holds(where, s1[0]) then [s1[0]] else [], Select(s1[1..], where), Select(s2, where));
    }
  }

  /** Every match keeps its number of occurrences; nothing else occurs. */
  lemma {:induction false} SelectCounts(store: seq<Index>, where: Option<Pred>, x: Index)
    ensures multiset(Select(store, where))[x] == if Holds(where, x) then multiset(store)[x] else 0
  {
    if |store| > 0 {
      SelectCons(store, where);
      SelectCounts(store[1..], where, x);
      assert store == [store[0]] + store[1..];
      Seqs.ConsCount([store[0]], store[1..], x);
      if Holds(where, store[0]) {
        Seqs.ConsCount([store[0]], Select(store[1..], where), x);
      } else {
        assert Select(store, where) == [] + Select(store[1..], where);
      }
    }
  }

  lemma SelectCons(s: seq<Index>, where: Option<Pred>)
    requires |s| > 0
    ensures Select(s, where) == (if Holds(where, s[0]) then [s[0]] else []) + Select(s[1..], where)
  {
  }

  function CreatedAtKey(idx: Index): Key {
    Number(idx.createdAt)
  }

  datatype QueryError = InvalidPaging

  /** The offset the content query is built with: `page * size` in Java `int`
      arithmetic, which wraps around. */
  function ContentOffsetAsWritten(page: Int32, size: Int32): (r: Int32)
    ensures 0 <= page * size < 0x8000_0000 ==> r == page * size
  {
    Wrap32(page * size)
  }

  /** The wrap-around lets a page far beyond the end read the first page again. */
  lemma ContentOffsetWraps()
    ensures ContentOffsetAsWritten(65536, 65536) == 0
    ensures 65536 * 65536 > 0
  {
  }

  /** `filter`: count and content from one where-clause. The content query orders
      by `createdAt` (ties keep listing order), skips `page * size` documents and
      keeps at most `size`. The offset is computed without wrap-around; a negative
      offset or limit is rejected by the store. */
  function Filter(store: seq<Index>, p: FilterParams, direction: Direction, page: Int32, size: Int32)
    : (r: Result<PagedResult<Index>, QueryError>)
    ensures r.Failure? <==> page * size < 0 || size < 0
    ensures r.Success? ==> r.value.totalElements == |Select(store, Build(p))|
    ensures r.Success? ==> r.value.size == size && r.value.page == page
    ensures r.Success? ==> |r.value.content| <= size
    ensures r.Success? ==> forall x :: x in r.value.content ==> x in store && Matches(p, x)
    ensures r.Success? ==> exists sorted :: multiset(sorted) == multiset(Select(store, Build(p)))
                              && SortedBy(sorted, CreatedAtKey, direction == DESC)
                              && r.value.content == Slice(sorted, page * size, size)
  {
    var where := Build(p);
    var matching := Select(store, where);
    if page * size < 0 || size < 0 then Failure(InvalidPaging)
    else
      Success(PagedResult(OrderedPage(matching, direction, page * size, size), |matching|, size, page))
  }

  /** The page `[offset, offset + limit)` of `matching` ordered by creation time,
      ties in listing order. */
  function OrderedPage(matching: seq<Index>, direction: Direction, offset: nat, limit: nat): (r: seq<Index>)
    ensures |r| <= limit
    ensures forall x :: x in r ==> x in matching
    ensures exists sorted :: multiset(sorted) == multiset(matching)
                             && SortedBy(sorted, CreatedAtKey, direction == DESC)
                             && r == Slice(sorted, offset, limit)
  {
    var sorted := Sort(matching, CreatedAtKey, direction == DESC);
    SliceMembers(sorted, matching, offset, limit);
    Slice(sorted, offset, limit)
  }

  datatype FindError = IllegalPageRequest

  /** `find`: the owner's collections, paged by a `PageRequest` (which refuses a
      negative page or a size below one) and counted by owner. */
  function Find(store: seq<Index>, userId: string, direction: Direction, page: Int32, size: Int32)
    : (r: Result<PagedResult<Index>, FindError>)
    ensures r.Failure? <==> page < 0 || size < 1
    ensures r.Success? ==> r.value.totalElements == |OwnedBy(store, userId)|
    ensures r.Success? ==> forall x :: x in r.value.content ==> x in store && x.createdBy == userId
    ensures r.Success? ==> |r.value.content| <= size
    ensures r.Success? ==> r.value.size == size && r.value.page == page
    ensures r.Success? ==> exists sorted :: multiset(sorted) == multiset(OwnedBy(store, userId))
                              && SortedBy(sorted, CreatedAtKey, direction == DESC)
                              && r.value.content == Slice(sorted, page * size, size)
  {
    if page < 0 || size < 1 then Failure(IllegalPageRequest)
    else
      var owned := OwnedBy(store, userId);
      Success(PagedResult(OrderedPage(owned, direction, page * size, size), |owned|, size, page))
  }

  function OwnedBy(store: seq<Index>, userId: string): (r: seq<Index>)
    ensures forall x :: x in r <==> x in store && x.createdBy == userId
  {
    Select(store, Some(Eq(CreatedBy, Str(userId))))
  }

  /** Filtering a private listing with no other input counts exactly the
      collections the plain owner listing counts. */
  lemma NoFilterCountsLikeFind(store: seq<Index>, userId: string, direction: Direction, page: Int32, size: Int32)
    requires page >= 0 && size >= 1
    ensures var p := FilterParams(userId, None, None, false, None, None, ALL);
            var f := Filter(store, p, direction, page, size);
            var g := Find(store, userId, direction, page, size);
            f.Success? && g.Success? && f.value.totalElements == g.value.totalElements
  {
    var p := FilterParams(userId, None, None, false, None, None, ALL);
    assert Terms(p) == [Eq(CreatedBy, Str(userId))];
  }
}

=== FILE: index_service.dfy ===
/** The collection lifecycle (`IndexServiceImpl`): create, add and remove files,
    share or unshare, delete, and the file listing's access check. Each
    operation validates first and writes only when every check passed, so an
    error leaves the stored state as it was. */
module IndexService {
  import opened Wrappers
  import opened Domain
  import Seqs
  import Text
  import FileFilter
  import Cascade

  /** The stored collections by id, and every conversation in listing order. */
  datatype State = State(indexes: map<string, Index>, conversations: seq<Conversation>)

  datatype IndexError =
    | IndexNotFound
    | InvalidFiles
    | DuplicateFile(fileId: string)
    | NameTaken(lowercaseName: string)
    | UnauthorizedAccess

  /** Every stored collection carries its own key as id. */
  predicate WellKeyed(indexes: map<string, Index>) {
    forall k :: k in indexes ==> indexes[k].id == k
  }

  /** No two stored collections share a lower-case name. */
  predicate UniqueNames(indexes: map<string, Index>) {
    forall a, b :: a in indexes && b in indexes && a != b ==> indexes[a].lowercaseName != indexes[b].lowercaseName
  }

  predicate NameUsed(indexes: map<string, Index>, lowercaseName: string) {
    exists k :: k in indexes && indexes[k].lowercaseName == lowercaseName
  }

  /** `getIndex(indexId, userId)`: only the owner finds the collection. */
  function GetIndex(indexes: map<string, Index>, indexId: string, userId: string): (r: Result<Index, IndexError>)
    ensures r.Success? <==> indexId in indexes && indexes[indexId].createdBy == userId
    ensures r.Success? ==> r.value == indexes[indexId]
    ensures r.Failure? ==> r.error == IndexNotFound
  {
    if indexId in indexes && indexes[indexId].createdBy == userId then Success(indexes[indexId])
    else Failure(IndexNotFound)
  }

  /* ---------- duplicate detection ---------- */

  /** The first id of `ids` seen before in `ids` or already in `existing`: the
      `HashSet.add` scan of the source. */
  function FirstClash(ids: seq<string>, existing: set<string>): (r: Option<string>)
    ensures r.None? <==> Seqs.Distinct(ids) && forall i :: 0 <= i < |ids| ==> ids[i] !in existing
    ensures r.Some? ==> exists j :: 0 <= j < |ids| && ids[j] == r.value && (ids[j] in ids[..j] || ids[j] in existing)
  {
    ClashFrom(ids, existing, 0)
  }

  function ClashFrom(ids: seq<string>, existing: set<string>, j: nat): (r: Option<string>)
    requires j <= |ids|
    ensures r.None? <==> forall k :: j <= k < |ids| ==> ids[k] !in ids[..k] && ids[k] !in existing
    ensures r.Some? ==> exists k :: j <= k < |ids| && ids[k] == r.value && (ids[k] in ids[..k] || ids[k] in existing)
    decreases |ids| - j
  {
    if j == |ids| then None
    else if ids[j] in ids[..j] || ids[j] in existing then Some(ids[j])
    else ClashFrom(ids, existing, j + 1)
  }

  /** `files` records each of `fileIds` with the checksum of the user's stored object. */
  predicate RecordsChecksums(files: map<string, string>, fileIds: seq<string>, userId: string,
                             blobs: map<string, FileFilter.BlobMeta>) {
    forall i :: 0 <= i < |fileIds| ==>
      && fileIds[i] in files && FileFilter.FolderOf(userId) + fileIds[i] in blobs
      && files[fileIds[i]] == blobs[FileFilter.FolderOf(userId) + fileIds[i]].md5
  }

  /** The checksums of the given files, by file id. */
  function Checksums(fileIds: seq<string>, userId: string, blobs: map<string, FileFilter.BlobMeta>)
    : (r: map<string, string>)
    requires FileFilter.AllStored(fileIds, userId, blobs)
    ensures r.Keys == Seqs.Elements(fileIds)
    ensures forall id :: id in r ==> r[id] == blobs[FileFilter.FolderOf(userId) + id].md5
  {
    map id | id in Seqs.Elements(fileIds) :: FileFilter.GetFileChecksum(id, userId, blobs).value
  }

  /* ---------- createIndex ---------- */

  /** `createIndex`: the files must exist, no id may repeat, and no collection of
      anyone may already have the name in lower case; the new collection is private
      and records each file with its checksum. `newId` is the id the store assigns. */
  function CreateIndex(s: State, blobs: map<string, FileFilter.BlobMeta>, name: string, fileIds: seq<string>,
                       userId: string, newId: string, now: int): (r: Result<State, IndexError>)
    requires newId !in s.indexes
    ensures !FileFilter.AllStored(fileIds, userId, blobs)
            ==> r == Failure(InvalidFiles)
    ensures (&& FileFilter.AllStored(fileIds, userId, blobs)
             && !Seqs.Distinct(fileIds))
            ==> r.Failure? && r.error.DuplicateFile?
    ensures (&& FileFilter.AllStored(fileIds, userId, blobs)
             && Seqs.Distinct(fileIds) && NameUsed(s.indexes, Text.ToLower(name)))
            ==> r == Failure(NameTaken(Text.ToLower(name)))
    ensures r.Success? <==>
            && FileFilter.AllStored(fileIds, userId, blobs)
            && Seqs.Distinct(fileIds) && !NameUsed(s.indexes, Text.ToLower(name))
    ensures r.Success? ==>
            && r.value.conversations == s.conversations
            && r.value.indexes.Keys == s.indexes.Keys + {newId}
            && (forall k :: k in s.indexes ==> r.value.indexes[k] == s.indexes[k])
            && var idx := r.value.indexes[newId];
               && idx.id == newId && idx.name == name && idx.lowercaseName == Text.ToLower(name)
               && idx.createdBy == userId && idx.createdAt == now && !idx.shared
               && idx.files.Keys == Seqs.Elements(fileIds)
               && |idx.files| == |fileIds|
               && RecordsChecksums(idx.files, fileIds, userId, blobs)
  {
    var validation := FileFilter.ValidateFileIds(fileIds, userId, blobs);
    if validation.Failure? then Failure(InvalidFiles)
    else
    var valid := validation.value;
    var clash := FirstClash(valid, {});
    if clash.Some? then Failure(DuplicateFile(clash.value))
    else
      var lower := Text.ToLower(name);
      if NameUsed(s.indexes, lower) then Failure(NameTaken(lower))
      else
        var idx := NewIndex(blobs, name, valid, userId, newId, now);
        Success(s.(indexes := s.indexes[newId := idx]))
  }

  /** The collection `createIndex` stores: private, named as asked, holding every
      file with its checksum. */
  function NewIndex(blobs: map<string, FileFilter.BlobMeta>, name: string, fileIds: seq<string>,
                    userId: string, newId: string, now: int): (idx: Index)
    requires Seqs.Distinct(fileIds)
    requires FileFilter.AllStored(fileIds, userId, blobs)
    ensures idx.id == newId && idx.name == name && idx.lowercaseName == Text.ToLower(name)
    ensures idx.createdBy == userId && idx.createdAt == now && !idx.shared
    ensures idx.files.Keys == Seqs.Elements(fileIds) && |idx.files| == |fileIds|
    ensures RecordsChecksums(idx.files, fileIds, userId, blobs)
  {
    var files := Checksums(fileIds, userId, blobs);
    DistinctSetSize(fileIds);
    Index(newId, name, Text.ToLower(name), files, userId, now, None, false)
  }

  /** A list without repeats has as many distinct elements as entries. */
  lemma {:induction false} DistinctSetSize(ids: seq<string>)
    requires Seqs.Distinct(ids)
    ensures |Seqs.Elements(ids)| == |ids|
  {
    if |ids| > 0 {
      var rest := ids[1..];
      DistinctSetSize(rest);
      assert ids == [ids[0]] + rest;
      assert Seqs.Elements(ids) == Seqs.Elements(rest) + {ids[0]};
      assert ids[0] !in rest by {
        forall i | 0 <= i < |rest| ensures rest[i] != ids[0] {
          assert rest[i] == ids[i + 1];
        }
      }
    }
  }

  /** Creating a collection keeps lower-case names unique. */
  lemma CreateKeepsNamesUnique(s: State, blobs: map<string, FileFilter.BlobMeta>, name: string, fileIds: seq<string>,
                               userId: string, newId: string, now: int)
    requires newId !in s.indexes && UniqueNames(s.indexes)
    requires CreateIndex(s, blobs, name, fileIds, userId, newId, now).Success?
    ensures UniqueNames(CreateIndex(s, blobs, name, fileIds, userId, newId, now).value.indexes)
  {
    var t := CreateIndex(s, blobs, name, fileIds, userId, newId, now).value.indexes;
    ExtendKeepsNamesUnique(s.indexes, t, newId);
  }

  /** Adding one entry whose lower-case name is not yet used keeps names unique. */
  lemma ExtendKeepsNamesUnique(m: map<string, Index>, t: map<string, Index>, k: string)
    requires UniqueNames(m) && k in t && t.Keys == m.Keys + {k}
    requires forall j :: j in m ==> t[j] == m[j]
    requires !NameUsed(m, t[k].lowercaseName)
    ensures UniqueNames(t)
  {
    forall a, b | a in t && b in t && a != b ensures t[a].lowercaseName != t[b].lowercaseName {
      if a == k {
        assert b in m && t[b] == m[b];
      } else if b == k {
        assert a in m && t[a] == m[a];
      }
    }
  }

  /* ---------- addFiles / removeFile ---------- */

  /** `addFiles`: for the owner only. An id repeated in the request or already
      in the collection is refused before the files are checked; on success the
      existing entries stay and each new file is added with its checksum. */
  function AddFiles(s: State, blobs: map<string, FileFilter.BlobMeta>, indexId: string, userId: string,
                    fileIds: seq<string>, now: int): (r: Result<State, IndexError>)
    ensures GetIndex(s.indexes, indexId, userId).Failure? ==> r == Failure(IndexNotFound)
    ensures r.Success? <==>
            && GetIndex(s.indexes, indexId, userId).Success?
            && Seqs.Distinct(fileIds)
            && (forall i :: 0 <= i < |fileIds| ==> fileIds[i] !in s.indexes[indexId].files)
            && FileFilter.AllStored(fileIds, userId, blobs)
    ensures (&& r.Failure? && GetIndex(s.indexes, indexId, userId).Success?
             && (!Seqs.Distinct(fileIds) || exists i :: 0 <= i < |fileIds| && fileIds[i] in s.indexes[indexId].files))
            ==> r.error.DuplicateFile?
    ensures (&& GetIndex(s.indexes, indexId, userId).Success?
             && Seqs.Distinct(fileIds)
             && (forall i :: 0 <= i < |fileIds| ==> fileIds[i] !in s.indexes[indexId].files)
             && !FileFilter.AllStored(fileIds, userId, blobs))
            ==> r == Failure(InvalidFiles)
    ensures r.Success? ==>
            && r.value.conversations == s.conversations
            && r.value.indexes.Keys == s.indexes.Keys
            && (forall k :: k in s.indexes && k != indexId ==> r.value.indexes[k] == s.indexes[k])
            && var before, after := s.indexes[indexId], r.value.indexes[indexId];
               && after == before.(files := after.files, updatedAt := Some(now))
               && after.files.Keys == before.files.Keys + Seqs.Elements(fileIds)
               && (forall f :: f in before.files ==> after.files[f] == before.files[f])
               && |after.files| == |before.files| + |fileIds|
               && RecordsChecksums(after.files, fileIds, userId, blobs)
  {
    var idx :- GetIndex(s.indexes, indexId, userId);
    var clash := FirstClash(fileIds, idx.files.Keys);
    if clash.Some? then Failure(DuplicateFile(clash.value))
    else
      var validation := FileFilter.ValidateFileIds(fileIds, userId, blobs);
      if validation.Failure? then Failure(InvalidFiles)
      else
      var valid := validation.value;
      var added := Checksums(valid, userId, blobs);
      DistinctSetSize(valid);
      assert idx.files.Keys !! added.Keys;
      var files := idx.files + added;
      assert files.Keys == idx.files.Keys + added.Keys;
      Success(s.(indexes := s.indexes[indexId := idx.(files := files, updatedAt := Some(now))]))
  }

  /** `removeFile`: the owner drops one file key; an absent key is no error. */
  function RemoveFile(s: State, indexId: string, userId: string, fileId: string, now: int): (r: Result<State, IndexError>)
    ensures r.Failure? <==> GetIndex(s.indexes, indexId, userId).Failure?
    ensures r.Success? ==>
            && r.value.conversations == s.conversations
            && r.value.indexes.Keys == s.indexes.Keys
            && (forall k :: k in s.indexes && k != indexId ==> r.value.indexes[k] == s.indexes[k])
            && var before, after := s.indexes[indexId], r.value.indexes[indexId];
               && after.files.Keys == before.files.Keys - {fileId}
               && (forall f :: f in after.files ==> after.files[f] == before.files[f])
               && after == before.(files := after.files, updatedAt := Some(now))
  {
    var idx :- GetIndex(s.indexes, indexId, userId);
    Success(s.(indexes := s.indexes[indexId := idx.(files := idx.files - {fileId}, updatedAt := Some(now))]))
  }

  /** Removing the same file twice leaves the same collection as removing it once. */
  lemma RemoveFileIdempotent(s: State, indexId: string, userId: string, fileId: string, now: int)
    requires RemoveFile(s, indexId, userId, fileId, now).Success?
    ensures var once := RemoveFile(s, indexId, userId, fileId, now).value;
            RemoveFile(once, indexId, userId, fileId, now) == Success(once)
  {
    var once := RemoveFile(s, indexId, userId, fileId, now).value;
    assert once.indexes[indexId].files - {fileId} == once.indexes[indexId].files;
    assert once.indexes[indexId := once.indexes[indexId]] == once.indexes;
  }

  /** Files added and then removed again leave the file map as it was. */
  lemma AddThenRemoveFile(s: State, blobs: map<string, FileFilter.BlobMeta>, indexId: string, userId: string,
                          fileId: string, now: int)
    requires AddFiles(s, blobs, indexId, userId, [fileId], now).Success?
    ensures var added := AddFiles(s, blobs, indexId, userId, [fileId], now).value;
            var removed := RemoveFile(added, indexId, userId, fileId, now);
            removed.Success? && removed.value.indexes[indexId].files == s.indexes[indexId].files
  {
    var added := AddFiles(s, blobs, indexId, userId, [fileId], now).value;
    var before := s.indexes[indexId].files;
    assert fileId !in before by { assert [fileId][0] == fileId; }
    assert Seqs.Elements([fileId]) == {fileId};
    var after := added.indexes[indexId].files;
    assert after.Keys == before.Keys + {fileId};
    var removed := RemoveFile(added, indexId, userId, fileId, now).value.indexes[indexId].files;
    assert removed.Keys == before.Keys;
    assert forall f :: f in removed ==> removed[f] == after[f] == before[f];
  }

  /* ---------- updateState / deleteIndex ---------- */

  /** `updateState`: the owner sets the shared flag. Only a change from shared to
      private detaches the collection from other people's conversations. */
  function UpdateState(s: State, indexId: string, userId: string, shared: bool, now: int): (r: Result<State, IndexError>)
    ensures r.Failure? <==> GetIndex(s.indexes, indexId, userId).Failure?
    ensures r.Success? ==>
            && r.value.indexes == s.indexes[indexId := s.indexes[indexId].(shared := shared, updatedAt := Some(now))]
            && var idx := s.indexes[indexId];
               r.value.conversations ==
                 if idx.shared && !shared
                 then Cascade.RemoveFromConversations(s.conversations, idx.id, idx.name, userId, false, now)
                 else s.conversations
  {
    var idx :- GetIndex(s.indexes, indexId, userId);
    var saved := idx.(shared := shared, updatedAt := Some(now));
    var conversations :=
      if idx.shared && !shared
      then Cascade.RemoveFromConversations(s.conversations, saved.id, saved.name, userId, false, now)
      else s.conversations;
    Success(State(s.indexes[indexId := saved], conversations))
  }

  /** Unsharing keeps the names unique and detaches the collection from every
      conversation of another user that listed it once; the owner's
      conversations, and every conversation when nothing was unshared, stay as
      they were. */
  lemma UnshareDetachesOthers(s: State, indexId: string, userId: string, shared: bool, now: int, i: int)
    requires WellKeyed(s.indexes) && UniqueNames(s.indexes)
    requires UpdateState(s, indexId, userId, shared, now).Success?
    requires 0 <= i < |s.conversations|
    ensures var t := UpdateState(s, indexId, userId, shared, now).value;
            && UniqueNames(t.indexes)
            && (s.conversations[i].userId == userId ==> t.conversations[i] == s.conversations[i])
            && (!(s.indexes[indexId].shared && !shared) ==> t.conversations[i] == s.conversations[i])
            && (s.indexes[indexId].shared && !shared && s.conversations[i].userId != userId
                && Seqs.Occurrences(s.conversations[i].collections, indexId) == 1
                ==> indexId !in t.conversations[i].collections)
  {
    var t := UpdateState(s, indexId, userId, shared, now).value;
    var idx := s.indexes[indexId];
    Cascade.UnshareSparesOwner(s.conversations, indexId, idx.name, userId, now, i);
    var c := s.conversations[i];
    if idx.shared && !shared && c.userId != userId && Seqs.Occurrences(c.collections, indexId) == 1 {
      assert indexId in multiset(c.collections);
      assert multiset(t.conversations[i].collections)[indexId] == 0;
    }
  }

  /** `deleteIndex`: the owner deletes the collection, and it is detached from
      every conversation that lists it. */
  function DeleteIndex(s: State, indexId: string, userId: string, now: int): (r: Result<State, IndexError>)
    ensures r.Failure? <==> GetIndex(s.indexes, indexId, userId).Failure?
    ensures r.Success? ==>
            && r.value.indexes.Keys == s.indexes.Keys - {indexId}
            && (forall k :: k in r.value.indexes ==> r.value.indexes[k] == s.indexes[k])
            && r.value.conversations ==
                 Cascade.RemoveFromConversations(s.conversations, indexId, s.indexes[indexId].name, userId, true, now)
  {
    var idx :- GetIndex(s.indexes, indexId, userId);
    var conversations := Cascade.RemoveFromConversations(s.conversations, indexId, idx.name, userId, true, now);
    Success(State(s.indexes - {indexId}, conversations))
  }

  /** After a deletion no conversation refers to the deleted collection, provided
      no conversation listed it twice. */
  lemma DeleteLeavesNoReference(s: State, indexId: string, userId: string, now: int)
    requires DeleteIndex(s, indexId, userId, now).Success?
    requires forall i :: 0 <= i < |s.conversations| ==> Cascade.NoRepeats(s.conversations[i])
    ensures var t := DeleteIndex(s, indexId, userId, now).value;
            forall i :: 0 <= i < |t.conversations| ==> indexId !in t.conversations[i].collections
  {
    var t := DeleteIndex(s, indexId, userId, now).value;
    forall i | 0 <= i < |t.conversations| ensures indexId !in t.conversations[i].collections {
      Seqs.DistinctOccurrences(s.conversations[i].collections, indexId);
      Cascade.DeletionDetachesAll(s.conversations, indexId, s.indexes[indexId].name, userId, now, i);
    }
  }

  /** Deleting a collection keeps the remaining names unique. */
  lemma DeleteKeepsNamesUnique(s: State, indexId: string, userId: string, now: int)
    requires UniqueNames(s.indexes) && DeleteIndex(s, indexId, userId, now).Success?
    ensures UniqueNames(DeleteIndex(s, indexId, userId, now).value.indexes)
  {
  }

  /* ---------- getIndexFiles ---------- */

  /** `getIndexFiles`: the files of a collection the caller owns or that is shared. */
  function GetIndexFiles(indexes: map<string, Index>, indexId: string, userId: string)
    : (r: Result<map<string, string>, IndexError>)
    ensures r.Failure? <==> indexId !in indexes || (userId != indexes[indexId].createdBy && !indexes[indexId].shared)
    ensures r.Failure? && indexId !in indexes ==> r.error == IndexNotFound
    ensures r.Failure? && indexId in indexes ==> r.error == UnauthorizedAccess
    ensures r.Success? ==> r.value == indexes[indexId].files
  {
    if indexId !in indexes then Failure(IndexNotFound)
    else
      var idx := indexes[indexId];
      if userId != idx.createdBy && !idx.shared then Failure(UnauthorizedAccess)
      else Success(idx.files)
  }

  /** Sharing opens a collection's file listing to everyone, unsharing closes it
      to everyone but the owner, and deleting it closes it to all. */
  lemma SharingGovernsFileListing(s: State, indexId: string, owner: string, other: string, now: int)
    requires GetIndex(s.indexes, indexId, owner).Success? && other != owner
    ensures GetIndexFiles(UpdateState(s, indexId, owner, true, now).value.indexes, indexId, other)
            == Success(s.indexes[indexId].files)
    ensures GetIndexFiles(UpdateState(s, indexId, owner, false, now).value.indexes, indexId, other)
            == Failure(UnauthorizedAccess)
    ensures GetIndexFiles(UpdateState(s, indexId, owner, false, now).value.indexes, indexId, owner)
            == Success(s.indexes[indexId].files)
    ensures GetIndexFiles(DeleteIndex(s, indexId, owner, now).value.indexes, indexId, owner)
            == Failure(IndexNotFound)
  {
  }

  /** Whoever may change a collection may also list its files. */
  lemma OwnerMayListFiles(indexes: map<string, Index>, indexId: string, userId: string)
    requires GetIndex(indexes, indexId, userId).Success?
    ensures GetIndexFiles(indexes, indexId, userId).Success?
  {
  }
}

=== FILE: ordering.dfy ===
/** Sort keys, the comparators the services build from them, a stable sort and
    the skip/limit page slice. */
module Ordering {
  import opened Wrappers
  import Text
  import Seqs

  /** A sort key: text in `String.compareTo` order, a number, or a timestamp that
      may be absent (`Comparator.nullsLast`). Keys of different kinds are never
      compared by the services; they are ordered by kind so that the order is total. */
  datatype Key = Name(text: string) | Number(n: int) | Time(at: Option<int>)

  function Sign(x: int): (r: int)
    ensures r == -1 <==> x < 0
    ensures r == 0 <==> x == 0
    ensures r == 1 <==> x > 0
  {
    if x < 0 then -1 else if x == 0 then 0 else 1
  }

  function KindRank(k: Key): int {
    match k
    case Name(_) => 0
    case Number(_) => 1
    case Time(_) => 2
  }

  /** Nulls sort after every present timestamp. */
  function CompareNullsLast(a: Option<int>, b: Option<int>): int {
    match (a, b)
    case (None, None) => 0
    case (None, Some(_)) => 1
    case (Some(_), None) => -1
    case (Some(x), Some(y)) => Sign(x - y)
  }

  /** The sign of the three-way ascending comparison of two keys. */
  function CompareKeys(a: Key, b: Key): (r: int)
    ensures -1 <= r <= 1
  {
    if KindRank(a) != KindRank(b) then Sign(KindRank(a) - KindRank(b))
    else match (a, b)
      case (Name(x), Name(y)) => Text.LexCompare(x, y)
      case (Number(x), Number(y)) => Sign(x - y)
      case (Time(x), Time(y)) => CompareNullsLast(x, y)
  }

  lemma CompareKeysAntisymmetric(a: Key, b: Key)
    ensures CompareKeys(a, b) == -CompareKeys(b, a)
  {
    if a.Name? && b.Name? {
      Text.LexCompareAntisymmetric(a.text, b.text);
    }
  }

  lemma CompareKeysTransitive(a: Key, b: Key, c: Key)
    requires CompareKeys(a, b) <= 0 && CompareKeys(b, c) <= 0
    ensures CompareKeys(a, c) <= 0
  {
    if a.Name? && b.Name? && c.Name? {
      Text.LexCompareTransitive(a.text, b.text, c.text);
    }
  }

  /** `a` may come before `b`: the comparator (ascending, or its `reversed()`
      for descending) does not place `a` after `b`. */
  predicate Precedes(a: Key, b: Key, desc: bool) {
    (if desc then CompareKeys(b, a) else CompareKeys(a, b)) <= 0
  }

  lemma PrecedesTotal(a: Key, b: Key, desc: bool)
    ensures Precedes(a, b, desc) || Precedes(b, a, desc)
  {
    CompareKeysAntisymmetric(a, b);
  }

  lemma PrecedesTransitive(a: Key, b: Key, c: Key, desc: bool)
    requires Precedes(a, b, desc) && Precedes(b, c, desc)
    ensures Precedes(a, c, desc)
  {
    if desc {
      CompareKeysTransitive(c, b, a);
    } else {
      CompareKeysTransitive(a, b, c);
    }
  }

  ghost predicate SortedBy<T>(s: seq<T>, key: T -> Key, desc: bool) {
    forall i, j :: 0 <= i < j < |s| ==> Precedes(key(s[i]), key(s[j]), desc)
  }

  /** An element that precedes every element of a sorted list may be put in
      front of it. */
  lemma ConsSorted<T>(h: T, s: seq<T>, key: T -> Key, desc: bool)
    requires SortedBy(s, key, desc)
    requires forall j :: 0 <= j < |s| ==> Precedes(key(h), key(s[j]), desc)
    ensures SortedBy([h] + s, key, desc)
  {
    assert forall j :: 0 < j < |[h] + s| ==> ([h] + s)[j] == s[j - 1];
  }

  /** An element that the head of a sorted list does not precede precedes every
      element of it. */
  lemma BeforeAll<T>(x: T, s: seq<T>, key: T -> Key, desc: bool)
    requires SortedBy(s, key, desc) && |s| > 0 && !Precedes(key(s[0]), key(x), desc)
    ensures forall j :: 0 <= j < |s| ==> Precedes(key(x), key(s[j]), desc)
  {
    PrecedesTotal(key(s[0]), key(x), desc);
    forall j | 0 <= j < |s| ensures Precedes(key(x), key(s[j]), desc) {
      if j > 0 {
        PrecedesTransitive(key(x), key(s[0]), key(s[j]), desc);
      }
    }
  }

  /** The head of a sorted list precedes every element of any rearrangement of
      its tail with `x` added, when it precedes `x`. */
  lemma HeadBeforeRest<T>(s: seq<T>, x: T, rest: seq<T>, key: T -> Key, desc: bool)
    requires SortedBy(s, key, desc) && |s| > 0 && Precedes(key(s[0]), key(x), desc)
    requires multiset(rest) == multiset(s[1..]) + multiset{x}
    ensures forall j :: 0 <= j < |rest| ==> Precedes(key(s[0]), key(rest[j]), desc)
  {
    forall j | 0 <= j < |rest| ensures Precedes(key(s[0]), key(rest[j]), desc) {
      var y := rest[j];
      assert y in multiset(rest);
      if y != x {
        assert y in multiset(s[1..]);
        var i :| 0 <= i < |s[1..]| && s[1..][i] == y;
        assert s[i + 1] == y;
      }
    }
  }

  /** Two keys the comparator cannot tell apart. */
  predicate Ties(a: Key, b: Key) {
    CompareKeys(a, b) == 0
  }

  /** The elements of `s` that tie with `k`, in their order in `s`. A sort is
      stable when it leaves each such subsequence as it was. */
  function TiedWith<T>(s: seq<T>, key: T -> Key, k: Key): (r: seq<T>)
    ensures |r| <= |s|
  {
    if |s| == 0 then []
    else (if Ties(key(s[0]), k) then [s[0]] else []) + TiedWith(s[1..], key, k)
  }

  lemma {:induction false} TiedWithAppend<T>(a: seq<T>, b: seq<T>, key: T -> Key, k: Key)
    ensures TiedWith(a + b, key, k) == TiedWith(a, key, k) + TiedWith(b, key, k)
    decreases |a|
  {
    if |a| == 0 {
      assert a + b == b;
    } else {
      var ab := a + b;
      var h := if Ties(key(a[0]), k) then [a[0]] else [];
      assert ab[0] == a[0] && ab[1..] == a[1..] + b;
      TiedWithAppend(a[1..], b, key, k);
      Seqs.AppendAssoc(h, TiedWith(a[1..], key, k), TiedWith(b, key, k));
    }
  }

  /** Tied keys precede each other both ways. */
  lemma TiesPrecede(a: Key, b: Key, k: Key, desc: bool)
    requires Ties(a, k) && Ties(b, k)
    ensures Precedes(a, b, desc)
  {
    CompareKeysAntisymmetric(b, k);
    CompareKeysTransitive(a, k, b);
    CompareKeysAntisymmetric(a, k);
    CompareKeysTransitive(b, k, a);
    CompareKeysAntisymmetric(a, b);
  }

  /** When `x` is put in front of a sorted list whose head it strictly precedes,
      no element of the list ties with `x`'s class. */
  lemma {:induction false} NoneTiedAfter<T>(x: T, s: seq<T>, key: T -> Key, desc: bool, k: Key)
    requires SortedBy(s, key, desc) && |s| > 0 && !Precedes(key(s[0]), key(x), desc)
    requires Ties(key(x), k)
    ensures TiedWith(s, key, k) == []
    decreases |s|
  {
    if Ties(key(s[0]), k) {
      TiesPrecede(key(s[0]), key(x), k, desc);
    }
    if |s| > 1 {
      assert SortedBy(s[1..], key, desc);
      if Precedes(key(s[1]), key(x), desc) {
        PrecedesTransitive(key(s[0]), key(s[1]), key(x), desc);
      }
      NoneTiedAfter(x, s[1..], key, desc, k);
    }
  }

  /** Places `x` after every element that does not compare greater than it, as a
      stable sort does with the element that came last. */
  function Insert<T>(s: seq<T>, x: T, key: T -> Key, desc: bool): (r: seq<T>)
    requires SortedBy(s, key, desc)
    ensures SortedBy(r, key, desc)
    ensures multiset(r) == multiset(s) + multiset{x}
    ensures |r| == |s| + 1
  {
    if |s| == 0 then [x]
    else if !Precedes(key(s[0]), key(x), desc) then
      BeforeAll(x, s, key, desc);
      ConsSorted(x, s, key, desc);
      [x] + s
    else
      var rest := Insert(s[1..], x, key, desc);
      HeadBeforeRest(s, x, rest, key, desc);
      ConsSorted(s[0], rest, key, desc);
      assert s == [s[0]] + s[1..];
      [s[0]] + rest
  }

  /** Inserting `x` appends it to its own tie class and leaves every class's
      order as it was. */
  lemma {:induction false} InsertStable<T>(s: seq<T>, x: T, key: T -> Key, desc: bool, k: Key)
    requires SortedBy(s, key, desc)
    ensures TiedWith(Insert(s, x, key, desc), key, k)
            == TiedWith(s, key, k) + (if Ties(key(x), k) then [x] else [])
    decreases |s|
  {
    if |s| == 0 {
      assert Insert(s, x, key, desc) == [x];
      assert [x][1..] == [];
    } else if !Precedes(key(s[0]), key(x), desc) {
      InsertInFront(s, x, key, desc, k);
    } else {
      assert SortedBy(s[1..], key, desc);
      InsertStable(s[1..], x, key, desc, k);
      InsertBehindHead(s, x, key, desc, k);
    }
  }

  lemma InsertInFront<T>(s: seq<T>, x: T, key: T -> Key, desc: bool, k: Key)
    requires SortedBy(s, key, desc) && |s| > 0 && !Precedes(key(s[0]), key(x), desc)
    ensures TiedWith(Insert(s, x, key, desc), key, k)
            == TiedWith(s, key, k) + (if Ties(key(x), k) then [x] else [])
  {
    assert Insert(s, x, key, desc) == [x] + s;
    if Ties(key(x), k) {
      NoneTiedAfter(x, s, key, desc, k);
    }
    TiedWithCons(x, s, key, k);
  }

  lemma InsertBehindHead<T>(s: seq<T>, x: T, key: T -> Key, desc: bool, k: Key)
    requires SortedBy(s, key, desc) && |s| > 0 && Precedes(key(s[0]), key(x), desc)
    requires TiedWith(Insert(s[1..], x, key, desc), key, k)
             == TiedWith(s[1..], key, k) + (if Ties(key(x), k) then [x] else [])
    ensures TiedWith(Insert(s, x, key, desc), key, k)
            == TiedWith(s, key, k) + (if Ties(key(x), k) then [x] else [])
  {
    InsertBehindHeadShape(s, x, key, desc);
    assert s == [s[0]] + s[1..];
    TiedWithBehindHead(s[0], x, s[1..], Insert(s[1..], x, key, desc), key, k);
  }

  /** Tie classes of a list with a head in front of a tail, as a step of
      `InsertStable`. */
  lemma TiedWithBehindHead<T>(h: T, x: T, t: seq<T>, rest: seq<T>, key: T -> Key, k: Key)
    requires TiedWith(rest, key, k) == TiedWith(t, key, k) + (if Ties(key(x), k) then [x] else [])
    ensures TiedWith([h] + rest, key, k) == TiedWith([h] + t, key, k) + (if Ties(key(x), k) then [x] else [])
  {
    TiedWithCons(h, rest, key, k);
    TiedWithCons(h, t, key, k);
    Seqs.AppendAssoc(if Ties(key(h), k) then [h] else [], TiedWith(t, key, k), if Ties(key(x), k) then [x] else []);
  }

  lemma InsertBehindHeadShape<T>(s: seq<T>, x: T, key: T -> Key, desc: bool)
    requires SortedBy(s, key, desc) && |s| > 0 && Precedes(key(s[0]), key(x), desc)
    ensures Insert(s, x, key, desc) == [s[0]] + Insert(s[1..], x, key, desc)
  {
  }

  lemma TiedWithCons<T>(h: T, t: seq<T>, key: T -> Key, k: Key)
    ensures TiedWith([h] + t, key, k) == (if Ties(key(h), k) then [h] else []) + TiedWith(t, key, k)
  {
    assert ([h] + t)[0] == h && ([h] + t)[1..] == t;
  }

  /** `List.sort` with the key's comparator: a sorted permutation, and stable:
      elements the comparator ties keep their order. */
  function Sort<T>(s: seq<T>, key: T -> Key, desc: bool): (r: seq<T>)
    ensures SortedBy(r, key, desc)
    ensures multiset(r) == multiset(s)
    ensures |r| == |s|
    ensures forall k :: TiedWith(r, key, k) == TiedWith(s, key, k)
  {
    if |s| == 0 then []
    else
      var init := s[..|s| - 1];
      assert s == init + [s[|s| - 1]];
      var sorted := Sort(init, key, desc);
      SortStep(init, s[|s| - 1], sorted, key, desc);
      Insert(sorted, s[|s| - 1], key, desc)
  }

  /** One step of `Sort`: inserting the last element into the stably sorted
      prefix keeps every tie class in input order. */
  lemma SortStep<T>(init: seq<T>, x: T, sorted: seq<T>, key: T -> Key, desc: bool)
    requires SortedBy(sorted, key, desc)
    requires forall k :: TiedWith(sorted, key, k) == TiedWith(init, key, k)
    ensures forall k :: TiedWith(Insert(sorted, x, key, desc), key, k) == TiedWith(init + [x], key, k)
  {
    forall k ensures TiedWith(Insert(sorted, x, key, desc), key, k) == TiedWith(init + [x], key, k) {
      var tx := if Ties(key(x), k) then [x] else [];
      assert TiedWith(Insert(sorted, x, key, desc), key, k) == TiedWith(init, key, k) + tx by {
        InsertStable(sorted, x, key, desc, k);
      }
      assert TiedWith(init + [x], key, k) == TiedWith(init, key, k) + tx by {
        TiedWithAppend(init, [x], key, k);
        assert TiedWith([x], key, k) == tx + TiedWith([x][1..], key, k);
        assert [x][1..] == [];
      }
    }
  }

  /** Every key ties with itself. */
  lemma TiesReflexive(a: Key)
    ensures Ties(a, a)
  {
    CompareKeysAntisymmetric(a, a);
  }

  /** An element of a tie class comes from the list and ties with the class. */
  lemma {:induction false} TiedWithFrom<T>(s: seq<T>, key: T -> Key, k: Key, x: T)
    requires x in TiedWith(s, key, k)
    ensures x in s && Ties(key(x), k)
    decreases |s|
  {
    if x != s[0] || !Ties(key(s[0]), k) {
      TiedWithFrom(s[1..], key, k, x);
    }
  }

  /** The head of a list opens its own tie class. */
  lemma HeadInOwnClass<T>(s: seq<T>, key: T -> Key)
    requires |s| > 0
    ensures TiedWith(s, key, key(s[0])) == [s[0]] + TiedWith(s[1..], key, key(s[0]))
  {
    TiesReflexive(key(s[0]));
  }

  /** Two lists sorted the same way precede in both directions at their heads
      when they agree on every tie class. */
  lemma HeadsTie<T>(a: seq<T>, b: seq<T>, key: T -> Key, desc: bool)
    requires SortedBy(a, key, desc) && SortedBy(b, key, desc) && |a| > 0 && |b| > 0
    requires TiedWith(a, key, key(a[0])) == TiedWith(b, key, key(a[0]))
    ensures Precedes(key(b[0]), key(a[0]), desc)
  {
    TiesReflexive(key(a[0]));
    assert a == [a[0]] + a[1..];
    TiedWithCons(a[0], a[1..], key, key(a[0]));
    assert a[0] in TiedWith(b, key, key(a[0]));
    TiedWithFrom(b, key, key(a[0]), a[0]);
    var j :| 0 <= j < |b| && b[j] == a[0];
    if j > 0 {
      assert Precedes(key(b[0]), key(b[j]), desc);
    } else {
      PrecedesTotal(key(b[0]), key(a[0]), desc);
    }
  }

  /** A sorted list is fixed by its tie classes: two lists sorted by the same
      comparator with the same tie classes are equal. */
  lemma {:induction false} StableSortedUnique<T>(a: seq<T>, b: seq<T>, key: T -> Key, desc: bool)
    requires SortedBy(a, key, desc) && SortedBy(b, key, desc)
    requires forall k :: TiedWith(a, key, k) == TiedWith(b, key, k)
    ensures a == b
    decreases |a|
  {
    if |a| == 0 && |b| == 0 {
    } else if |b| == 0 {
      HeadInOwnClass(a, key);
      assert false;
    } else if |a| == 0 {
      HeadInOwnClass(b, key);
      assert false;
    } else {
      var ka := key(a[0]);
      HeadsTie(a, b, key, desc);
      HeadsTie(b, a, key, desc);
      assert Ties(key(b[0]), ka) by {
        CompareKeysAntisymmetric(key(b[0]), ka);
      }
      TiesReflexive(ka);
      assert a == [a[0]] + a[1..] && b == [b[0]] + b[1..];
      TiedWithCons(a[0], a[1..], key, ka);
      TiedWithCons(b[0], b[1..], key, ka);
      assert TiedWith(a, key, ka)[0] == a[0] && TiedWith(b, key, ka)[0] == b[0];
      forall k ensures TiedWith(a[1..], key, k) == TiedWith(b[1..], key, k) {
        TiedWithCons(a[0], a[1..], key, k);
        TiedWithCons(b[0], b[1..], key, k);
        assert TiedWith(a, key, k) == TiedWith(b, key, k);
        var h := if Ties(key(a[0]), k) then [a[0]] else [];
        assert h + TiedWith(a[1..], key, k) == h + TiedWith(b[1..], key, k);
        assert TiedWith(a[1..], key, k) == (h + TiedWith(a[1..], key, k))[|h|..];
        assert TiedWith(b[1..], key, k) == (h + TiedWith(b[1..], key, k))[|h|..];
      }
      assert SortedBy(a[1..], key, desc) && SortedBy(b[1..], key, desc);
      StableSortedUnique(a[1..], b[1..], key, desc);
    }
  }

  /** `Sort`'s contract determines its result: any stable sorted arrangement of
      the input is the one `Sort` returns. */
  lemma SortUnique<T>(s: seq<T>, t: seq<T>, key: T -> Key, desc: bool)
    requires SortedBy(t, key, desc)
    requires forall k :: TiedWith(t, key, k) == TiedWith(s, key, k)
    ensures t == Sort(s, key, desc)
  {
    StableSortedUnique(t, Sort(s, key, desc), key, desc);
  }

  /** Descending order is the exact reverse of ascending order: reading a
      descending list backwards gives an ascending one. */
  lemma {:induction false} DescendingIsReversedAscending<T>(s: seq<T>, key: T -> Key)
    requires SortedBy(s, key, true)
    ensures SortedBy(Reverse(s), key, false)
  {
    var r := Reverse(s);
    forall i, j | 0 <= i < j < |r| ensures Precedes(key(r[i]), key(r[j]), false) {
      assert r[i] == s[|s| - 1 - i] && r[j] == s[|s| - 1 - j];
    }
  }

  function Reverse<T>(s: seq<T>): (r: seq<T>)
    ensures |r| == |s|
    ensures forall i :: 0 <= i < |s| ==> r[i] == s[|s| - 1 - i]
  {
    seq(|s|, i requires 0 <= i < |s| => s[|s| - 1 - i])
  }

  /** With `nullsLast`, an ascending list has its missing timestamps at the end;
      its `reversed()` comparator puts them at the front instead. */
  lemma NullTimesPlacement<T>(s: seq<T>, key: T -> Key, desc: bool, i: int, j: int)
    requires SortedBy(s, key, desc)
    requires 0 <= i < |s| && 0 <= j < |s|
    requires key(s[i]) == Time(None)
    requires key(s[j]).Time? && key(s[j]).at.Some?
    ensures !desc ==> j < i
    ensures desc ==> i < j
  {
    if i < j {
      assert Precedes(key(s[i]), key(s[j]), desc);
    } else if j < i {
      assert Precedes(key(s[j]), key(s[i]), desc);
    }
  }

  /** Java `stream.skip(offset).limit(limit)`: the elements at positions
      `offset .. offset + limit - 1` that exist. */
  function Slice<T>(s: seq<T>, offset: nat, limit: nat): (r: seq<T>)
    ensures |r| == if offset >= |s| then 0 else if limit < |s| - offset then limit else |s| - offset
    ensures forall k :: 0 <= k < |r| ==> r[k] == s[offset + k]
  {
    if offset >= |s| then []
    else if limit < |s| - offset then s[offset..offset + limit]
    else s[offset..]
  }
  /** A slice of a rearranged list draws only on the original list. */
  lemma SliceMembers<T>(s: seq<T>, t: seq<T>, offset: nat, limit: nat)
    requires multiset(s) == multiset(t)
    ensures forall x :: x in Slice(s, offset, limit) ==> x in t
  {
    var r := Slice(s, offset, limit);
    forall x | x in r ensures x in t {
      var k :| 0 <= k < |r| && r[k] == x;
      assert x in multiset(s);
    }
  }


  /** Consecutive pages of one size, read in order, give back the whole list. */
  lemma {:induction false} PagesCoverList<T>(s: seq<T>, size: nat, pages: nat)
    requires size > 0 && pages * size >= |s|
    ensures Concat(s, size, pages) == s
  {
    PagesPrefix(s, size, pages);
  }

  /** The first `pages` pages, concatenated. */
  function Concat<T>(s: seq<T>, size: nat, pages: nat): seq<T> {
    if pages == 0 then [] else Concat(s, size, pages - 1) + Slice(s, (pages - 1) * size, size)
  }

  /** One more page starts where the previous ones end. */
  lemma PageStep(pages: nat, size: nat)
    requires pages > 0
    ensures (pages - 1) * size + size == pages * size
  {
  }

  /** Appending the page at offset `lo` to the prefix of length `lo`. */
  lemma SliceExtends<T>(s: seq<T>, lo: nat, size: nat)
    requires lo <= |s|
    ensures lo + size <= |s| ==> s[..lo] + Slice(s, lo, size) == s[..lo + size]
    ensures lo + size > |s| ==> s[..lo] + Slice(s, lo, size) == s
  {
    if lo + size <= |s| {
      assert s[..lo] + s[lo..lo + size] == s[..lo + size];
    } else {
      assert s[..lo] + s[lo..] == s;
    }
  }

  /** The first `pages` pages are the list's first `pages * size` elements, or
      the whole list when it is shorter. */
  lemma {:induction false} PagesPrefix<T>(s: seq<T>, size: nat, pages: nat)
    requires size > 0
    ensures pages * size <= |s| ==> Concat(s, size, pages) == s[..pages * size]
    ensures pages * size > |s| ==> Concat(s, size, pages) == s
  {
    if pages > 0 {
      var lo := (pages - 1) * size;
      var hi := pages * size;
      PageStep(pages, size);
      assert Concat(s, size, pages) == Concat(s, size, pages - 1) + Slice(s, lo, size);
      PagesPrefix(s, size, pages - 1);
      if lo > |s| {
        assert Slice(s, lo, size) == [];
      } else {
        SliceExtends(s, lo, size);
      }
    }
  }

  /* ---------- paging ---------- */

  /** Java `int`. */
  type Int32 = x: int | -0x8000_0000 <= x < 0x8000_0000

  /** Java `int` arithmetic: the result reduced into the 32-bit range. */
  function Wrap32(x: int): (r: Int32)
    ensures (r - x) % 0x1_0000_0000 == 0
  {
    var m := x % 0x1_0000_0000;
    if m < 0x8000_0000 then m else m - 0x1_0000_0000
  }

  datatype Direction = ASC | DESC

  /** One page of a listing together with the number of all matching items. */
  datatype PagedResult<T> = PagedResult(content: seq<T>, totalElements: int, size: int, page: int)
}

=== FILE: security.dfy ===
/** Sign-in: creating the user record on a first OAuth2 login
    (`SecurityHelper.saveOauth2User`), carrying the caller's return address
    through the OAuth2 `state` parameter (`CustomAuthorizationRequestResolver`),
    and reading it back after a successful login
    (`CustomAuthenticationSuccessHandler`). */
module Security {
  import opened Wrappers
  import Text
  import Seqs
  import opened Users

  /* ---------- saveOauth2User ---------- */

  /** The configured administrator address matches, ignoring case. */
  predicate IsAdmin(adminEmail: string, email: string) {
    Text.EqualsIgnoreCase(adminEmail, email)
  }

  /** What the repository's `findByEmail` may answer: a stored user with the
      email, and nothing only when no stored user has it. */
  predicate FoundByEmail(store: map<string, User>, email: string, found: Option<User>) {
    && (found.None? <==> !exists k :: k in store && store[k].email == Some(email))
    && (found.Some? ==> exists k :: k in store && store[k] == found.value && found.value.email == Some(email))
  }

  const LoginComment: string := "I am trying to log in"

  /** The store after a sign-in, the user signed in, and the notification sent. */
  datatype SignIn = SignIn(store: map<string, User>, user: User, notice: Option<Notification>)

  /** `saveOauth2User`: a known email signs in as the stored user, untouched.
      A new email is saved with the identity the provider gave; the administrator
      address becomes an approved ADMIN, anyone else a pending USER with a
      request comment, and only the latter is announced. */
  function SaveOauth2User(store: map<string, User>, found: Option<User>, freshId: string, registrationId: string,
                          authId: string, email: string, name: string, picture: Option<string>, link: Option<string>,
                          adminEmail: string, now: int): (r: SignIn)
    requires freshId !in store
    requires FoundByEmail(store, email, found)
    ensures found.Some? ==> r == SignIn(store, found.value, None)
    ensures found.None? ==>
              && r.store == store[freshId := r.user]
              && r.user.id == Some(freshId) && r.user.authId == Some(authId) && r.user.email == Some(email)
              && r.user.fullName == Some(name) && r.user.picture == picture && r.user.provider == Some(registrationId)
              && r.user.createdOn == now && r.user.link.None?
    ensures found.None? && IsAdmin(adminEmail, email) ==>
              r.user.role == Some(ADMIN) && r.user.status == Some(APPROVED) && r.user.comment.None?
    ensures found.None? && !IsAdmin(adminEmail, email) ==>
              r.user.role == Some(USER) && r.user.status == Some(PENDING) && r.user.comment == Some(LoginComment)
    ensures r.notice.Some? <==> found.None? && !IsAdmin(adminEmail, email)
    ensures r.notice.Some? ==> r.notice.value == CreationNotice(name, email)
    ensures UniqueUserEmails(store) ==> UniqueUserEmails(r.store)
  {
    if found.Some? then SignIn(store, found.value, None)
    else
      var admin := IsAdmin(adminEmail, email);
      var user := User(Some(freshId), Some(authId), Some(email),
                       Some(if admin then APPROVED else PENDING),
                       Some(if admin then ADMIN else USER),
                       if admin then None else Some(LoginComment),
                       Some(name), None, picture, Some(registrationId), now, 0);
      SignIn(store[freshId := user], user, if admin then None else Some(CreationNotice(name, email)))
  }

  /** Signing in again with the same email changes nothing and announces
      nothing: the second login finds the user the first one created. */
  lemma SecondSignInFindsFirst(store: map<string, User>, found: Option<User>, freshId: string, registrationId: string,
                               authId: string, email: string, name: string, picture: Option<string>,
                               link: Option<string>, adminEmail: string, now: int,
                               found2: Option<User>, freshId2: string, later: int)
    requires freshId !in store && FoundByEmail(store, email, found) && UniqueUserEmails(store)
    requires var first := SaveOauth2User(store, found, freshId, registrationId, authId, email, name, picture, link, adminEmail, now);
             freshId2 !in first.store && FoundByEmail(first.store, email, found2)
    ensures var first := SaveOauth2User(store, found, freshId, registrationId, authId, email, name, picture, link, adminEmail, now);
            var second := SaveOauth2User(first.store, found2, freshId2, registrationId, authId, email, name, picture, link, adminEmail, later);
            second == SignIn(first.store, first.user, None)
  {
    var first := SaveOauth2User(store, found, freshId, registrationId, authId, email, name, picture, link, adminEmail, now);
    var k1;
    if found.Some? {
      k1 :| k1 in store && store[k1] == found.value && found.value.email == Some(email);
    } else {
      k1 := freshId;
    }
    assert first.store[k1] == first.user && first.user.email == Some(email);
    var k2 :| k2 in first.store && first.store[k2] == found2.value && found2.value.email == Some(email);
  }

  /* ---------- the redirect carried in the OAuth2 state ---------- */

  const RedirectParam: string := "redirect_param"

  /** What a state segment carrying the return address starts with. */
  const RedirectPrefix: string := RedirectParam + "="

  /** An OAuth2 authorization request: its `state`, and everything else the
      builder copies unchanged. */
  datatype AuthorizationRequest = AuthorizationRequest(state: string, attributes: map<string, string>)

  /** `customizeAuthorizationRequest` as written: a non-empty `requester`
      parameter is appended to the state as one more `&`-separated segment; the
      request is otherwise unchanged. */
  function CustomizeAuthorizationRequest(requester: Option<string>, request: AuthorizationRequest)
    : (r: AuthorizationRequest)
    ensures r.attributes == request.attributes
    ensures requester.None? || requester.value == "" ==> r == request
    ensures requester.Some? && requester.value != "" ==> r.state == request.state + "&" + RedirectPrefix + requester.value
  {
    if requester.Some? && requester.value != ""
    then request.(state := request.state + "&" + RedirectParam + "=" + requester.value)
    else request
  }

  /** The remainder of the first segment that starts with `prefix`. */
  function FirstWithPrefix(segments: seq<string>, prefix: string): (r: Option<string>)
    ensures r.None? <==> forall i :: 0 <= i < |segments| ==> !Text.StartsWith(segments[i], prefix)
    ensures r.Some? ==> exists i :: && 0 <= i < |segments|
                                    && Text.StartsWith(segments[i], prefix)
                                    && r.value == segments[i][|prefix|..]
                                    && forall j :: 0 <= j < i ==> !Text.StartsWith(segments[j], prefix)
  {
    if |segments| == 0 then None
    else if Text.StartsWith(segments[0], prefix) then Some(segments[0][|prefix|..])
    else
      var r := FirstWithPrefix(segments[1..], prefix);
      assert forall i :: 1 <= i < |segments| ==> segments[i] == segments[1..][i - 1];
      if r.Some? then
        var i :| && 0 <= i < |segments[1..]|
                 && Text.StartsWith(segments[1..][i], prefix)
                 && r.value == segments[1..][i][|prefix|..]
                 && forall j :: 0 <= j < i ==> !Text.StartsWith(segments[1..][j], prefix);
        assert forall j :: 0 <= j < i + 1 ==> !Text.StartsWith(segments[j], prefix) by {
          forall j | 0 <= j < i + 1 ensures !Text.StartsWith(segments[j], prefix) {
            if j > 0 {
              assert segments[j] == segments[1..][j - 1];
            }
          }
        }
        assert segments[i + 1] == segments[1..][i];
        r
      else r
  }

  /** Segments before the first match do not change the answer. */
  lemma {:induction false} FirstWithPrefixSkips(before: seq<string>, after: seq<string>, prefix: string)
    requires forall i :: 0 <= i < |before| ==> !Text.StartsWith(before[i], prefix)
    ensures FirstWithPrefix(before + after, prefix) == FirstWithPrefix(after, prefix)
  {
    if |before| > 0 {
      assert (before + after)[0] == before[0];
      assert (before + after)[1..] == before[1..] + after;
      FirstWithPrefixSkips(before[1..], after, prefix);
    } else {
      assert before + after == after;
    }
  }

  /** `extractRedirectUriFromState`: the state split at `&`, and the first
      segment introduced by `redirect_param=` minus that introduction. The
      address found never contains `&`, and the state always mentions
      `redirect_param` when one is found. */
  function ExtractRedirectUriFromState(state: string): (r: Option<string>)
    ensures r.None? <==> forall i :: 0 <= i < |Text.JavaSplit(state, '&')| ==> !Text.StartsWith(Text.JavaSplit(state, '&')[i], RedirectPrefix)
    ensures r.Some? ==> '&' !in r.value && Text.Contains(state, RedirectParam)
    ensures r.Some? ==> var segments := Text.JavaSplit(state, '&');
              exists i :: && 0 <= i < |segments|
                          && Text.StartsWith(segments[i], RedirectPrefix)
                          && r.value == segments[i][|RedirectPrefix|..]
                          && forall j :: 0 <= j < i ==> !Text.StartsWith(segments[j], RedirectPrefix)
  {
    var segments := Text.JavaSplit(state, '&');
    var r := FirstWithPrefix(segments, RedirectPrefix);
    if r.Some? then
      var i :| 0 <= i < |segments| && Text.StartsWith(segments[i], RedirectPrefix) && r.value == segments[i][|RedirectPrefix|..];
      Text.JavaSplitPiece(state, '&', i);
      assert Text.StartsWith(segments[i], RedirectParam) by {
        assert segments[i][..|RedirectParam|] == RedirectPrefix[..|RedirectParam|];
      }
      Text.ContainsPrefix(state, segments[i], RedirectParam);
      assert forall c :: c in r.value ==> c in segments[i];
      r
    else r
  }

  /** What the success handler does. */
  datatype Outcome = RedirectTo(uri: string) | DefaultSuccess

  /** `onAuthenticationSuccess`: redirect to the address carried in the state
      when there is one, and fall back to the default handling otherwise. The
      source's check that the state mentions `redirect_param` only ever
      confirms what a successful extraction implies. */
  function OnAuthenticationSuccess(state: Option<string>): (r: Outcome)
    ensures r.RedirectTo? <==> state.Some? && ExtractRedirectUriFromState(state.value).Some?
    ensures r.RedirectTo? ==> r.uri == ExtractRedirectUriFromState(state.value).value && '&' !in r.uri
  {
    if state.Some? && Text.Contains(state.value, RedirectParam) then
      match ExtractRedirectUriFromState(state.value)
      case Some(uri) => RedirectTo(uri)
      case None => DefaultSuccess
    else DefaultSuccess
  }

  /** No segment of the state starts like a carried return address. */
  predicate NoRedirectSegment(state: string) {
    forall i :: 0 <= i < |Text.SplitAll(state, '&')| ==> !Text.StartsWith(Text.SplitAll(state, '&')[i], RedirectPrefix)
  }

  /** Splitting a state with one more segment appended. */
  lemma SplitWithSegment(state: string, segment: string)
    requires '&' !in segment && segment != ""
    ensures Text.JavaSplit(state + "&" + segment, '&') == Text.SplitAll(state, '&') + [segment]
  {
    var full := state + "&" + segment;
    assert full == state + ['&'] + segment;
    Text.SplitAllJoin(state, '&', segment);
    assert Seqs.FirstIndex(segment, '&') == -1;
    assert full[|state|] == '&';
  }

  /** Reading back what was appended: the address returns whole when it has no
      `&` and the original state carries no address segment of its own. */
  lemma RedirectRoundTrip(request: AuthorizationRequest, uri: string)
    requires uri != "" && '&' !in uri
    requires NoRedirectSegment(request.state)
    ensures var sent := CustomizeAuthorizationRequest(Some(uri), request);
            && ExtractRedirectUriFromState(sent.state) == Some(uri)
            && OnAuthenticationSuccess(Some(sent.state)) == RedirectTo(uri)
  {
    var segment := RedirectPrefix + uri;
    assert '&' !in RedirectPrefix;
    assert '&' !in segment;
    var sent := CustomizeAuthorizationRequest(Some(uri), request);
    assert sent.state == request.state + "&" + segment;
    SplitWithSegment(request.state, segment);
    FirstWithPrefixSkips(Text.SplitAll(request.state, '&'), [segment], RedirectPrefix);
    assert Text.StartsWith(segment, RedirectPrefix);
    assert segment[|RedirectPrefix|..] == uri;
  }

  /** A string without the separator splits into itself. */
  lemma SplitSingle(segment: string)
    requires '&' !in segment
    ensures Text.SplitAll(segment, '&') == [segment]
  {
    assert Seqs.FirstIndex(segment, '&') == -1;
  }

  /** Java's split keeps pieces whose last one is not empty. */
  lemma JavaSplitKeeps(s: string)
    requires '&' in s
    requires Text.SplitAll(s, '&')[|Text.SplitAll(s, '&')| - 1] != ""
    ensures Text.JavaSplit(s, '&') == Text.SplitAll(s, '&')
  {
  }

  /** Splitting a state with two more segments appended. */
  lemma SplitWithTwoSegments(state: string, segment: string, tail: string)
    requires '&' !in segment && '&' !in tail && tail != ""
    ensures Text.JavaSplit(state + "&" + segment + "&" + tail, '&') == Text.SplitAll(state, '&') + [segment, tail]
  {
    var rest := segment + ['&'] + tail;
    SplitSingle(segment);
    SplitSingle(tail);
    Text.SplitAllJoin(segment, '&', tail);
    assert Text.SplitAll(rest, '&') == [segment, tail];
    var full := state + ['&'] + rest;
    assert full == state + "&" + segment + "&" + tail;
    Text.SplitAllJoin(state, '&', rest);
    assert Text.SplitAll(full, '&') == Text.SplitAll(state, '&') + [segment, tail];
    assert full[|state|] == '&';
    JavaSplitKeeps(full);
  }

  /** An address with a query of several parameters comes back cut at its first
      `&`: the caller is sent somewhere other than where it asked. */
  lemma AmpersandTruncatesRedirect(request: AuthorizationRequest, uri: string, tail: string)
    requires '&' !in uri && '&' !in tail && tail != ""
    requires NoRedirectSegment(request.state)
    ensures var sent := CustomizeAuthorizationRequest(Some(uri + "&" + tail), request);
            OnAuthenticationSuccess(Some(sent.state)) == RedirectTo(uri)
  {
    var segment := RedirectPrefix + uri;
    assert '&' !in RedirectPrefix;
    assert '&' !in segment;
    var sent := CustomizeAuthorizationRequest(Some(uri + "&" + tail), request);
    assert sent.state == request.state + "&" + segment + "&" + tail;
    SplitWithTwoSegments(request.state, segment, tail);
    FirstWithPrefixSkips(Text.SplitAll(request.state, '&'), [segment, tail], RedirectPrefix);
    assert Text.StartsWith(segment, RedirectPrefix);
    assert segment[|RedirectPrefix|..] == uri;
  }

  /* ---------- the return address, escaped ---------- */

  /** One character of a carried address: `%` and `&` are percent-encoded. */
  function EscapeChar(c: char): (r: string)
    ensures '&' !in r && |r| >= 1
  {
    if c == '%' then "%25" else if c == '&' then "%26" else [c]
  }

  /** A return address made safe to carry as one state segment. */
  function Escape(s: string): (r: string)
    ensures '&' !in r
    ensures '%' !in s && '&' !in s ==> r == s
  {
    if |s| == 0 then "" else EscapeChar(s[0]) + Escape(s[1..])
  }

  /** Undoes `Escape`. */
  function Unescape(s: string): string
  {
    if |s| == 0 then ""
    else if |s| >= 3 && s[0] == '%' && s[1..3] == "25" then "%" + Unescape(s[3..])
    else if |s| >= 3 && s[0] == '%' && s[1..3] == "26" then "&" + Unescape(s[3..])
    else [s[0]] + Unescape(s[1..])
  }

  lemma UnescapeChar(c: char, rest: string)
    ensures Unescape(EscapeChar(c) + rest) == [c] + Unescape(rest)
  {
    var s := EscapeChar(c) + rest;
    if c == '%' || c == '&' {
      assert s[1..3] == EscapeChar(c)[1..3];
      assert s[3..] == rest;
    } else {
      assert s[1..] == rest;
    }
  }

  /** Unescaping an escaped address gives it back, whatever it contains. */
  lemma {:induction false} EscapeRoundTrip(s: string)
    ensures Unescape(Escape(s)) == s
  {
    if |s| > 0 {
      UnescapeChar(s[0], Escape(s[1..]));
      EscapeRoundTrip(s[1..]);
      assert [s[0]] + s[1..] == s;
    }
  }

  /** The request customisation with the address escaped. */
  function CustomizeAuthorizationRequestEscaped(requester: Option<string>, request: AuthorizationRequest)
    : (r: AuthorizationRequest)
    ensures r.attributes == request.attributes
    ensures requester.None? || requester.value == "" ==> r == request
    ensures requester.Some? && requester.value != "" ==> r.state == request.state + "&" + RedirectPrefix + Escape(requester.value)
  {
    if requester.Some? && requester.value != ""
    then request.(state := request.state + "&" + RedirectParam + "=" + Escape(requester.value))
    else request
  }

  /** The success handler with the carried address unescaped. */
  function OnAuthenticationSuccessEscaped(state: Option<string>): (r: Outcome)
    ensures r.RedirectTo? <==> state.Some? && ExtractRedirectUriFromState(state.value).Some?
    ensures r.RedirectTo? ==> r.uri == Unescape(ExtractRedirectUriFromState(state.value).value)
  {
    match OnAuthenticationSuccess(state)
    case RedirectTo(carried) => RedirectTo(Unescape(carried))
    case DefaultSuccess => DefaultSuccess
  }

  /** With escaping, every non-empty address comes back whole. */
  lemma EscapedRedirectRoundTrip(request: AuthorizationRequest, uri: string)
    requires uri != ""
    requires NoRedirectSegment(request.state)
    ensures var sent := CustomizeAuthorizationRequestEscaped(Some(uri), request);
            OnAuthenticationSuccessEscaped(Some(sent.state)) == RedirectTo(uri)
  {
    var escaped := Escape(uri);
    assert escaped != "" by {
      assert |EscapeChar(uri[0])| >= 1;
    }
    RedirectRoundTrip(request, escaped);
    EscapeRoundTrip(uri);
  }

  /** `resolve`, both overloads: nothing when the default resolver yields
      nothing, else its request with the return address added to the state. */
  function Resolve(resolved: Option<AuthorizationRequest>, requester: Option<string>): (r: Option<AuthorizationRequest>)
    ensures r.None? <==> resolved.None?
    ensures r.Some? ==> r.value.attributes == resolved.value.attributes && Text.StartsWith(r.value.state, resolved.value.state)
    ensures r.Some? ==> r.value == CustomizeAuthorizationRequestEscaped(requester, resolved.value)
  {
    match resolved
    case None => None
    case Some(request) =>
      var r := CustomizeAuthorizationRequestEscaped(requester, request);
      assert r.state[..|request.state|] == request.state;
      Some(r)
  }

  /** A request resolved with a non-empty return address leads the success
      handler back to exactly that address; without one, the handler falls back
      to its default. */
  lemma ResolveRoundTrip(request: AuthorizationRequest, requester: Option<string>)
    requires NoRedirectSegment(request.state)
    ensures var sent := Resolve(Some(request), requester).value;
            && (requester.Some? && requester.value != "" ==> OnAuthenticationSuccessEscaped(Some(sent.state)) == RedirectTo(requester.value))
            && (requester.None? || requester.value == "" ==> sent == request)
  {
    if requester.Some? && requester.value != "" {
      EscapedRedirectRoundTrip(request, requester.value);
    }
  }

  /** `getFullURL`: the query string, when there is one, after a `?`. */
  function GetFullUrl(url: string, query: Option<string>): (r: string)
    ensures query.None? ==> r == url
    ensures query.Some? ==> r == url + "?" + query.value
  {
    if query.Some? then url + "?" + query.value else url
  }

  /** For a request URL without `?`, the first `?` of the full URL marks where
      the query string begins, and it can be read back. */
  lemma FullUrlQuery(url: string, query: Option<string>)
    requires '?' !in url
    ensures query.None? ==> Seqs.FirstIndex(GetFullUrl(url, query), '?') == -1
    ensures query.Some? ==> var full := GetFullUrl(url, query);
                            && Seqs.FirstIndex(full, '?') == |url|
                            && full[..|url|] == url
                            && full[|url| + 1..] == query.value
  {
    if query.Some? {
      var full := GetFullUrl(url, query);
      assert full[..|url|] == url;
      Seqs.FirstIndexIs(full, '?', |url|);
    }
  }
}

=== FILE: seqs.dfy ===
/** Generic sequence helpers behind Java's `List` and `String` methods. */
module Seqs {

  /** The number of occurrences of `x` in `s`. */
  function Occurrences<T(==)>(s: seq<T>, x: T): nat {
    multiset(s)[x]
  }

  /** Java `List.indexOf`: the first position holding `x`, or -1. */
  function FirstIndex<T(==)>(s: seq<T>, x: T): (k: int)
    ensures -1 <= k < |s|
    ensures k == -1 <==> x !in s
    ensures 0 <= k ==> s[k] == x && x !in s[..k]
  {
    if |s| == 0 then -1
    else if s[0] == x then 0
    else
      var k := FirstIndex(s[1..], x);
      if k == -1 then -1
      else
        assert s[..k + 1] == [s[0]] + s[1..][..k];
        k + 1
  }

  /** Java `List.remove(Object)`: drops the first occurrence of `x`, if any. */
  function RemoveFirst<T(==)>(s: seq<T>, x: T): (r: seq<T>)
    ensures x !in s ==> r == s
    ensures x in s ==> exists k :: 0 <= k < |s| && s[k] == x && x !in s[..k] && r == s[..k] + s[k + 1..]
    ensures multiset(r) == multiset(s) - multiset{x}
  {
    var k := FirstIndex(s, x);
    if k == -1 then s
    else
      assert s == s[..k] + [x] + s[k + 1..];
      s[..k] + s[k + 1..]
  }

  /** The first occurrence is the only position `FirstIndex` can report. */
  lemma FirstIndexIs<T>(s: seq<T>, x: T, k: int)
    requires 0 <= k < |s| && s[k] == x && x !in s[..k]
    ensures FirstIndex(s, x) == k
  {
    var r := FirstIndex(s, x);
    forall j | 0 <= j < k ensures s[j] != x {
      assert s[j] == s[..k][j];
    }
    forall j | 0 <= j < r ensures s[j] != x {
      assert s[j] == s[..r][j];
    }
  }

  /** Appending after the head is appending to the tail. */
  lemma HeadThenAppend<T>(s: seq<T>, t: T)
    requires |s| > 0
    ensures s + [t] == [s[0]] + (s[1..] + [t])
  {
  }

  lemma AppendAssoc<T>(a: seq<T>, b: seq<T>, c: seq<T>)
    ensures (a + b) + c == a + (b + c)
  {
  }

  lemma ConsCount<T>(a: seq<T>, b: seq<T>, x: T)
    ensures multiset(a + b)[x] == multiset(a)[x] + multiset(b)[x]
  {
  }

  /** `a` ends `s`. */
  predicate IsSuffix<T(==)>(a: seq<T>, s: seq<T>) {
    |a| <= |s| && s[|s| - |a|..] == a
  }

  /** What ends a tail of `s` ends `s`. */
  lemma SuffixOfDrop<T>(a: seq<T>, s: seq<T>, j: nat)
    requires j <= |s| && IsSuffix(a, s[j..])
    ensures IsSuffix(a, s)
  {
    assert s[|s| - |a|..] == s[j..][|s[j..]| - |a|..];
  }

  /** The elements of a list, as a set. */
  function Elements<T>(s: seq<T>): set<T> {
    set x | x in s
  }

  /** No element appears twice. */
  predicate Distinct<T(==)>(s: seq<T>) {
    forall i, j :: 0 <= i < j < |s| ==> s[i] != s[j]
  }

  /** In a list without repeats every element occurs at most once. */
  lemma {:induction false} DistinctOccurrences<T>(s: seq<T>, x: T)
    requires Distinct(s)
    ensures Occurrences(s, x) <= 1
  {
    if |s| > 0 {
      assert s == [s[0]] + s[1..];
      DistinctOccurrences(s[1..], x);
      if s[0] == x {
        assert x !in s[1..];
      }
    }
  }
}

=== FILE: text.dfy ===
/** The `java.lang.String` operations the services rely on, over `seq<char>`.
    Case mapping is modelled for ASCII letters only. */
module Text {
  import Seqs

  /* ---------- case mapping ---------- */

  function LowerChar(c: char): (r: char)
    ensures 'A' <= c <= 'Z' ==> r as int == c as int + 32
    ensures !('A' <= c <= 'Z') ==> r == c
  {
    if 'A' <= c <= 'Z' then (c as int + 32) as char else c
  }

  function UpperChar(c: char): (r: char)
    ensures 'a' <= c <= 'z' ==> r as int == c as int - 32
    ensures !('a' <= c <= 'z') ==> r == c
  {
    if 'a' <= c <= 'z' then (c as int - 32) as char else c
  }

  /** `String.toLowerCase()` on ASCII letters. */
  function ToLower(s: string): (r: string)
    ensures |r| == |s|
    ensures forall i :: 0 <= i < |s| ==> r[i] == LowerChar(s[i])
  {
    seq(|s|, i requires 0 <= i < |s| => LowerChar(s[i]))
  }

  /** `String.toUpperCase()` on ASCII letters. */
  function ToUpper(s: string): (r: string)
    ensures |r| == |s|
    ensures forall i :: 0 <= i < |s| ==> r[i] == UpperChar(s[i])
  {
    seq(|s|, i requires 0 <= i < |s| => UpperChar(s[i]))
  }

  /** Lower-casing twice changes nothing more than lower-casing once. */
  lemma ToLowerIdempotent(s: string)
    ensures ToLower(ToLower(s)) == ToLower(s)
  {
    assert forall i :: 0 <= i < |s| ==> LowerChar(LowerChar(s[i])) == LowerChar(s[i]);
  }

  /** `String.equalsIgnoreCase`, for ASCII text. */
  predicate EqualsIgnoreCase(a: string, b: string) {
    ToLower(a) == ToLower(b)
  }

  /* ---------- blank tests ---------- */

  /** `Character.isWhitespace`. */
  predicate IsWhitespace(c: char) {
    || '\U{0009}' <= c <= '\U{000D}'
    || '\U{001C}' <= c <= '\U{0020}'
    || c == '\U{1680}'
    || '\U{2000}' <= c <= '\U{2006}'
    || '\U{2008}' <= c <= '\U{200A}'
    || c == '\U{2028}' || c == '\U{2029}' || c == '\U{205F}' || c == '\U{3000}'
  }

  /** `String.isBlank()`: empty or only white space. */
  predicate IsBlank(s: string) {
    forall i :: 0 <= i < |s| ==> IsWhitespace(s[i])
  }

  /** `s.trim().isEmpty()`: `trim` strips every character up to U+0020 at both ends. */
  predicate TrimIsEmpty(s: string) {
    forall i :: 0 <= i < |s| ==> s[i] <= ' '
  }

  /* ---------- searching ---------- */

  predicate StartsWith(s: string, prefix: string) {
    |prefix| <= |s| && s[..|prefix|] == prefix
  }

  /** `String.contains`: `sub` occurs at some position of `s`. */
  predicate Contains(s: string, sub: string) {
    exists i :: 0 <= i <= |s| - |sub| && StartsWith(s[i..], sub)
  }

  /* ---------- splitting ---------- */

  /** Every piece of `s` between occurrences of `c`, empty pieces included. */
  function SplitAll(s: string, c: char): (parts: seq<string>)
    ensures |parts| >= 1
    ensures forall i :: 0 <= i < |parts| ==> c !in parts[i]
    decreases |s|
  {
    var k := Seqs.FirstIndex(s, c);
    if k == -1 then [s] else [s[..k]] + SplitAll(s[k + 1..], c)
  }

  /** Drops the empty strings at the end of `parts`. */
  function StripTrailingEmpty(parts: seq<string>): (r: seq<string>)
    ensures |r| <= |parts| && r == parts[..|r|]
    ensures |r| == 0 || r[|r| - 1] != ""
    ensures forall i :: |r| <= i < |parts| ==> parts[i] == ""
  {
    if |parts| == 0 then []
    else if parts[|parts| - 1] == "" then StripTrailingEmpty(parts[..|parts| - 1])
    else parts
  }

  /** `s.split(c)` with Java's default limit 0: when `c` occurs, the pieces with
      the trailing empty ones removed; when it does not, `s` itself. */
  function JavaSplit(s: string, c: char): seq<string> {
    if c !in s then [s] else StripTrailingEmpty(SplitAll(s, c))
  }

  /** An occurrence inside a suffix is an occurrence in the whole string. */
  lemma ContainsInSuffix(s: string, t: nat, sub: string)
    requires t <= |s| && Contains(s[t..], sub)
    ensures Contains(s, sub)
  {
    var j :| 0 <= j <= |s[t..]| - |sub| && StartsWith(s[t..][j..], sub);
    assert s[t..][j..] == s[t + j..];
  }

  /** Whatever begins an occurring string occurs too. */
  lemma ContainsPrefix(s: string, sub: string, pre: string)
    requires Contains(s, sub) && StartsWith(sub, pre)
    ensures Contains(s, pre)
  {
    var j :| 0 <= j <= |s| - |sub| && StartsWith(s[j..], sub);
    assert s[j..][..|pre|] == sub[..|pre|];
  }

  /** A substring found at a given position is contained. */
  lemma ContainsAt(s: string, sub: string, j: nat)
    requires j + |sub| <= |s| && s[j..j + |sub|] == sub
    ensures Contains(s, sub)
  {
    assert s[j..][..|sub|] == s[j..j + |sub|];
  }

  /** A string without `c` splits into itself. */
  lemma SplitAllWhole(s: string, c: char, k: int)
    requires k == Seqs.FirstIndex(s, c) && k == -1
    ensures SplitAll(s, c) == [s]
  {
  }

  /** A string with `c` splits into the piece before the first `c`, then the
      pieces of the rest. */
  lemma SplitAllStep(s: string, c: char, k: int)
    requires k == Seqs.FirstIndex(s, c)
    ensures k != -1 ==> SplitAll(s, c) == [s[..k]] + SplitAll(s[k + 1..], c)
  {
    if k != -1 {
      var rest := SplitAll(s[k + 1..], c);
      assert SplitAll(s, c) == [s[..k]] + rest;
    }
  }

  /** The first piece of a split occurs in the split string. */
  lemma SplitAllFirst(s: string, c: char)
    ensures Contains(s, SplitAll(s, c)[0])
  {
    var k := Seqs.FirstIndex(s, c);
    if k == -1 {
      SplitAllWhole(s, c, k);
      ContainsAt(s, s, 0);
    } else {
      SplitAllStep(s, c, k);
      ContainsAt(s, s[..k], 0);
    }
  }

  /** Every piece of a split occurs in the split string. */
  lemma {:induction false} SplitAllPiece(s: string, c: char, i: nat)
    requires i < |SplitAll(s, c)|
    ensures Contains(s, SplitAll(s, c)[i])
    decreases |s|
  {
    if i == 0 {
      SplitAllFirst(s, c);
    } else {
      var k := Seqs.FirstIndex(s, c);
      if k == -1 {
        SplitAllWhole(s, c, k);
      } else {
        SplitAllStep(s, c, k);
      }
      var rest := SplitAll(s[k + 1..], c);
      SplitAllPiece(s[k + 1..], c, i - 1);
      ContainsInSuffix(s, k + 1, rest[i - 1]);
    }
  }

  /** The pieces of `JavaSplit` are free of the separator and occur in the split
      string. */
  lemma JavaSplitPiece(s: string, c: char, i: nat)
    requires i < |JavaSplit(s, c)|
    ensures c !in JavaSplit(s, c)[i] && Contains(s, JavaSplit(s, c)[i])
  {
    if c !in s {
      assert StartsWith(s[0..], s);
    } else {
      SplitAllPiece(s, c, i);
    }
  }

  /** `s.split(c, limit)` for a positive limit: at most `limit` pieces, the last
      one holding the rest of `s`, trailing empty pieces kept. */
  function SplitLimit(s: string, c: char, limit: nat): (parts: seq<string>)
    requires limit >= 1
    ensures 1 <= |parts| <= limit
    decreases limit
  {
    var k := Seqs.FirstIndex(s, c);
    if limit == 1 || k == -1 then [s] else [s[..k]] + SplitLimit(s[k + 1..], c, limit - 1)
  }

  /** A limited split that cannot cut gives the whole string. */
  lemma SplitLimitWhole(s: string, c: char, limit: nat, k: int)
    requires limit >= 1 && k == Seqs.FirstIndex(s, c) && (limit == 1 || k == -1)
    ensures SplitLimit(s, c, limit) == [s]
  {
  }

  /** A limited split that can cut gives the piece before the first `c`, then
      the pieces of the rest. */
  lemma SplitLimitStep(s: string, c: char, limit: nat, k: int)
    requires limit >= 1 && k == Seqs.FirstIndex(s, c)
    ensures limit > 1 && k != -1 ==> SplitLimit(s, c, limit) == [s[..k]] + SplitLimit(s[k + 1..], c, limit - 1)
  {
    if limit > 1 && k != -1 {
      var rest := SplitLimit(s[k + 1..], c, limit - 1);
      assert SplitLimit(s, c, limit) == [s[..k]] + rest;
    }
  }

  /** Splitting at an occurrence of `c` that has no `c` before it. */
  lemma {:induction false} SplitAllAppend(a: string, c: char, b: string)
    requires c !in a
    ensures SplitAll(a + [c] + b, c) == [a] + SplitAll(b, c)
  {
    var s := a + [c] + b;
    assert s[..|a|] == a;
    assert s[|a| + 1..] == b;
    Seqs.FirstIndexIs(s, c, |a|);
  }

  /** Splitting a concatenation joined by `c` splits both halves. */
  lemma {:induction false} SplitAllJoin(a: string, c: char, b: string)
    ensures SplitAll(a + [c] + b, c) == SplitAll(a, c) + SplitAll(b, c)
    decreases |a|
  {
    var k := Seqs.FirstIndex(a, c);
    if k == -1 {
      SplitAllAppend(a, c, b);
    } else {
      var s := a + [c] + b;
      assert s[..k] == a[..k];
      Seqs.FirstIndexIs(s, c, k);
      assert s[k + 1..] == a[k + 1..] + [c] + b;
      calc {
        SplitAll(s, c);
        [a[..k]] + SplitAll(a[k + 1..] + [c] + b, c);
        { SplitAllJoin(a[k + 1..], c, b); }
        [a[..k]] + (SplitAll(a[k + 1..], c) + SplitAll(b, c));
        ([a[..k]] + SplitAll(a[k + 1..], c)) + SplitAll(b, c);
      }
    }
  }

  /* ---------- ordering ---------- */

  /** The sign of `String.compareTo`: lexicographic by character code, a proper
      prefix first. */
  function LexCompare(a: string, b: string): (r: int)
    ensures -1 <= r <= 1
    ensures r == 0 <==> a == b
  {
    if |a| == 0 && |b| == 0 then 0
    else if |a| == 0 then -1
    else if |b| == 0 then 1
    else if a[0] < b[0] then -1
    else if a[0] > b[0] then 1
    else
      var r := LexCompare(a[1..], b[1..]);
      assert r == 0 ==> a == [a[0]] + a[1..] == [b[0]] + b[1..] == b;
      r
  }

  lemma {:induction false} LexCompareAntisymmetric(a: string, b: string)
    ensures LexCompare(a, b) == -LexCompare(b, a)
  {
    if |a| > 0 && |b| > 0 && a[0] == b[0] {
      LexCompareAntisymmetric(a[1..], b[1..]);
    }
  }

  lemma {:induction false} LexCompareTransitive(a: string, b: string, c: string)
    requires LexCompare(a, b) <= 0 && LexCompare(b, c) <= 0
    ensures LexCompare(a, c) <= 0
  {
    if |a| > 0 && |b| > 0 && |c| > 0 && a[0] == b[0] && b[0] == c[0] {
      LexCompareTransitive(a[1..], b[1..], c[1..]);
    }
  }
}

=== FILE: users.dfy ===
/** Users and sign-up approvals (`UserServiceImpl`, `UserApprovalServiceImpl`):
    validation before every save, the editable fields of an update, role changes,
    and which notification a save sends to whom. Each store is a map from
    document id to record; the email-format check is a parameter. */
module Users {
  import opened Wrappers
  import Text
  import Seqs

  /** The approval states the services tell apart; any other value of the enum
      is carried by name. */
  datatype ApprovalStatus = PENDING | APPROVED | OtherStatus(name: string)

  /** The roles the services tell apart; any other value is carried by name. */
  datatype UserRole = ADMIN | USER | OtherRole(name: string)

  datatype User = User(
    id: Option<string>,
    authId: Option<string>,
    email: Option<string>,
    status: Option<ApprovalStatus>,
    role: Option<UserRole>,
    comment: Option<string>,
    fullName: Option<string>,
    link: Option<string>,
    picture: Option<string>,
    provider: Option<string>,
    createdOn: int,
    updatedOn: int)

  datatype UserApproval = UserApproval(
    id: Option<string>,
    email: Option<string>,
    status: Option<ApprovalStatus>,
    comment: Option<string>,
    createdOn: int,
    updatedOn: int)

  datatype UserError =
    | NotFound
    | EmailRequired
    | InvalidEmail
    | StatusRequired
    | RoleRequired
    | EmailTaken
    | RoleAlreadyAssigned

  /** A message handed to the mail service. */
  datatype Notification =
    | CreationNotice(username: string, email: string)
    | StatusNotice(username: string, email: string, status: ApprovalStatus)
    | RoleNotice(username: string, to: Option<string>, role: UserRole)

  /* ---------- names ---------- */

  /** `getNameFromEmail`: the part before the first '@' with its first character
      upper-cased. The source throws when there is no '@' or nothing before it;
      that is `None` here. */
  function NameFromEmail(email: string): (r: Option<string>)
    ensures r.Some? <==> '@' in email && email[0] != '@'
    ensures r.Some? ==> var k := Seqs.FirstIndex(email, '@');
                        && |r.value| == k
                        && r.value[0] == Text.UpperChar(email[0])
                        && r.value[1..] == email[1..k]
  {
    var k := Seqs.FirstIndex(email, '@');
    if k <= 0 then None else Some([Text.UpperChar(email[0])] + email[1..k])
  }

  /** The name is recovered from any address whose local part is non-empty and
      free of '@'. */
  lemma NameOfAddress(local: string, domain: string)
    requires |local| > 0 && '@' !in local
    ensures NameFromEmail(local + "@" + domain) == Some([Text.UpperChar(local[0])] + local[1..])
  {
    var email := local + "@" + domain;
    assert email[..|local|] == local;
    Seqs.FirstIndexIs(email, '@', |local|);
    assert email[1..|local|] == local[1..];
  }

  /** The name a user notification addresses: the full name when there is a
      non-empty one, else the name taken from the email. */
  function Username(fullName: Option<string>, email: Option<string>): (r: Option<string>)
    ensures fullName.Some? && fullName.value != "" ==> r == fullName
    ensures (fullName.None? || fullName.value == "") && email.Some? ==> r == NameFromEmail(email.value)
    ensures (fullName.None? || fullName.value == "") && email.None? ==> r.None?
  {
    if fullName.Some? && fullName.value != "" then fullName
    else if email.None? then None
    else NameFromEmail(email.value)
  }

  /** `sendNotificationMessage`: a pending record announces a creation, any other
      status announces the status. `None` when no name can be derived (the source
      throws after the save). */
  function StatusNotification(status: ApprovalStatus, username: Option<string>, email: string): (r: Option<Notification>)
    ensures r.Some? <==> username.Some?
    ensures r.Some? && status == PENDING ==> r.value == CreationNotice(username.value, email)
    ensures r.Some? && status != PENDING ==> r.value == StatusNotice(username.value, email, status)
  {
    if username.None? then None
    else if status == PENDING then Some(CreationNotice(username.value, email))
    else Some(StatusNotice(username.value, email, status))
  }

  /* ---------- stores ---------- */

  /** Every stored record carries its own key as id. */
  predicate UsersKeyed(store: map<string, User>) {
    forall k :: k in store ==> store[k].id == Some(k)
  }

  /** No email is held by two stored users. */
  predicate UniqueUserEmails(store: map<string, User>) {
    forall k1, k2 :: k1 in store && k2 in store && store[k1].email.Some? && store[k1].email == store[k2].email ==> k1 == k2
  }

  /** A stored user other than `id` (any stored user when `id` is missing) has
      the email. */
  predicate UserEmailTaken(store: map<string, User>, email: string, id: Option<string>) {
    exists k :: k in store && store[k].email == Some(email) && (id.None? || k != id.value)
  }

  /* ---------- UserServiceImpl ---------- */

  /** `validateData`: email present, well formed, status present, role present,
      and no other user holds the email, checked in that order. */
  function ValidateUser(u: User, store: map<string, User>, validEmail: string -> bool): (r: Option<UserError>)
    ensures u.email.None? ==> r == Some(EmailRequired)
    ensures u.email.Some? && !validEmail(u.email.value) ==> r == Some(InvalidEmail)
    ensures u.email.Some? && validEmail(u.email.value) && u.status.None? ==> r == Some(StatusRequired)
    ensures u.email.Some? && validEmail(u.email.value) && u.status.Some? && u.role.None? ==> r == Some(RoleRequired)
    ensures r.None? <==> (&& u.email.Some? && validEmail(u.email.value) && u.status.Some? && u.role.Some?
                          && !UserEmailTaken(store, u.email.value, u.id))
  {
    if u.email.None? then Some(EmailRequired)
    else if !validEmail(u.email.value) then Some(InvalidEmail)
    else if u.status.None? then Some(StatusRequired)
    else if u.role.None? then Some(RoleRequired)
    else if UserEmailTaken(store, u.email.value, u.id) then Some(EmailTaken)
    else None
  }

  /** A save: the store afterwards, the saved record, the notification sent, and
      whether the notification step threw once the record was already saved. In
      that case the caller receives an error although the store has changed. */
  datatype UserSaved = UserSaved(store: map<string, User>, user: User, notice: Option<Notification>,
                                 raisedAfterSave: bool)

  /** Writing a validated user under its key keeps emails unique. */
  lemma ValidatedSaveKeepsEmailsUnique(store: map<string, User>, key: string, u: User, validEmail: string -> bool)
    requires ValidateUser(u, store, validEmail).None?
    ensures (&& UniqueUserEmails(store)
             && (u.id.None? ==> key !in store)
             && (u.id.Some? ==> key == u.id.value)) ==> UniqueUserEmails(store[key := u])
  {
    if && UniqueUserEmails(store) && (u.id.None? ==> key !in store) && (u.id.Some? ==> key == u.id.value) {
      var s := store[key := u];
      forall k1, k2 | k1 in s && k2 in s && s[k1].email.Some? && s[k1].email == s[k2].email ensures k1 == k2 {
      }
    }
  }

  /** `create`: the creation time is stamped, the record validated and saved
      under its own id or a fresh one, and the status notification sent. */
  function CreateUser(store: map<string, User>, u: User, freshId: string, validEmail: string -> bool, now: int)
    : (r: Result<UserSaved, UserError>)
    requires freshId !in store
    ensures r.Failure? <==> ValidateUser(u, store, validEmail).Some?
    ensures r.Failure? ==> r.error == ValidateUser(u, store, validEmail).value
    ensures r.Success? ==> var key := u.id.GetOr(freshId);
              && r.value.user == u.(id := Some(key), createdOn := now)
              && r.value.store == store[key := r.value.user]
              && r.value.notice == StatusNotification(u.status.value, Username(u.fullName, u.email), u.email.value)
    ensures r.Success? ==> (r.value.raisedAfterSave <==> Username(u.fullName, u.email).None?)
    ensures r.Success? && UniqueUserEmails(store) ==> UniqueUserEmails(r.value.store)
    ensures r.Success? && UsersKeyed(store) ==> UsersKeyed(r.value.store)
  {
    var stamped := u.(createdOn := now);
    match ValidateUser(stamped, store, validEmail)
    case Some(e) => Failure(e)
    case None =>
      var key := u.id.GetOr(freshId);
      var saved := stamped.(id := Some(key));
      assert !UserEmailTaken(store, saved.email.value, saved.id) by {
        if u.id.None? {
          assert key !in store;
        }
      }
      ValidatedSaveKeepsEmailsUnique(store, key, saved, validEmail);
      var notice := StatusNotification(u.status.value, Username(u.fullName, u.email), u.email.value);
      Success(UserSaved(store[key := saved], saved, notice, notice.None?))
  }

  /** `update`: only email, comment, status and role are taken from the request,
      the update time is stamped, and the merged record must validate. */
  function UpdateUser(store: map<string, User>, id: string, u: User, validEmail: string -> bool, now: int)
    : (r: Result<UserSaved, UserError>)
    ensures id !in store ==> r == Failure(NotFound)
    ensures r.Success? ==>
              var prev := store[id];
              && r.value.user == User(prev.id, prev.authId, u.email, u.status, u.role, u.comment,
                                      prev.fullName, prev.link, prev.picture, prev.provider, prev.createdOn, now)
              && r.value.store == store[id := r.value.user]
              && r.value.notice.None? && !r.value.raisedAfterSave
    ensures id in store ==> (r.Failure? <==> ValidateUser(store[id].(email := u.email, comment := u.comment, status := u.status,
                                                                      role := u.role, updatedOn := now), store, validEmail).Some?)
    ensures r.Success? && UniqueUserEmails(store) && UsersKeyed(store) ==> UniqueUserEmails(r.value.store)
  {
    if id !in store then Failure(NotFound)
    else
      var saved := store[id].(email := u.email, comment := u.comment, status := u.status, role := u.role, updatedOn := now);
      match ValidateUser(saved, store, validEmail)
      case Some(e) => Failure(e)
      case None =>
        ValidatedSaveKeepsEmailsUnique(store, id, saved, validEmail);
        Success(UserSaved(store[id := saved], saved, None, false))
  }

  /** `updateStatus`: the status and update time change, without validation,
      and the status notification goes out. A user without an email, or without
      a name to address, makes the notification step throw after the save. */
  function UpdateUserStatus(store: map<string, User>, id: string, status: ApprovalStatus, now: int)
    : (r: Result<UserSaved, UserError>)
    ensures r.Failure? <==> id !in store
    ensures r.Failure? ==> r.error == NotFound
    ensures r.Success? ==>
              && r.value.user == store[id].(status := Some(status), updatedOn := now)
              && r.value.store == store[id := r.value.user]
    ensures r.Success? && store[id].email.Some? ==>
              r.value.notice == StatusNotification(status, Username(store[id].fullName, store[id].email), store[id].email.value)
    ensures r.Success? && store[id].email.None? ==> r.value.notice.None?
    ensures r.Success? ==>
              (r.value.raisedAfterSave <==> store[id].email.None? || Username(store[id].fullName, store[id].email).None?)
    ensures r.Success? && UniqueUserEmails(store) ==> UniqueUserEmails(r.value.store)
  {
    if id !in store then Failure(NotFound)
    else
      var saved := store[id].(status := Some(status), updatedOn := now);
      var notice := if saved.email.None? then None
                    else StatusNotification(status, Username(saved.fullName, saved.email), saved.email.value);
      Success(UserSaved(store[id := saved], saved, notice, notice.None?))
  }

  /** `updateUserRole`: assigning the role the user already has is refused and
      saves nothing; otherwise the role and update time change and the user is
      told the new role, at the stored address even when there is none. Without
      a full name the name comes from the email, and when none can be derived the
      notification step throws after the save. */
  function UpdateUserRole(store: map<string, User>, id: string, role: UserRole, now: int)
    : (r: Result<UserSaved, UserError>)
    ensures r.Failure? <==> id !in store || store[id].role == Some(role)
    ensures id !in store ==> r == Failure(NotFound)
    ensures id in store && store[id].role == Some(role) ==> r == Failure(RoleAlreadyAssigned)
    ensures r.Success? ==>
              && r.value.user == store[id].(role := Some(role), updatedOn := now)
              && r.value.store == store[id := r.value.user]
              && (r.value.notice.Some? ==> r.value.notice.value.RoleNotice? && r.value.notice.value.role == role)
    ensures r.Success? ==> (r.value.notice.Some? <==> Username(store[id].fullName, store[id].email).Some?)
    ensures r.Success? ==> (r.value.raisedAfterSave <==> Username(store[id].fullName, store[id].email).None?)
    ensures r.Success? && Username(store[id].fullName, store[id].email).Some? ==>
              r.value.notice == Some(RoleNotice(Username(store[id].fullName, store[id].email).value, store[id].email, role))
    ensures r.Success? && UniqueUserEmails(store) ==> UniqueUserEmails(r.value.store)
  {
    if id !in store then Failure(NotFound)
    else if store[id].role == Some(role) then Failure(RoleAlreadyAssigned)
    else
      var saved := store[id].(role := Some(role), updatedOn := now);
      var username := Username(saved.fullName, saved.email);
      var notice := if username.None? then None else Some(RoleNotice(username.value, saved.email, role));
      Success(UserSaved(store[id := saved], saved, notice, username.None?))
  }

  /** A role change cannot be repeated: the second identical request is refused. */
  lemma RoleChangeNotRepeatable(store: map<string, User>, id: string, role: UserRole, now: int, later: int)
    requires UpdateUserRole(store, id, role, now).Success?
    ensures var first := UpdateUserRole(store, id, role, now).value;
            UpdateUserRole(first.store, id, role, later) == Failure(RoleAlreadyAssigned)
  {
  }

  /** `delete`: the user must exist and is removed. */
  function DeleteUser(store: map<string, User>, id: string): (r: Result<map<string, User>, UserError>)
    ensures r.Failure? <==> id !in store
    ensures r.Success? ==> id !in r.value && forall k :: k in store && k != id ==> k in r.value && r.value[k] == store[k]
    ensures r.Success? ==> r.value.Keys == store.Keys - {id}
    ensures r.Success? && UniqueUserEmails(store) ==> UniqueUserEmails(r.value)
  {
    if id !in store then Failure(NotFound) else Success(store - {id})
  }

  /** A status written twice leaves the store as the second write alone would. */
  lemma StatusLastWriteWins(store: map<string, User>, id: string, first: ApprovalStatus, second: ApprovalStatus,
                            now: int, later: int)
    requires UpdateUserStatus(store, id, first, now).Success?
    ensures var once := UpdateUserStatus(store, id, first, now).value.store;
            UpdateUserStatus(once, id, second, later).Success?
            && UpdateUserStatus(once, id, second, later).value.store == UpdateUserStatus(store, id, second, later).value.store
  {
    var once := UpdateUserStatus(store, id, first, now).value.store;
    var u := store[id].(status := Some(second), updatedOn := later);
    assert once[id].(status := Some(second), updatedOn := later) == u;
    OverwriteTwice(store, id, once[id], u);
  }

  lemma OverwriteTwice<V>(m: map<string, V>, k: string, a: V, b: V)
    ensures m[k := a][k := b] == m[k := b]
  {
  }

  /** A deleted user is gone for every later write: status, role and a second
      deletion all report it as not found. */
  lemma DeletedUserNotFound(store: map<string, User>, id: string, status: ApprovalStatus, role: UserRole, now: int)
    requires DeleteUser(store, id).Success?
    ensures var rest := DeleteUser(store, id).value;
            && UpdateUserStatus(rest, id, status, now) == Failure(NotFound)
            && UpdateUserRole(rest, id, role, now) == Failure(NotFound)
            && DeleteUser(rest, id) == Failure(NotFound)
  {
  }

  /* ---------- UserApprovalServiceImpl ---------- */

  /** Every stored approval carries its own key as id. */
  predicate ApprovalsKeyed(store: map<string, UserApproval>) {
    forall k :: k in store ==> store[k].id == Some(k)
  }

  /** No email is held by two stored approvals. */
  predicate UniqueApprovalEmails(store: map<string, UserApproval>) {
    forall k1, k2 :: k1 in store && k2 in store && store[k1].email.Some? && store[k1].email == store[k2].email ==> k1 == k2
  }

  predicate ApprovalEmailTaken(store: map<string, UserApproval>, email: string, id: Option<string>) {
    exists k :: k in store && store[k].email == Some(email) && (id.None? || k != id.value)
  }

  /** The approval `validateData`: email present, well formed, status present,
      and no other approval holds the email, in that order. */
  function ValidateApproval(a: UserApproval, store: map<string, UserApproval>, validEmail: string -> bool)
    : (r: Option<UserError>)
    ensures a.email.None? ==> r == Some(EmailRequired)
    ensures a.email.Some? && !validEmail(a.email.value) ==> r == Some(InvalidEmail)
    ensures a.email.Some? && validEmail(a.email.value) && a.status.None? ==> r == Some(StatusRequired)
    ensures r.None? <==> (&& a.email.Some? && validEmail(a.email.value) && a.status.Some?
                          && !ApprovalEmailTaken(store, a.email.value, a.id))
  {
    if a.email.None? then Some(EmailRequired)
    else if !validEmail(a.email.value) then Some(InvalidEmail)
    else if a.status.None? then Some(StatusRequired)
    else if ApprovalEmailTaken(store, a.email.value, a.id) then Some(EmailTaken)
    else None
  }

  /** The approval notification: the name always comes from the email. */
  function ApprovalNotification(status: ApprovalStatus, email: string): (r: Option<Notification>)
    ensures r.Some? <==> NameFromEmail(email).Some?
    ensures r.Some? && status == PENDING ==> r.value == CreationNotice(NameFromEmail(email).value, email)
    ensures r.Some? && status != PENDING ==> r.value == StatusNotice(NameFromEmail(email).value, email, status)
  {
    StatusNotification(status, NameFromEmail(email), email)
  }

  /** An approval save, with the same reading of `raisedAfterSave` as `UserSaved`. */
  datatype ApprovalSaved = ApprovalSaved(store: map<string, UserApproval>, approval: UserApproval,
                                         notice: Option<Notification>, raisedAfterSave: bool)

  lemma ValidatedApprovalKeepsEmailsUnique(store: map<string, UserApproval>, key: string, a: UserApproval,
                                           validEmail: string -> bool)
    requires ValidateApproval(a, store, validEmail).None?
    ensures UniqueApprovalEmails(store) && a.id == Some(key) ==> UniqueApprovalEmails(store[key := a])
  {
    if UniqueApprovalEmails(store) && a.id == Some(key) {
      var s := store[key := a];
      forall k1, k2 | k1 in s && k2 in s && s[k1].email.Some? && s[k1].email == s[k2].email ensures k1 == k2 {
      }
    }
  }

  /** The approval `create`: stamped, validated, saved, announced. */
  function CreateApproval(store: map<string, UserApproval>, a: UserApproval, freshId: string,
                          validEmail: string -> bool, now: int): (r: Result<ApprovalSaved, UserError>)
    requires freshId !in store
    ensures r.Failure? <==> ValidateApproval(a, store, validEmail).Some?
    ensures r.Success? ==> var key := a.id.GetOr(freshId);
              && r.value.approval == a.(id := Some(key), createdOn := now)
              && r.value.store == store[key := r.value.approval]
              && r.value.notice == ApprovalNotification(a.status.value, a.email.value)
              && (r.value.raisedAfterSave <==> NameFromEmail(a.email.value).None?)
    ensures r.Success? && UniqueApprovalEmails(store) ==> UniqueApprovalEmails(r.value.store)
  {
    var stamped := a.(createdOn := now);
    match ValidateApproval(stamped, store, validEmail)
    case Some(e) => Failure(e)
    case None =>
      var key := a.id.GetOr(freshId);
      var saved := stamped.(id := Some(key));
      assert !ApprovalEmailTaken(store, saved.email.value, saved.id) by {
        if a.id.None? {
          assert key !in store;
        }
      }
      ValidatedApprovalKeepsEmailsUnique(store, key, saved, validEmail);
      var notice := ApprovalNotification(a.status.value, a.email.value);
      Success(ApprovalSaved(store[key := saved], saved, notice, notice.None?))
  }

  /** The approval `update`: only email, comment and status are taken from the
      request, the update time is stamped, and the merged record must validate. */
  function UpdateApproval(store: map<string, UserApproval>, id: string, a: UserApproval,
                          validEmail: string -> bool, now: int): (r: Result<ApprovalSaved, UserError>)
    ensures id !in store ==> r == Failure(NotFound)
    ensures r.Success? ==>
              var prev := store[id];
              && r.value.approval == UserApproval(prev.id, a.email, a.status, a.comment, prev.createdOn, now)
              && r.value.store == store[id := r.value.approval]
              && r.value.notice.None? && !r.value.raisedAfterSave
    ensures id in store ==>
              (r.Failure? <==> ValidateApproval(store[id].(email := a.email, comment := a.comment, status := a.status,
                                                          updatedOn := now), store, validEmail).Some?)
    ensures id in store && r.Failure? ==>
              Some(r.error) == ValidateApproval(store[id].(email := a.email, comment := a.comment, status := a.status,
                                                           updatedOn := now), store, validEmail)
    ensures r.Success? && UniqueApprovalEmails(store) && ApprovalsKeyed(store) ==> UniqueApprovalEmails(r.value.store)
  {
    if id !in store then Failure(NotFound)
    else
      var saved := store[id].(email := a.email, comment := a.comment, status := a.status, updatedOn := now);
      match ValidateApproval(saved, store, validEmail)
      case Some(e) => Failure(e)
      case None =>
        ValidatedApprovalKeepsEmailsUnique(store, id, saved, validEmail);
        Success(ApprovalSaved(store[id := saved], saved, None, false))
  }

  /** The approval `updateStatus`: status and update time change, and the
      status notification goes out. An approval without an email, or whose email
      yields no name, makes the notification step throw after the save. */
  function UpdateApprovalStatus(store: map<string, UserApproval>, id: string, status: ApprovalStatus, now: int)
    : (r: Result<ApprovalSaved, UserError>)
    ensures r.Failure? <==> id !in store
    ensures r.Success? ==>
              && r.value.approval == store[id].(status := Some(status), updatedOn := now)
              && r.value.store == store[id := r.value.approval]
              && (store[id].email.Some? ==> r.value.notice == ApprovalNotification(status, store[id].email.value))
              && (store[id].email.None? ==> r.value.notice.None?)
              && (r.value.raisedAfterSave <==> store[id].email.None? || NameFromEmail(store[id].email.value).None?)
    ensures r.Failure? ==> r.error == NotFound
    ensures r.Success? && UniqueApprovalEmails(store) ==> UniqueApprovalEmails(r.value.store)
  {
    if id !in store then Failure(NotFound)
    else
      var saved := store[id].(status := Some(status), updatedOn := now);
      var notice := if saved.email.None? then None else ApprovalNotification(status, saved.email.value);
      Success(ApprovalSaved(store[id := saved], saved, notice, notice.None?))
  }

  /** An approval status written twice leaves the store as the second write
      alone would. */
  lemma ApprovalStatusLastWriteWins(store: map<string, UserApproval>, id: string, first: ApprovalStatus,
                                    second: ApprovalStatus, now: int, later: int)
    requires UpdateApprovalStatus(store, id, first, now).Success?
    ensures var once := UpdateApprovalStatus(store, id, first, now).value.store;
            UpdateApprovalStatus(once, id, second, later).Success?
            && UpdateApprovalStatus(once, id, second, later).value.store
               == UpdateApprovalStatus(store, id, second, later).value.store
  {
    var once := UpdateApprovalStatus(store, id, first, now).value.store;
    var a := store[id].(status := Some(second), updatedOn := later);
    assert once[id].(status := Some(second), updatedOn := later) == a;
    OverwriteTwice(store, id, once[id], a);
  }
}

=== FILE: wrappers.dfy ===
/** Failure-compatible wrappers: `Option` stands for a Java reference that may be
    null, `Result` for a value or the exception that replaced it. */
module Wrappers {

  datatype Option<+T> = None | Some(value: T) {

    predicate IsFailure() {
      None?
    }

    function PropagateFailure<U>(): Option<U>
      requires None?
    {
      None
    }

    function Extract(): T
      requires Some?
    {
      value
    }

    /** The wrapped value, or `default` when there is none. */
    function GetOr(default: T): T {
      match this
      case Some(v) => v
      case None => default
    }
  }

  datatype Result<+T, +E> = Success(value: T) | Failure(error: E) {

    predicate IsFailure() {
      Failure?
    }

    function PropagateFailure<U>(): Result<U, E>
      requires Failure?
    {
      Failure(error)
    }

    function Extract(): T
      requires Success?
    {
      value
    }
  }
}
